=== FILE: README.md ===
# metro-rush in Dafny

metro-rush reads a description of a metro network and moves a number of trains from a
start station to an end station in as few turns as it can.

A network description has three kinds of lines:

- `#Line name` headers;
- station lines `index:name` and `index:name:Conn: Other line`;
- the three special lines `TRAINS=`, `START=` and `END=`.

The solver works in three stages:

1. It finds paths from the start to the end whose inner stations are pairwise disjoint.
   It uses a breadth-first search that freezes each path's interior before searching again.
2. It divides the trains greedily among those paths. Each train goes to the path of least
   current cost, and a path's cost grows by 1 per train, or by 2 when the path has a
   crossing station.
3. It moves the trains one turn at a time. No two trains share an inner station.

The project models four Python files in five Dafny modules:

| module | file | models |
|---|---|---|
| `Text` | `text.dfy` | the string operations the reader relies on: `startswith`, `in`, a two-way `split`, `str` and `int` on integers |
| `BaseMetro` | `base_metro.dfy` | `base_metro.py`: stations, lines, paths and trains |
| `ReadInput` | `read_input.dfy` | `read_input.py`: the line-by-line reader of the description |
| `MapMetro` | `map_metro.dfy` | `map_metro.py`: the map, its validation, the neighbour rule, the breadth-first search and the greedy path construction |
| `RunMetro` | `run_metro.dfy` | `run_metro.py`: train allocation, train numbering and one turn of movement |

`wrappers.dfy` holds `Option` and `Result`.

Python links stations and lines as objects and compares them by identity. The model keeps
every station and every line in an arena (`Graph.stations`, `Graph.lines`) and names it by
its position there. A station's alias (`alter_station`) and its owning line are such ids.

The reader and the map update objects in place, so each is a class:

- `ReadInput.Reader` holds a `BaseMetro.Network`, which owns the two arenas.
- `MapMetro.Map` holds the ignore list and the paths found so far.

Most methods are proved against a specification function on values, and the properties
are proved about those functions. For example:

- `Reader.AnalyzeSingleLine` is proved against `Step`;
- `Map.CreateQueueStationsDict` against `Search`, the `while queue` loop as a function;
- `GetPathFromDict` against `WalkBack`, and `Map.BreadthFirstSearch` against `BfsPath`;
- `Map.SearchRound` against `Selection`, `Map.RoundAndCommit` against `NextRound` and
  `Map.FindPossiblePaths` against `Explored`: `Replay` of the rounds run one after another,
  with the loop's stop condition.

The `Network` methods, `Map.AddNextToPath`, `Map.CommitPath` and `RunMetro.MoveTheTrain`
state their new state directly instead.

The Python program stops with `print_error_and_exit` in some cases. An exception that
escapes a reader line ends at the driver's catch-all handler. Both are values of
`ReadInput.ExitError`:

- `InvalidFile` is the `'data'` error;
- `ReachedEnd` is the `'end'` error;
- `Crash` is an exception.

## Model

| member | source | states |
|---|---|---|
| `Text.Find` | read_input.py:103 | the result is the leftmost position where the separator occurs; None means it occurs nowhere |
| `Text.SplitTwo` | read_input.py:63 | `a, b = s.split(sep)` succeeds exactly when the separator occurs once; the two parts joined by the separator give back the text, and neither part contains the separator |
| `Text.ParseInt` | base_metro.py:66 | `int(s)` succeeds exactly on a run of decimal digits, optionally preceded by `+` or `-` |
| `Text.IntRoundTrip` | base_metro.py:89 | reading back `str(i)` with `int` gives `i` |
| `BaseMetro.Graph.Position` | base_metro.py:84-89 | a station's position text starts with its own line's name followed by a colon |
| `BaseMetro.Graph.PositionReadsBack` | base_metro.py:84-89 | what follows the line name and the colon in a position reads back as the station's index |
| `BaseMetro.Graph.FindIn` | base_metro.py:147-151 | the index found holds a station that matches by name, position or index; None means no station of the list matches |
| `BaseMetro.Graph.FindInFirst` | base_metro.py:147-151 | no station before the one found matches |
| `BaseMetro.Graph.FindStation` | base_metro.py:139-151 | `find_station` returns a station of that line that matches the value, or None when none does |
| `BaseMetro.Graph.FindStationFirst` | base_metro.py:147-150 | the station returned is the first match in the line's list order |
| `BaseMetro.WithLine` | base_metro.py:91-97 | `add_line` keeps the old names, adds the new one at most once, and keeps a duplicate-free list duplicate-free |
| `BaseMetro.WithLineIdempotent` | base_metro.py:96-97 | adding the same line name twice is the same as adding it once |
| `BaseMetro.NewPath` | base_metro.py:162-178 | a new path carries no train and has no train list |
| `BaseMetro.NewTrain` | base_metro.py:13-25 | a new train is at its station with its number and has no station scheduled |
| `BaseMetro.Network.NewLine` | base_metro.py:122-130 | a new line with that name and no station is appended to the line arena; no station changes |
| `BaseMetro.Network.NewStation` | base_metro.py:51-71 | a new station holds its index and name, is owned by its line, has that line's name as its only line name and has no alias |
| `BaseMetro.Network.AddLine` | base_metro.py:91-97 | only the one station's line list changes, and it changes as `WithLine` says |
| `BaseMetro.Network.SetLineList` | read_input.py:119-120 | only the one station's line list changes, to the given list |
| `BaseMetro.Network.AddAlter` | base_metro.py:99-106 | each of the two stations names the other as its alias; no other station changes |
| `BaseMetro.Network.SetStations` | read_input.py:25 | only the one line's station list changes |
| `ReadInput.KindOf` | read_input.py:84-127 | the line tests are made in the source's order: `#` header, then `=`, then `:Conn:`, otherwise a plain station, each stated as an if-and-only-if |
| `ReadInput.Initial` | read_input.py:172-177 | the reader starts with only the unnamed placeholder line and satisfies its invariant |
| `ReadInput.Alias` | read_input.py:28-29 | the first and last stations name each other as aliases; every other station, and every other field, is unchanged |
| `ReadInput.Finalise` | read_input.py:16-29 | `update_line` keeps the reader's invariant |
| `ReadInput.FinaliseParts` | read_input.py:25-29 | `update_line` gives the current line the station list and appends it to the line list; it makes the first and last stations aliases exactly when their names agree |
| `ReadInput.HeaderStep` | read_input.py:85-91 | a header line keeps the reader's invariant |
| `ReadInput.SpecialStep` | read_input.py:94-100 | an `=` line that succeeds keeps the reader's invariant |
| `ReadInput.CreatedStation` | read_input.py:53-64 | `create_station` appends exactly one station, which no line lists yet and whose name is the text after the colon; the lines do not change |
| `ReadInput.Append` | read_input.py:121-127 | appending keeps the invariant, extends the station list by the new station and changes nothing else |
| `ReadInput.PlainStep` | read_input.py:123-127 | a plain station line that succeeds keeps the reader's invariant |
| `ReadInput.AddAll` | read_input.py:112-113 | adding every old line name keeps the station's own names, holds exactly the union of the two, and adds no repeat to a list without repeats |
| `ReadInput.WithLineList` | read_input.py:120 | rebinding one station's line list changes nothing else |
| `ReadInput.Rebind` | read_input.py:117-120 | the loop over the finalised lines changes only line lists |
| `ReadInput.ConnectionList` | read_input.py:104-115 | a connection station's line list holds exactly its own line, the connected line and the lines already in the dictionary for its name |
| `ReadInput.ConnectionGraph` | read_input.py:106-120 | the new connection station takes the merged list, and the lines do not change |
| `ReadInput.ConnectionStep` | read_input.py:103-121 | a connection line that succeeds keeps the reader's invariant |
| `ReadInput.Step` | read_input.py:8-129 | `analyze_single_line` keeps the reader's invariant |
| `ReadInput.HeaderOpensLine` | read_input.py:85-91 | a header never fails; it opens an empty line named by the rest of the text and resets the station list; it finalises the previous line exactly when that line had stations |
| `ReadInput.SpecialRecords` | read_input.py:94-100 | an `=` line fails exactly when it is the first one with no station to finalise, or when the text has not exactly one `=`; otherwise it records key and value; only the first one finalises the line and shares its station list |
| `ReadInput.CircularAlias` | read_input.py:27-29 | finalising aliases the first and last stations exactly when their names agree; no other station changes |
| `ReadInput.PlainCreates` | read_input.py:123-127 | a plain line fails exactly on text that is not `index:name` with an integer index, or on the unnamed placeholder line; otherwise exactly one station is added and it joins the station list |
| `ReadInput.FindInIgnoresLineList` | base_metro.py:147-149 | changing line lists never changes what `find_station` finds |
| `ReadInput.RebindHit` | read_input.py:117-120 | every station a finalised line finds under the name ends up with the new line list |
| `ReadInput.RebindMiss` | read_input.py:117-120 | a station that no finalised line finds is left exactly as it was |
| `ReadInput.ConnectionMerges` | read_input.py:103-121 | a connection station belongs to its own line and to the connected line; the dictionary maps its name to the union of every line name seen for it, which is also the station's list; no other key changes |
| `ReadInput.ConnectionRebinds` | read_input.py:106-120 | for a name already in the dictionary, every same-named station of a finalised line ends up with the dictionary's list |
| `ReadInput.NonEmptyLines` | read_input.py:165-167 | the result holds only non-empty lines of the input, and all of them |
| `ReadInput.NonEmptyLinesAppend` | read_input.py:165-167 | dropping the empty lines is an order-keeping filter: it distributes over concatenation, drops `""` and keeps any other single line |
| `ReadInput.RemoveFirst` | read_input.py:167 | `list.remove` takes out exactly one occurrence of the value and keeps everything else |
| `ReadInput.RemoveEmptyKeeps` | read_input.py:166-167 | each turn of `while '' in data: data.remove('')` leaves the non-empty lines, in order, as they were |
| `ReadInput.NoEmptyFixed` | read_input.py:166 | once no empty line is left, the list is its own non-empty lines, so the loop ends with `NonEmptyLines` of the input |
| `ReadInput.Run` | read_input.py:180-183 | the reader's invariant holds after any sequence of lines |
| `ReadInput.StepFailsByCrash` | read_input.py:8-129 | a single line can fail only by raising an exception, never with an invalid-data verdict |
| `ReadInput.RunFailsByCrash` | read_input.py:180-183 | the same holds for a whole run of lines |
| `ReadInput.Reader.constructor` | read_input.py:172-177 | the reader starts in the initial state |
| `ReadInput.Reader.UpdateLine` | read_input.py:16-29 | the new state is `Finalise` of the old one |
| `ReadInput.Reader.CreateStation` | read_input.py:53-64 | it succeeds or fails exactly as `CreatedStation` says; on failure the network is unchanged |
| `ReadInput.Reader.AppendStation` | read_input.py:121-127 | the new state is `Append` of the old one, so a shared list reaches the current line too |
| `ReadInput.AddLinesTo` | read_input.py:112-113 | the loop leaves the station with `AddAll` of its list, and no other station changes |
| `ReadInput.RebindNetwork` | read_input.py:117-120 | the loop leaves the network as `Rebind` says |
| `ReadInput.Reader.AddLines` | read_input.py:112-113 | the same on the reader's network, keeping the reader's invariant |
| `ReadInput.Reader.RebindLines` | read_input.py:117-120 | the same over the reader's finalised lines, keeping the reader's invariant |
| `ReadInput.Reader.MergeCrossing` | read_input.py:104-120 | the dictionary and the network change as `ConnectionList` and `ConnectionGraph` say |
| `ReadInput.Reader.MergeExisting` | read_input.py:108-120 | for a name already in the dictionary: the station takes the union, the dictionary takes it, and the finalised lines are rebound |
| `ReadInput.Reader.ConnectionLine` | read_input.py:103-121 | the new state, or the failure, is exactly `ConnectionStep` |
| `ReadInput.Reader.HeaderLine` | read_input.py:85-91 | the new state is exactly `HeaderStep` |
| `ReadInput.Reader.SpecialLine` | read_input.py:94-100 | the new state, or the failure, is exactly `SpecialStep` |
| `ReadInput.Reader.AnalyzeSingleLine` | read_input.py:8-129 | the new state, or the failure, is exactly `Step` |
| `ReadInput.DropEmptyLines` | read_input.py:164-168 | the loop yields `NonEmptyLines` |
| `ReadInput.AnalyzeAllData` | read_input.py:170-189 | a failing line ends the read with its error; otherwise the data is accepted exactly when the last station list is non-empty, a line was finalised and there are exactly three special keys, and it is invalid data if not |
| `MapMetro.GetLine` | map_metro.py:101-111 | the line returned is a line of the map with that name; None means no line of the map has it |
| `MapMetro.GetLineFirst` | map_metro.py:108-111 | the line returned is the first of that name in map order |
| `MapMetro.GetLineFound` | map_metro.py:108-111 | a name some line of the map carries is always found |
| `MapMetro.FindInLines` | map_metro.py:43-54 | the station returned is what `find_station` returns on some line of the map; None means every line misses |
| `MapMetro.SetInitData` | map_metro.py:41-99 | it is invalid data exactly when there is an unknown key, a non-integer or sub-one train count, or an unresolved START or END; it is the end error exactly when the start is the end or the end's alias; otherwise it returns the train count and both stations |
| `MapMetro.SetInitDataOnMap` | map_metro.py:50-54 | the start and end stations accepted lie on the map |
| `MapMetro.CrossStep` | map_metro.py:144-158 | one line name adds at most its counterpart station, and only stations of the map |
| `MapMetro.CrossStepEndLineFirst` | map_metro.py:153-158 | one step keeps the end line's counterparts before all others |
| `MapMetro.CrossListEndLineFirst` | map_metro.py:137-159 | `find_cross_stations` puts counterparts on the end station's line before every other counterpart |
| `MapMetro.CrossListOnMap` | map_metro.py:137-159 | every counterpart lies on the map |
| `MapMetro.FilterPairs` | map_metro.py:161-170 | the pairs are `(x, st)` for exactly the candidates x that are neither recorded nor ignored |
| `MapMetro.InLineStation` | map_metro.py:178-179 | the in-line station is a station of `st`'s own line |
| `MapMetro.InLineStationFound` | map_metro.py:178-183 | a station listed on its own line always finds an in-line station |
| `MapMetro.IndexNeighbours` | map_metro.py:128-133 | index neighbours are stations of the given line |
| `MapMetro.OneNeighbour` | map_metro.py:129-135 | one index contributes at most one pair |
| `MapMetro.NeighbourStep` | map_metro.py:128-135 | the pairs for one more index are the earlier ones followed by that index's own |
| `MapMetro.NearPairsSound` | map_metro.py:113-201 | every neighbour pair is `(x, st)` with x on the map, neither recorded nor ignored |
| `MapMetro.SelectAll` | map_metro.py:339-340 | the selection is empty or one of the candidates |
| `MapMetro.SelectAllFirstMin` | map_metro.py:358-362 | without empty candidates, the selection is the first candidate of minimum length |
| `MapMetro.EmptyCandidateClears` | map_metro.py:339-340 | an empty last candidate clears the selection, because its length is below any other |
| `MapMetro.Reverse` | map_metro.py:263 | the reversal has the same length and reads the sequence backwards |
| `MapMetro.IgnoreCross` | map_metro.py:278-292 | `ignore_cross` only appends to the ignore list |
| `MapMetro.Counterpart` | map_metro.py:287-290 | a counterpart is a station of the named map line that matches the name |
| `MapMetro.IgnoreMiddle` | map_metro.py:315-322 | freezing only appends, and every interior station ends up ignored |
| `MapMetro.CommitKeepsPathsOk` | map_metro.py:342-346 | committing a fresh path after freezing its interior keeps the paths repeat-free and pairwise interior-disjoint, and strictly shrinks the set of unignored stations |
| `MapMetro.AddDirectKeepsPathsOk` | map_metro.py:294-300 | adding the missing direct path keeps the path invariant |
| `MapMetro.NearPairsFresh` | map_metro.py:189-201 | every neighbour pair names a station of the arena that is not yet recorded |
| `MapMetro.SearchUnfold` | map_metro.py:222-227 | `Search`, the whole `while queue` loop as a function, unfolds one turn at a time: record the head with its predecessor, stop if it is the end or the end's alias, otherwise go on with the head's neighbour pairs appended |
| `MapMetro.SearchMeasure` | map_metro.py:222-227 | a turn either records a new station or keeps the recorded set and shortens the stale part of the queue, so the loop ends |
| `MapMetro.Searched` | map_metro.py:328-337 | the pairs of a round searched from are pairs of the round that touch neither the end nor its alias |
| `MapMetro.HasDirect` | map_metro.py:331-333 | true exactly when some pair of the round touches the end or its alias |
| `MapMetro.SearchedStep` | map_metro.py:328-337 | one more pair is searched from exactly when it is not direct, and it is direct exactly when it touches the end or its alias |
| `MapMetro.CandidatesStep` | map_metro.py:337 | each searched pair contributes its own `nearby_bfs` result, in order |
| `MapMetro.RoundDirect` | map_metro.py:331-334 | a direct pair adds the direct path unless it is already there, and changes nothing else in the round |
| `MapMetro.RoundSearched` | map_metro.py:337-340 | any other pair adds its candidate, which the selection considers next |
| `MapMetro.RoundEnd` | map_metro.py:339-342 | at the end of a round the selection is empty exactly when no pair was searched from or the search from the last searched pair missed the end |
| `MapMetro.SelectAllEmpty` | map_metro.py:339-340 | the selection is empty exactly when there is no candidate or the last one is empty |
| `MapMetro.DequeueStep` | map_metro.py:222-224 | dequeuing and recording keeps the search invariant and lowers the termination measure |
| `MapMetro.ExtendStep` | map_metro.py:227 | appending a recorded station's neighbour pairs keeps the search invariant and adds no stale entry |
| `MapMetro.ReversedWalk` | map_metro.py:255-264 | the reversed walk plus start runs from the start to the end without repeats |
| `MapMetro.WalkBack` | map_metro.py:241-247 | the walk back from `x` is empty exactly when `x` is the start or the start's alias |
| `MapMetro.WalkBackShape` | map_metro.py:241-247 | the walk back starts at `x`; no station of it is the start or has the start as alias; each next station is the recorded predecessor (`Pred`) of the one before, looked up under the station or else under its alias; no station repeats |
| `MapMetro.WalkStep` | map_metro.py:242-247 | one turn of the walk-back loop appends the current station, moves to its recorded predecessor, which ranks lower, and keeps the walk state |
| `MapMetro.WalkDone` | map_metro.py:241-247 | when the loop stops the path built is the whole walk back, its stations are in the arena, the predecessor of its last station is the start or has the start as alias, and every station after the first was recorded |
| `MapMetro.WalkRecorded` | map_metro.py:243-247 | after its first station, a walk back names only recorded stations |
| `MapMetro.GetPathFromDict` | map_metro.py:230-247 | the loop yields `WalkBack` from the end: it terminates, each station after the first is recorded, and the predecessor of the last one is the start or has the start as alias |
| `MapMetro.BfsPath` | map_metro.py:249-264 | the path is non-empty exactly when the end or its alias was recorded, and then starts at the start and is one station longer than the walk back |
| `MapMetro.GetBfsPath` | map_metro.py:249-264 | the path is `BfsPath`: empty when neither the end nor its alias was recorded, otherwise the walk back from the end, followed by the start, reversed |
| `MapMetro.BfsPathShape` | map_metro.py:249-264 | the path is `[s]` when `s` is the end or its alias; otherwise a non-empty one reaches `e` without repeats through recorded, hence unignored, stations of the map |
| `MapMetro.NearbyCandidate` | map_metro.py:302-313 | what `breadth_first_search` returns from a neighbour that is not the end makes `NearbyPath` a candidate: empty exactly when the end is out of reach, otherwise a fresh path through that neighbour |
| `MapMetro.CandidatesFor` | map_metro.py:329-337 | one candidate per searched pair, in order, each `NearbyPath` of that pair's station |
| `MapMetro.CandidatesOfIs` | map_metro.py:329-337 | the candidates a round gathers are exactly `CandidatesFor` its searched pairs |
| `MapMetro.CandidatesFresh` | map_metro.py:337-340 | every candidate of a round is empty or a fresh path |
| `MapMetro.Selection` | map_metro.py:327-340 | a round's selection is empty when the round has no pair |
| `MapMetro.RoundDone` | map_metro.py:327-340 | after all its pairs a round has added the direct path as `DirectAdd` says, its candidates are `CandidatesFor` the searched pairs, each empty or fresh, and its choice is `Selection`, empty exactly when the round selects nothing |
| `MapMetro.DirectAdd` | map_metro.py:294-300 | the paths only grow, by at most one; they grow exactly when some pair touches the end or its alias and the direct path is not there yet, and then by the direct path |
| `MapMetro.DirectAddTwice` | map_metro.py:294-300 | adding the direct path again for the same pairs changes nothing |
| `MapMetro.InteriorIds` | map_metro.py:319 | the interior of a fresh path names stations of the arena |
| `MapMetro.Freeze` | map_metro.py:315-322 | freezing a selected path only appends to the ignore list and leaves every interior station ignored |
| `MapMetro.NoPairsIdle` | map_metro.py:325-326 | with no pair of the start left, another round changes neither list |
| `MapMetro.IdleRound` | map_metro.py:342-351 | a round run again right after one that selected nothing changes neither list |
| `MapMetro.FilterPairsMono` | map_metro.py:161-170 | ignoring more stations only removes cross pairs |
| `MapMetro.NextPairsMono` | map_metro.py:122-135 | ignoring more stations only removes the pairs of one index |
| `MapMetro.InLinePairsMono` | map_metro.py:172-186 | ignoring more stations only removes in-line pairs |
| `MapMetro.NearPairsMono` | map_metro.py:113-201 | every neighbour pair under a longer ignore list is a pair under a shorter one |
| `MapMetro.SelectionEmpty` | map_metro.py:327-342 | a round's selection is empty exactly when the round selects nothing |
| `MapMetro.NextRoundPaths` | map_metro.py:327-346 | a round keeps its paths and adds the direct path for the pairs it finds |
| `MapMetro.ReplayKeepsDirect` | map_metro.py:324-352 | when a first-round pair touches the end, the direct path is among the paths after every later round |
| `MapMetro.ExploredDirect` | map_metro.py:324-352 | when a pair of the start still touches the end after the search, the direct path is among the paths found |
| `MapMetro.ExploredSettled` | map_metro.py:324-352 | the lists `find_possible_paths` leaves are a fixpoint of the loop body: one more round changes neither |
| `MapMetro.IgnoreCrossSnoc` | map_metro.py:284-292 | `ignore_cross` over one more line name appends that line's counterpart unless it is missing or already ignored |
| `MapMetro.FirstShortest` | map_metro.py:358-362 | the selection over the paths found is empty when there is none, otherwise the first path of minimum length |
| `MapMetro.Map.constructor` | map_metro.py:17-39 | the map holds what `SetInitData` accepted; the ignore list is the start station followed by its alias, if any; no paths yet; the map invariant holds |
| `MapMetro.Map.GetNearStationPairs` | map_metro.py:189-201 | the pairs are exactly `NearPairs`: counterparts first (end line first), then in-line neighbours |
| `MapMetro.Map.FindCrossStations` | map_metro.py:137-159 | the loop yields `CrossList` |
| `MapMetro.Map.AddCrossPairs` | map_metro.py:161-170 | the loop yields `FilterPairs` |
| `MapMetro.Map.FindInLineStations` | map_metro.py:172-187 | the in-line neighbours are appended to the pairs so far |
| `MapMetro.Map.PairsAround` | map_metro.py:183-186 | the neighbours of the in-line station are appended, then those of its alias |
| `MapMetro.Map.GetNextStationPair` | map_metro.py:122-135 | the loop appends the unexcluded stations at index+1 then index-1 |
| `MapMetro.Map.CreateQueueStationsDict` | map_metro.py:211-228 | the recorded stations are exactly `Search` from the queue `[(s, e)]`; they include the seed and only unignored stations of the map, each after its predecessor; with start equal to the end, or to the end's alias, only the seed is recorded |
| `MapMetro.Map.RunQueue` | map_metro.py:219-228 | the loop ends with exactly what `Search` records from `[(s, e)]`, which keeps the search invariant |
| `MapMetro.Map.SearchStep` | map_metro.py:222-227 | one turn records the head, stops exactly at the end or its alias, otherwise enqueues the head's neighbour pairs; what `Search` records is unchanged by the turn; the invariant holds and the measure falls |
| `MapMetro.Map.Dequeue` | map_metro.py:223-224 | the head is removed and recorded with its predecessor |
| `MapMetro.Map.Enqueue` | map_metro.py:227 | the queue is extended by `NearPairs` of the station, keeping the invariant |
| `MapMetro.Map.BreadthFirstSearch` | map_metro.py:203-268 | the path is `BfsPath` of what `Search` records from `[(s, e)]`; it is non-empty exactly when that search records the end or its alias; it starts at `s`, is `[s]` when `s` is the end or its alias, and otherwise reaches `e` without repeats through unignored stations of the map |
| `MapMetro.Map.AddNextToPath` | map_metro.py:294-300 | the direct path joins the list exactly when it is not there yet |
| `MapMetro.Map.NearbyBfs` | map_metro.py:302-313 | the path is `NearbyPath`: the start followed by `breadth_first_search` from the neighbour; it is non-empty exactly when that search reaches the end, and then a fresh path from the start to the end whose second station is that neighbour |
| `MapMetro.Map.IgnoreCrossStation` | map_metro.py:278-292 | the loop yields `IgnoreCross`; nothing changes for the start or the end |
| `MapMetro.Map.IgnoreMiddleStations` | map_metro.py:315-322 | the loop yields `IgnoreMiddle` of the interior |
| `MapMetro.Map.SearchRound` | map_metro.py:327-340 | the paths become `DirectAdd`: the direct path is added exactly when some pair touches the end or its alias and it is not there yet; the candidates are `CandidatesFor` the searched pairs, in order; the choice is their selection, `Selection` of the round, empty exactly when the round selects nothing; every candidate is empty or fresh; the ignore list is unchanged |
| `MapMetro.Map.ConsiderPair` | map_metro.py:329-340 | one pair of the round: a direct pair adds the direct path, any other is searched from and offered to the selection |
| `MapMetro.Map.RoundAndCommit` | map_metro.py:327-351 | the new ignore list and paths are `NextRound` of the old ones; a round commits exactly when its `Selection` is not empty, which is exactly when it does not select nothing, and the selection is then a fresh path; a failing round keeps the ignore list and may still add the direct path; a committing round shrinks the unignored stations |
| `MapMetro.Map.FindPossiblePaths` | map_metro.py:324-352 | the loop terminates; the lists are `Explored`: `Replay` of the old ones over the rounds run, only lengthened, with at least one round exactly when the start has a neighbour pair, and at the end the start has no pair left or the last round selects nothing; the paths found are the direct path or fresh paths, none repeated, with pairwise disjoint interiors |
| `MapMetro.Map.RunRounds` | map_metro.py:326-351 | the `while near_stations` loop entered with pairs runs at least one round and leaves `Replay` of the lists over the rounds run, stopped as the loop stops |
| `MapMetro.Map.CommitPath` | map_metro.py:342-346 | the path is appended, its interior frozen, and the unignored stations shrink |
| `MapMetro.SelectShortest` | map_metro.py:358-362 | the loop yields `SelectAll` of the paths |
| `MapMetro.Map.GetShortestPath` | map_metro.py:354-363 | the lists are what `find_possible_paths` leaves (`Explored`), and the result is a one-element list holding the first of those paths of minimum length, or the empty path when none was found |
| `RunMetro.FindDelta` | run_metro.py:161-174 | 2 exactly when some station is a crossing, 1 exactly when none is |
| `RunMetro.InitialPaths` | run_metro.py:188-193 | path i has index i, its stations, cost len - 1, its delta and no train |
| `RunMetro.InsertByCostFacts` | run_metro.py:196 | insertion adds exactly one element and keeps every other; the train total and the index multiset grow by that element |
| `RunMetro.InsertByCostSorted` | run_metro.py:196 | insertion into a list sorted by cost keeps it sorted |
| `RunMetro.SortByCostPermutes` | run_metro.py:196 | the sort is a permutation (the same multiset of paths, hence the same train total and indices) and is ordered by cost |
| `RunMetro.InsertByCostMultiset` | run_metro.py:196 | insertion adds exactly that path to the multiset |
| `RunMetro.SortByCostMultiset` | run_metro.py:196 | sorting keeps the multiset of paths |
| `RunMetro.SortByCostOrdered` | run_metro.py:196 | sorting keeps membership, the train total and the indices, and orders by cost |
| `RunMetro.CostFilter` | run_metro.py:196 | the paths of one cost, taken from the list |
| `RunMetro.CostFilterSnoc` | run_metro.py:196 | the paths of one cost in a list with one more path at the end |
| `RunMetro.InsertByCostStable` | run_metro.py:196 | inserting into a sorted list puts the path after every path of its own cost |
| `RunMetro.SortByCostStable` | run_metro.py:196 | the sort is stable, as `list.sort` is: the paths of any one cost come out in the order in which they went in |
| `RunMetro.SortByCostHead` | run_metro.py:196 | the head after sorting is the first path of minimum cost |
| `RunMetro.AssignChoosesFirstMin` | run_metro.py:196-198 | each train goes to the first path of minimum cost, whose cost grows by its delta and count by one |
| `RunMetro.AssignKeeps` | run_metro.py:196-198 | one assignment keeps every path consistent, adds one train in total and keeps the indices |
| `RunMetro.SplitTrainSpec` | run_metro.py:177-200 | after n assignments the paths are a permutation of the inputs, the counts sum to n, and each cost is len - 1 plus delta per train |
| `RunMetro.InitialPathsFacts` | run_metro.py:188-193 | before assignment the paths carry no trains and are consistent |
| `RunMetro.MakePaths` | run_metro.py:188-193 | the loop yields `InitialPaths` |
| `RunMetro.SplitTrain` | run_metro.py:177-200 | the result is `AssignAll` of the initial paths, once per train (none for a count below one) |
| `RunMetro.NumberedAt` | run_metro.py:226-232 | path k keeps everything but its train list, which holds its count of new trains numbered on from the earlier paths |
| `RunMetro.NumberedTrains` | run_metro.py:226-232 | all trains together are numbered from 1 without gap or repeat, as many as the counts add up to, all at the start |
| `RunMetro.GetAllTrain` | run_metro.py:203-213 | the train lists of all paths, in path order |
| `RunMetro.TrainList` | run_metro.py:228-231 | the inner loop yields that many new trains with consecutive numbers |
| `RunMetro.GetPathObjectList` | run_metro.py:216-233 | the split paths, numbered from 1 |
| `RunMetro.CheckIfAllTrainArrivedEnd` | run_metro.py:66-77 | true exactly when every train is at the end |
| `RunMetro.BusyOfMembers` | run_metro.py:88-92 | a station is busy exactly when it is not the end and some train has it scheduled |
| `RunMetro.GetBusyStation` | run_metro.py:80-92 | the loop yields `BusyOf` |
| `RunMetro.ClaimIndex` | run_metro.py:121-126 | the first index holding the train's station that has a following station; none before it |
| `RunMetro.GetNextStep` | run_metro.py:95-126 | the loop yields `NextStep`: schedule the following station if it is not busy and mark it busy, or stay |
| `RunMetro.GetNextStepForAllTrain` | run_metro.py:129-142 | the trains decide in list order on the growing busy list |
| `RunMetro.ChangePosition` | run_metro.py:145-158 | every train moves to the station it scheduled |
| `RunMetro.MoveTheTrain` | run_metro.py:236-250 | each path's trains make one turn on their own path; nothing else changes |
| `RunMetro.DecideKeeps` | run_metro.py:136-141 | a turn changes only schedules; a train off the path keeps its schedule, and one that does not advance schedules its own station |
| `RunMetro.DecideBusy` | run_metro.py:113-116 | the busy list grows by exactly the stations advanced into |
| `RunMetro.DecideClaims` | run_metro.py:113-119 | a train advances exactly when the following station is not busy and no earlier train advanced into it |
| `RunMetro.TurnOutcome` | run_metro.py:145-158 | a train at the end stays; any other moves to the following station or stays |
| `RunMetro.StandingIsBusy` | run_metro.py:88-92 | a train standing on an inner station marks it busy |
| `RunMetro.NoSharedStation` | run_metro.py:113-119 | two trains never end a turn on the same inner station |
| `RunMetro.MoveOneKeeps` | run_metro.py:236-250 | a turn keeps the trains on the path, one per inner station, moves each at most one station forward and keeps their numbers |
| `RunMetro.NoBackToBack` | run_metro.py:88-92 | a train enters an inner station only if no train stood there when the turn began |
| `RunMetro.OneEntryPerStation` | run_metro.py:113-116 | at most one train enters each inner station per turn, the first in list order |
| `RunMetro.ArrivedIsFixed` | run_metro.py:66-77 | once every train is at the end, a turn changes nothing |
| `RunMetro.NewTrainsOk` | run_metro.py:228-231 | the new trains satisfy the turn invariant |

## Left out

- File reading is not modelled: `open`, `read`, the I/O errors and `splitlines` in `get_data`. `AnalyzeAllData` receives the lines as a parameter.
- The command line (`take_input_args`) is not modelled.
- Printing is not modelled: the `__str__` methods, `print_stations`, and the messages and exit status of `print_error_and_exit`. The errors become `ExitError` values.
- The driver `metro_rush.py` is not part of this model. It loops over turns calling `move_the_train` and `check_if_all_train_arrived_end`.
- `Station.busy` is never read by the modelled code and is not kept.
- Paths and trains are values in sequences that the methods rebuild. Python mutates `Path` and `Train` objects in place, and `get_all_train` (run_metro.py:210-212) returns a list that shares the `Train` objects of the paths. The sharing does not show because the driver rebuilds that list from the paths after every move (metro_rush.py:31); the model reads the trains back from the paths in the same way.
- `Line(name, station_list=[])` has a mutable default list shared by every new line. Nothing appends to that default list, so each new line is modelled with its own empty list.
- `Text.ParseInt`: does not accept the surrounding whitespace, the digit-separating underscores or the non-ASCII digits that Python's `int` accepts. It covers only ASCII digits with an optional sign.
- `MapMetro.Map.constructor`: requires a well-formed network (`Wellformed`): the arenas are consistent (`Graph.Valid`), every line lists only stations it owns (`LinesOwnStations`), and every line name a crossing station carries names a line of the map (`ConnectionsResolve`). The reader's invariant `ReadInput.ParseOk` gives `Graph.Valid` and the line ids; it does not state the other two, and the source checks none of them. When a connection names a missing line, `find_cross_stations` reuses the previous iteration's station, or raises `UnboundLocalError` on the first name. `CrossStep` lets a missing line add nothing.
- `MapMetro.Map.constructor`: also requires that `SetInitData` succeeds. The failing outcomes (the `'data'` and `'end'` exits) are stated by `SetInitData` itself.
- `MapMetro.IgnoreCross`: skips a missing counterpart, whereas `ignore_cross` appends `None` to the ignore list. A `None` entry never equals a station, so searches are unaffected.
- `MapMetro.InLinePairs`: gives no pairs when the in-line lookup misses, whereas the source raises `AttributeError`. A station listed on its own line always finds itself (`InLineStationFound`).
- `MapMetro.Map.BreadthFirstSearch`: does not state that the path is a shortest one, which the docstring of `breadth_first_search` promises (map_metro.py:205). It is not always one. A station queued twice is recorded again with its later predecessor (map_metro.py:222-224). Take line L1 `S, X, A, Y, E` and line L2 `X, Y`, with X and Y crossing. The search from X on L1 to E records Y on L1 first from A, then again from Y on L2, and walks back X, X on L2, Y on L2, Y, E. The shorter X, A, Y, E exists. Whether the search reaches the end is stated through `Search`, the loop run as a function, not through paths in the network.
- `MapMetro.Map.FindPossiblePaths`: does not state that the greedy selection finds the largest possible set of disjoint paths, which the source does not promise either.
- `RunMetro.SplitTrain`: requires a non-empty path list. With no path and at least one train, the source raises `IndexError`, which a found path always prevents.
- `RunMetro.GetPathObjectList`: requires a non-empty path list, for the same reason.
- `RunMetro.MoveTheTrain`: the properties of a turn (`MoveOneKeeps`, `NoSharedStation` and the rest) are proved for a path without repeated stations, which is what the search produces.
- The greedy allocation is not proved optimal. The model proves only that it follows the source's rule (first path of least current cost).

=== FILE: base_metro.dfy ===
/**
 * Stations, lines, paths and trains of the metro network.
 *
 * Python compares Station, Line and Train objects by identity and lets them
 * refer to each other; here every station and every line lives in an arena
 * and is named by its position there. A station's alias (`alter_station`)
 * is the id of the other station, and its owning line is a line id.
 */
module BaseMetro {
  import opened Wrappers
  import opened Text

  type StationId = nat
  type LineId = nat

  /** A station: its index on its line, its name, the line object that owns
      it, the names of every line it belongs to, and its optional alias. */
  datatype Station = Station(index: int, name: string, line: LineId,
                             lineList: seq<string>, alter: Option<StationId>)

  /** A line object; `name` is None only for the reader's placeholder line. */
  datatype Line = Line(name: Option<string>, stations: seq<StationId>)

  /** What `Line.find_station` is asked for: a text (a name or a
      "line:index" position) or an integer index. */
  datatype Key = ByText(text: string) | ByIndex(number: int)

  /** A train: the station it is at, its number, and the station chosen for
      it in the current turn (None before its first turn). The position is
      None only after a turn on a path that never contained the train. */
  datatype Train = Train(position: Option<StationId>, order: int, next: Option<StationId>)

  /** A path with its cost, its per-train cost increment and its trains. */
  datatype Path = Path(index: nat, stations: seq<StationId>, cost: int, delta: int,
                       trainNumber: nat, trains: Option<seq<Train>>)

  /** The two arenas. */
  datatype Graph = Graph(stations: seq<Station>, lines: seq<Line>)
  {
    /** Every id refers into its arena and every station's line has a name. */
    predicate Valid() {
      && (forall s :: 0 <= s < |stations| ==> stations[s].line < |lines|)
      && (forall s :: 0 <= s < |stations| ==> lines[stations[s].line].name.Some?)
      && (forall s :: 0 <= s < |stations| && stations[s].alter.Some? ==> stations[s].alter.value < |stations|)
      && (forall l :: 0 <= l < |lines| ==> IdsIn(lines[l].stations))
    }

    predicate IdsIn(ids: seq<StationId>) {
      forall k :: 0 <= k < |ids| ==> ids[k] < |stations|
    }

    predicate HasStation(s: StationId) {
      s < |stations|
    }

    /** `Station.position()`: the owning line's name, a colon, the index. */
    function Position(s: StationId): (p: string)
      requires Valid() && HasStation(s)
      ensures StartsWith(p, lines[stations[s].line].name.value + ":")
    {
      var prefix := lines[stations[s].line].name.value + ":";
      var p := prefix + IntToString(stations[s].index);
      assert p[..|prefix|] == prefix;
      p
    }

    /** What follows the line name and the colon reads back as the index. */
    lemma PositionReadsBack(s: StationId)
      requires Valid() && HasStation(s)
      ensures var prefix := lines[stations[s].line].name.value + ":";
              ParseInt(Position(s)[|prefix|..]) == Some(stations[s].index)
    {
      var prefix := lines[stations[s].line].name.value + ":";
      assert Position(s)[|prefix|..] == IntToString(stations[s].index);
      IntRoundTrip(stations[s].index);
    }

    /** The test inside `Line.find_station`: name, position text or index. */
    predicate Matches(s: StationId, key: Key)
      requires Valid() && HasStation(s)
    {
      match key
      case ByText(v) => stations[s].name == v || Position(s) == v
      case ByIndex(i) => stations[s].index == i
    }

    /** Index in `ids` of the first station matching `key`. */
    function FindIn(ids: seq<StationId>, key: Key): (r: Option<nat>)
      requires Valid() && IdsIn(ids)
      ensures r.Some? ==> r.value < |ids| && Matches(ids[r.value], key)
      ensures r.None? ==> forall j :: 0 <= j < |ids| ==> !Matches(ids[j], key)
    {
      if ids == [] then None
      else if Matches(ids[0], key) then Some(0)
      else
        match FindIn(ids[1..], key)
        case None => None
        case Some(k) => Some(k + 1)
    }

    /** No station before the one found matches. */
    lemma {:induction false} FindInFirst(ids: seq<StationId>, key: Key)
      requires Valid() && IdsIn(ids) && FindIn(ids, key).Some?
      ensures forall j :: 0 <= j < FindIn(ids, key).value ==> !Matches(ids[j], key)
    {
      if ids != [] && !Matches(ids[0], key) {
        FindInFirst(ids[1..], key);
        assert forall j :: 0 < j < |ids| ==> ids[j] == ids[1..][j - 1];
      }
    }

    /** `Line.find_station(value)`: the first station of line `l`, in list
        order, that matches; None when none does. */
    function FindStation(l: LineId, key: Key): (r: Option<StationId>)
      requires Valid() && l < |lines|
      ensures r.Some? ==> r.value in lines[l].stations && r.value < |stations| && Matches(r.value, key)
      ensures r.None? ==> forall j :: 0 <= j < |lines[l].stations| ==> !Matches(lines[l].stations[j], key)
    {
      match FindIn(lines[l].stations, key)
      case None => None
      case Some(k) => Some(lines[l].stations[k])
    }

    /** What `find_station` returns is the first match in list order. */
    lemma FindStationFirst(l: LineId, key: Key)
      requires Valid() && l < |lines| && FindStation(l, key).Some?
      ensures exists k :: 0 <= k < |lines[l].stations| && lines[l].stations[k] == FindStation(l, key).value
                          && forall j :: 0 <= j < k ==> !Matches(lines[l].stations[j], key)
    {
      FindInFirst(lines[l].stations, key);
    }
  }

  /** `add_line`: the list after appending `name` unless already present. */
  function WithLine(list: seq<string>, name: string): (r: seq<string>)
    ensures name in r
    ensures forall x :: x in r <==> x in list || x == name
    ensures list <= r && |r| <= |list| + 1
    ensures name in list ==> r == list
    ensures NoDuplicates(list) ==> NoDuplicates(r)
  {
    if name in list then list else list + [name]
  }

  predicate NoDuplicates<T(==)>(s: seq<T>) {
    forall i, j :: 0 <= i < j < |s| ==> s[i] != s[j]
  }

  /** Adding the same line name twice is the same as adding it once. */
  lemma WithLineIdempotent(list: seq<string>, name: string)
    ensures WithLine(WithLine(list, name), name) == WithLine(list, name)
  {
  }

  /** `Path.__init__`: no train is assigned yet and there is no train list. */
  function NewPath(index: nat, stationList: seq<StationId>, cost: int, delta: int): (p: Path)
    ensures p.trainNumber == 0 && p.trains.None?
    ensures p.index == index && p.stations == stationList && p.cost == cost && p.delta == delta
  {
    Path(index, stationList, cost, delta, 0, None)
  }

  /** `Train.__init__`: a train has no scheduled station before its first turn. */
  function NewTrain(position: StationId, order: int): (t: Train)
    ensures t.next.None? && t.position == Some(position) && t.order == order
  {
    Train(Some(position), order, None)
  }

  /**
   * The station and line objects the reader creates and links together,
   * held as two arenas that its methods extend and update in place.
   */
  class Network {
    var stations: seq<Station>
    var lines: seq<Line>

    function AsGraph(): Graph
      reads this
    {
      Graph(stations, lines)
    }

    predicate Valid()
      reads this
    {
      AsGraph().Valid()
    }

    constructor ()
      ensures Valid() && stations == [] && lines == []
    {
      stations := [];
      lines := [];
    }

    /** `Line(name)`: a new line object with no stations. */
    method NewLine(name: Option<string>) returns (l: LineId)
      requires Valid()
      modifies this
      ensures Valid()
      ensures l == |old(lines)| && lines == old(lines) + [Line(name, [])]
      ensures stations == old(stations)
    {
      l := |lines|;
      lines := lines + [Line(name, [])];
    }

    /** `Station(index, name, line)`: a new station whose line list holds its
        own line's name and which has no alias. */
    method NewStation(index: int, name: string, line: LineId) returns (s: StationId)
      requires Valid() && line < |lines| && lines[line].name.Some?
      modifies this
      ensures Valid()
      ensures s == |old(stations)| && lines == old(lines)
      ensures stations == old(stations) + [Station(index, name, line, [lines[line].name.value], None)]
    {
      s := |stations|;
      stations := stations + [Station(index, name, line, [lines[line].name.value], None)];
    }

    /** `Station.add_line`: appends the name to one station's line list if missing. */
    method AddLine(s: StationId, name: string)
      requires Valid() && s < |stations|
      modifies this
      ensures Valid() && lines == old(lines) && |stations| == |old(stations)|
      ensures stations == old(stations)[s := old(stations)[s].(lineList := WithLine(old(stations)[s].lineList, name))]
    {
      stations := stations[s := stations[s].(lineList := WithLine(stations[s].lineList, name))];
    }

    /** Rebinds a station's line list to another (already built) list. */
    method SetLineList(s: StationId, list: seq<string>)
      requires Valid() && s < |stations|
      modifies this
      ensures Valid() && lines == old(lines)
      ensures stations == old(stations)[s := old(stations)[s].(lineList := list)]
    {
      stations := stations[s := stations[s].(lineList := list)];
    }

    /** `Station.add_alter`: makes the two stations each other's alias. */
    method AddAlter(a: StationId, b: StationId)
      requires Valid() && a < |stations| && b < |stations|
      modifies this
      ensures Valid() && lines == old(lines) && |stations| == |old(stations)|
      ensures stations[a].alter == Some(b) && stations[b].alter == Some(a)
      ensures forall k :: 0 <= k < |stations| && k != a && k != b ==> stations[k] == old(stations)[k]
      ensures stations == old(stations)[a := old(stations)[a].(alter := Some(b))][b := old(stations)[b].(alter := Some(a))]
    {
      stations := stations[a := stations[a].(alter := Some(b))][b := stations[b].(alter := Some(a))];
    }

    /** `line.station_list = ids`. */
    method SetStations(l: LineId, ids: seq<StationId>)
      requires Valid() && l < |lines| && AsGraph().IdsIn(ids)
      modifies this
      ensures Valid() && stations == old(stations)
      ensures lines == old(lines)[l := old(lines)[l].(stations := ids)]
    {
      lines := lines[l := lines[l].(stations := ids)];
    }
  }
}

=== FILE: map_metro.dfy ===
/**
 * The metro map (map_metro.py): start and end stations, the neighbour rule,
 * the breadth-first search and the greedy construction of paths whose
 * interiors are pairwise disjoint.
 */
module MapMetro {
  import opened Wrappers
  import opened BaseMetro
  import opened Text
  import opened ReadInput

  /** Every line of the map refers into the line arena. */
  predicate LineListOk(g: Graph, lineList: seq<LineId>) {
    forall i :: 0 <= i < |lineList| ==> lineList[i] < |g.lines|
  }

  /** `Map.get_line(name)`: the first line of the map with that name. */
  function GetLine(g: Graph, lineList: seq<LineId>, name: string): (r: Option<LineId>)
    requires LineListOk(g, lineList)
    ensures r.Some? ==> r.value in lineList && r.value < |g.lines| && g.lines[r.value].name == Some(name)
    ensures r.None? ==> forall k :: 0 <= k < |lineList| ==> g.lines[lineList[k]].name != Some(name)
  {
    if lineList == [] then None
    else if g.lines[lineList[0]].name == Some(name) then Some(lineList[0])
    else GetLine(g, lineList[1..], name)
  }

  /** `get_line` returns the first line of that name in map order. */
  lemma {:induction false} GetLineFirst(g: Graph, lineList: seq<LineId>, name: string)
    requires LineListOk(g, lineList) && GetLine(g, lineList, name).Some?
    ensures exists k :: 0 <= k < |lineList| && lineList[k] == GetLine(g, lineList, name).value
                        && forall j :: 0 <= j < k ==> g.lines[lineList[j]].name != Some(name)
  {
    if g.lines[lineList[0]].name != Some(name) {
      GetLineFirst(g, lineList[1..], name);
      var k :| 0 <= k < |lineList[1..]| && lineList[1..][k] == GetLine(g, lineList, name).value
               && forall j :: 0 <= j < k ==> g.lines[lineList[1..][j]].name != Some(name);
      assert lineList[k + 1] == GetLine(g, lineList, name).value;
      assert forall j :: 0 < j <= k ==> lineList[j] == lineList[1..][j - 1];
    } else {
      assert lineList[0] == GetLine(g, lineList, name).value;
    }
  }

  /** Each station listed on a line of the map is owned by that line. */
  predicate LinesOwnStations(g: Graph, lineList: seq<LineId>)
    requires g.Valid() && LineListOk(g, lineList)
  {
    forall i, k :: 0 <= i < |lineList| && 0 <= k < |g.lines[lineList[i]].stations| ==>
      g.stations[g.lines[lineList[i]].stations[k]].line == lineList[i]
  }

  /** A station that the map can reach: listed on its own line, which is a
      line of the map. */
  predicate OnMap(g: Graph, lineList: seq<LineId>, s: StationId)
    requires g.Valid()
  {
    s < |g.stations| && g.stations[s].line in lineList && s in g.lines[g.stations[s].line].stations
  }

  /** The names of the map's lines. */
  function LineNames(g: Graph, lineList: seq<LineId>): set<Option<string>>
    requires LineListOk(g, lineList)
  {
    set i | 0 <= i < |lineList| :: g.lines[lineList[i]].name
  }

  lemma GetLineFound(g: Graph, lineList: seq<LineId>, name: string)
    requires LineListOk(g, lineList) && Some(name) in LineNames(g, lineList)
    ensures GetLine(g, lineList, name).Some?
  {
    var i :| 0 <= i < |lineList| && g.lines[lineList[i]].name == Some(name);
  }

  /** Every line name that a crossing station owned by a line of the map
      carries names a line of the map (a miss makes `find_cross_stations`
      fail). */
  predicate ConnectionsResolve(g: Graph, lineList: seq<LineId>, cross: map<string, seq<string>>)
    requires g.Valid() && LineListOk(g, lineList)
  {
    forall s, k, i {:trigger g.stations[s].lineList[k], lineList[i]} ::
      0 <= s < |g.stations| && 0 <= i < |lineList| && g.stations[s].line == lineList[i]
      && g.stations[s].name in cross && 0 <= k < |g.stations[s].lineList| ==>
      Some(g.stations[s].lineList[k]) in LineNames(g, lineList)
  }

  lemma CrossNamesResolve(g: Graph, lineList: seq<LineId>, cross: map<string, seq<string>>, s: StationId)
    requires Wellformed(g, lineList, cross) && OnMap(g, lineList, s) && g.stations[s].name in cross
    ensures forall n :: n in g.stations[s].lineList ==> GetLine(g, lineList, n).Some?
  {
    var i :| 0 <= i < |lineList| && lineList[i] == g.stations[s].line;
    forall n | n in g.stations[s].lineList ensures GetLine(g, lineList, n).Some? {
      var m :| 0 <= m < |g.stations[s].lineList| && g.stations[s].lineList[m] == n;
      assert Some(g.stations[s].lineList[m]) in LineNames(g, lineList);
      GetLineFound(g, lineList, n);
    }
  }

  predicate Wellformed(g: Graph, lineList: seq<LineId>, cross: map<string, seq<string>>) {
    && g.Valid()
    && LineListOk(g, lineList)
    && LinesOwnStations(g, lineList)
    && ConnectionsResolve(g, lineList, cross)
  }

  lemma FoundOnMap(g: Graph, lineList: seq<LineId>, l: LineId, x: StationId)
    requires g.Valid() && LineListOk(g, lineList) && LinesOwnStations(g, lineList)
    requires l in lineList && x in g.lines[l].stations
    ensures OnMap(g, lineList, x) && g.stations[x].line == l
  {
    var i :| 0 <= i < |lineList| && lineList[i] == l;
    var k :| 0 <= k < |g.lines[l].stations| && g.lines[l].stations[k] == x;
  }

  /** The local `find_station` of `set_init_data`: the first line of the map
      on which `Line.find_station` succeeds. */
  function FindInLines(g: Graph, lineList: seq<LineId>, key: Key): (r: Option<StationId>)
    requires g.Valid() && LineListOk(g, lineList)
    ensures r.Some? ==> exists i :: 0 <= i < |lineList| && g.FindStation(lineList[i], key) == r
    ensures r.None? ==> forall i :: 0 <= i < |lineList| ==> g.FindStation(lineList[i], key).None?
  {
    if lineList == [] then None
    else
      var r := g.FindStation(lineList[0], key);
      if r.Some? then r
      else
        var rest := FindInLines(g, lineList[1..], key);
        assert rest.Some? ==> exists i :: 0 <= i < |lineList[1..]| && g.FindStation(lineList[1..][i], key) == rest;
        assert forall i :: 0 < i < |lineList| ==> lineList[i] == lineList[1..][i - 1];
        rest
  }

  lemma FindInLinesOnMap(g: Graph, lineList: seq<LineId>, key: Key)
    requires g.Valid() && LineListOk(g, lineList) && LinesOwnStations(g, lineList)
    requires FindInLines(g, lineList, key).Some?
    ensures OnMap(g, lineList, FindInLines(g, lineList, key).value)
  {
    var x := FindInLines(g, lineList, key).value;
    var i :| 0 <= i < |lineList| && g.FindStation(lineList[i], key) == Some(x);
    FoundOnMap(g, lineList, lineList[i], x);
  }

  /** What `set_init_data` extracts from the special data. */
  datatype Config = Config(trainNumber: int, start: StationId, end: StationId)

  predicate KnownKey(k: string) {
    k == "TRAINS" || k == "START" || k == "END"
  }

  /** The train count, or 0 when TRAINS is missing (its initial value). */
  function TrainsOf(special: map<string, string>): Option<int> {
    if "TRAINS" in special then ParseInt(special["TRAINS"]) else Some(0)
  }

  /** The station named by a special-data key, if the key is present and resolves. */
  function StationOf(g: Graph, lineList: seq<LineId>, special: map<string, string>, key: string): Option<StationId>
    requires g.Valid() && LineListOk(g, lineList)
  {
    if key in special then FindInLines(g, lineList, ByText(special[key])) else None
  }

  /** The data part of the check: only known keys, an integer train count of
      at least one, and resolvable START and END. */
  predicate DataOk(g: Graph, lineList: seq<LineId>, special: map<string, string>)
    requires g.Valid() && LineListOk(g, lineList)
  {
    && (forall k :: k in special ==> KnownKey(k))
    && TrainsOf(special).Some? && TrainsOf(special).value >= 1
    && StationOf(g, lineList, special, "START").Some?
    && StationOf(g, lineList, special, "END").Some?
  }

  /**
   * `set_init_data`: reads TRAINS, START and END; any other key, a TRAINS
   * value that is not an integer, fewer than one train or an unresolved
   * START or END is invalid data; a start equal to the end or to the end's
   * alias stops with the "end" error.
   */
  function SetInitData(g: Graph, lineList: seq<LineId>, special: map<string, string>): (r: Result<Config, ExitError>)
    requires g.Valid() && LineListOk(g, lineList)
    ensures !DataOk(g, lineList, special) <==> r == Failure(InvalidFile)
    ensures r == Failure(ReachedEnd) <==>
      DataOk(g, lineList, special) &&
      var s, e := StationOf(g, lineList, special, "START").value, StationOf(g, lineList, special, "END").value;
      (s == e || g.stations[e].alter == Some(s))
    ensures r.Success? ==>
      && Some(r.value.trainNumber) == TrainsOf(special) && r.value.trainNumber >= 1
      && Some(r.value.start) == StationOf(g, lineList, special, "START")
      && Some(r.value.end) == StationOf(g, lineList, special, "END")
      && r.value.start != r.value.end && g.stations[r.value.end].alter != Some(r.value.start)
  {
    if exists k :: k in special && !KnownKey(k) then Failure(InvalidFile)
    else if TrainsOf(special).None? then Failure(InvalidFile)
    else
      var trains := TrainsOf(special).value;
      var start := StationOf(g, lineList, special, "START");
      var end := StationOf(g, lineList, special, "END");
      if trains < 1 || start.None? || end.None? then Failure(InvalidFile)
      else if start == end || g.stations[end.value].alter == start then Failure(ReachedEnd)
      else Success(Config(trains, start.value, end.value))
  }


  // ---- the neighbour rule (`get_near_station_pairs`) ----

  /** Stations a search must not return: recorded ones and ignored ones. */
  predicate Excluded(x: StationId, checked: set<StationId>, ignore: seq<StationId>) {
    x in checked || x in ignore
  }

  /**
   * `find_cross_stations` over the line names `names`: for each name, the
   * station called `name` on that line, put in front when the line is
   * `endLine` and at the back otherwise. A name that resolves to no line of
   * the map adds nothing; on a well-formed map this does not happen.
   */
  function CrossList(g: Graph, lineList: seq<LineId>, names: seq<string>, name: string, endLine: LineId): (r: seq<StationId>)
    requires g.Valid() && LineListOk(g, lineList)
    ensures forall k :: 0 <= k < |r| ==> r[k] < |g.stations|
  {
    if names == [] then []
    else CrossStep(g, lineList, CrossList(g, lineList, names[..|names| - 1], name, endLine), names[|names| - 1], name, endLine)
  }

  /** One line name of `find_cross_stations`: the station called `name` on
      line `lineName`, if any, in front of `acc` or after it. */
  function CrossStep(g: Graph, lineList: seq<LineId>, acc: seq<StationId>, lineName: string, name: string, endLine: LineId): (r: seq<StationId>)
    requires g.Valid() && LineListOk(g, lineList)
    requires forall k :: 0 <= k < |acc| ==> acc[k] < |g.stations|
    ensures forall k :: 0 <= k < |r| ==> r[k] < |g.stations|
  {
    match GetLine(g, lineList, lineName)
    case None => acc
    case Some(lid) =>
      match g.FindStation(lid, ByText(name))
      case None => acc
      case Some(x) => if lid == endLine then [x] + acc else acc + [x]
  }

  /** Stations of `endLine` come before all the others in `r`. */
  predicate EndLineFirst(g: Graph, r: seq<StationId>, endLine: LineId)
    requires forall k :: 0 <= k < |r| ==> r[k] < |g.stations|
  {
    forall i, j :: 0 <= i < j < |r| && g.stations[r[j]].line == endLine ==> g.stations[r[i]].line == endLine
  }

  /** One step of `find_cross_stations` keeps the end line's stations first. */
  lemma CrossStepEndLineFirst(g: Graph, lineList: seq<LineId>, acc: seq<StationId>, lineName: string, name: string, endLine: LineId)
    requires g.Valid() && LineListOk(g, lineList) && LinesOwnStations(g, lineList)
    requires forall k :: 0 <= k < |acc| ==> acc[k] < |g.stations|
    requires EndLineFirst(g, acc, endLine)
    ensures EndLineFirst(g, CrossStep(g, lineList, acc, lineName, name, endLine), endLine)
  {
    var r := CrossStep(g, lineList, acc, lineName, name, endLine);
    match GetLine(g, lineList, lineName)
    case None =>
    case Some(lid) =>
      match g.FindStation(lid, ByText(name))
      case None =>
      case Some(x) =>
        FoundOnMap(g, lineList, lid, x);
        if lid == endLine {
          assert r == [x] + acc;
          forall i, j | 0 <= i < j < |r| && g.stations[r[j]].line == endLine
            ensures g.stations[r[i]].line == endLine
          {
            if i > 0 { assert r[i] == acc[i - 1] && r[j] == acc[j - 1]; }
          }
        } else {
          assert r == acc + [x];
          forall i, j | 0 <= i < j < |r| && g.stations[r[j]].line == endLine
            ensures g.stations[r[i]].line == endLine
          {
            assert j < |acc|;
            assert r[i] == acc[i] && r[j] == acc[j];
          }
        }
  }

  /** Counterparts on the end station's line come before all the others. */
  lemma {:induction false} CrossListEndLineFirst(g: Graph, lineList: seq<LineId>, names: seq<string>, name: string, endLine: LineId)
    requires g.Valid() && LineListOk(g, lineList) && LinesOwnStations(g, lineList)
    ensures EndLineFirst(g, CrossList(g, lineList, names, name, endLine), endLine)
  {
    if names != [] {
      var init := names[..|names| - 1];
      CrossListEndLineFirst(g, lineList, init, name, endLine);
      CrossStepEndLineFirst(g, lineList, CrossList(g, lineList, init, name, endLine), names[|names| - 1], name, endLine);
    }
  }

  /** Every counterpart is a station of the map. */
  lemma {:induction false} CrossListOnMap(g: Graph, lineList: seq<LineId>, names: seq<string>, name: string, endLine: LineId)
    requires g.Valid() && LineListOk(g, lineList) && LinesOwnStations(g, lineList)
    ensures forall x :: x in CrossList(g, lineList, names, name, endLine) ==> OnMap(g, lineList, x)
  {
    if names != [] {
      CrossListOnMap(g, lineList, names[..|names| - 1], name, endLine);
      match GetLine(g, lineList, names[|names| - 1])
      case None =>
      case Some(lid) =>
        match g.FindStation(lid, ByText(name))
        case None =>
        case Some(x) => FoundOnMap(g, lineList, lid, x);
    }
  }

  /** `add_cross_pairs` and the test in `get_next_station_pair`: keeps, in
      order, the candidates that are not excluded, each paired with `st`. */
  function FilterPairs(xs: seq<StationId>, st: StationId, checked: set<StationId>, ignore: seq<StationId>): (r: seq<(StationId, StationId)>)
    ensures forall k :: 0 <= k < |r| ==> r[k].1 == st && r[k].0 in xs && !Excluded(r[k].0, checked, ignore)
    ensures forall x :: x in xs && !Excluded(x, checked, ignore) ==> (x, st) in r
  {
    if xs == [] then []
    else
      var init := FilterPairs(xs[..|xs| - 1], st, checked, ignore);
      var x := xs[|xs| - 1];
      assert forall y :: y in xs ==> y in xs[..|xs| - 1] || y == x;
      if Excluded(x, checked, ignore) then init else init + [(x, st)]
  }

  /** The station that `line.find_station(st.position())` returns on `st`'s
      own line: usually `st` itself, or an earlier station of that line whose
      name or position reads the same. */
  function InLineStation(g: Graph, st: StationId): (r: Option<StationId>)
    requires g.Valid() && st < |g.stations|
    ensures r.Some? ==> r.value < |g.stations| && r.value in g.lines[g.stations[st].line].stations
  {
    g.FindStation(g.stations[st].line, ByText(g.Position(st)))
  }

  /** A station listed on its own line always finds a station there. */
  lemma InLineStationFound(g: Graph, st: StationId)
    requires g.Valid() && st < |g.stations| && st in g.lines[g.stations[st].line].stations
    ensures InLineStation(g, st).Some?
  {
    var l := g.stations[st].line;
    var j :| 0 <= j < |g.lines[l].stations| && g.lines[l].stations[j] == st;
    assert g.Matches(g.lines[l].stations[j], ByText(g.Position(st)));
  }

  /** `line.find_station(idx)` for each index in turn, keeping those found. */
  function IndexNeighbours(g: Graph, l: LineId, idxs: seq<int>): (r: seq<StationId>)
    requires g.Valid() && l < |g.lines|
    ensures forall x :: x in r ==> x < |g.stations| && x in g.lines[l].stations
  {
    if idxs == [] then []
    else
      var init := IndexNeighbours(g, l, idxs[..|idxs| - 1]);
      match g.FindStation(l, ByIndex(idxs[|idxs| - 1]))
      case None => init
      case Some(x) => init + [x]
  }

  /** The pair one index contributes: the station at that index of line
      `l`, when there is one and it is not excluded. */
  function OneNeighbour(g: Graph, l: LineId, idx: int, st: StationId, checked: set<StationId>, ignore: seq<StationId>): (r: seq<(StationId, StationId)>)
    requires g.Valid() && l < |g.lines|
    ensures |r| <= 1
  {
    match g.FindStation(l, ByIndex(idx))
    case None => []
    case Some(x) => if Excluded(x, checked, ignore) then [] else [(x, st)]
  }

  /** The pairs for one more index are those for the others, then that
      index's own. */
  lemma NeighbourStep(g: Graph, l: LineId, idxs: seq<int>, st: StationId, checked: set<StationId>, ignore: seq<StationId>)
    requires g.Valid() && l < |g.lines| && idxs != []
    ensures FilterPairs(IndexNeighbours(g, l, idxs), st, checked, ignore)
         == FilterPairs(IndexNeighbours(g, l, idxs[..|idxs| - 1]), st, checked, ignore)
            + OneNeighbour(g, l, idxs[|idxs| - 1], st, checked, ignore)
  {
    var init := IndexNeighbours(g, l, idxs[..|idxs| - 1]);
    match g.FindStation(l, ByIndex(idxs[|idxs| - 1]))
    case None =>
      assert FilterPairs(init, st, checked, ignore) + [] == FilterPairs(init, st, checked, ignore);
    case Some(x) =>
      assert IndexNeighbours(g, l, idxs) == init + [x];
      assert (init + [x])[..|init|] == init;
      assert FilterPairs(init, st, checked, ignore) + [] == FilterPairs(init, st, checked, ignore);
  }

  /** `get_next_station_pair(index)`: the stations at index+1, then index-1,
      of `st`'s line. */
  function NextPairs(g: Graph, index: int, st: StationId, checked: set<StationId>, ignore: seq<StationId>): seq<(StationId, StationId)>
    requires g.Valid() && st < |g.stations|
  {
    FilterPairs(IndexNeighbours(g, g.stations[st].line, [index + 1, index - 1]), st, checked, ignore)
  }

  /** `find_in_line_stations`: neighbours by index of the in-line station,
      then of its alias when it has one. A station missing from its own line
      has none (the source fails there; on a well-formed map it cannot
      happen). */
  function InLinePairs(g: Graph, st: StationId, checked: set<StationId>, ignore: seq<StationId>): seq<(StationId, StationId)>
    requires g.Valid() && st < |g.stations|
  {
    match InLineStation(g, st)
    case None => []
    case Some(ils) => InLineFrom(g, ils, st, checked, ignore)
  }

  /** The neighbours by index of `ils`, then of its alias. */
  function InLineFrom(g: Graph, ils: StationId, st: StationId, checked: set<StationId>, ignore: seq<StationId>): seq<(StationId, StationId)>
    requires g.Valid() && st < |g.stations| && ils < |g.stations|
  {
    NextPairs(g, g.stations[ils].index, st, checked, ignore)
      + match g.stations[ils].alter
        case Some(a) => NextPairs(g, g.stations[a].index, st, checked, ignore)
        case None => []
  }

  lemma AppendAssoc<T>(a: seq<T>, b: seq<T>, c: seq<T>)
    ensures a + b + c == a + (b + c)
  {
  }

  /** Appending the pairs of `ils` and then those of its alias appends
      `InLineFrom`. */
  lemma InLineFromAlias(g: Graph, ils: StationId, st: StationId, checked: set<StationId>, ignore: seq<StationId>,
                        near: seq<(StationId, StationId)>, mid: seq<(StationId, StationId)>, r: seq<(StationId, StationId)>)
    requires g.Valid() && st < |g.stations| && ils < |g.stations| && g.stations[ils].alter.Some?
    requires mid == near + NextPairs(g, g.stations[ils].index, st, checked, ignore)
    requires r == mid + NextPairs(g, g.stations[g.stations[ils].alter.value].index, st, checked, ignore)
    ensures r == near + InLineFrom(g, ils, st, checked, ignore)
  {
    var own := NextPairs(g, g.stations[ils].index, st, checked, ignore);
    var other := NextPairs(g, g.stations[g.stations[ils].alter.value].index, st, checked, ignore);
    assert InLineFrom(g, ils, st, checked, ignore) == own + other;
    AppendAssoc(near, own, other);
  }

  /** Without an alias, `InLineFrom` is the pairs of `ils` alone. */
  lemma InLineFromAlone(g: Graph, ils: StationId, st: StationId, checked: set<StationId>, ignore: seq<StationId>,
                        near: seq<(StationId, StationId)>, r: seq<(StationId, StationId)>)
    requires g.Valid() && st < |g.stations| && ils < |g.stations| && g.stations[ils].alter.None?
    requires r == near + NextPairs(g, g.stations[ils].index, st, checked, ignore)
    ensures r == near + InLineFrom(g, ils, st, checked, ignore)
  {
    var own := NextPairs(g, g.stations[ils].index, st, checked, ignore);
    assert InLineFrom(g, ils, st, checked, ignore) == own + [];
    assert own + [] == own;
  }

  /** `get_near_station_pairs(st, checked)`: for a crossing station, its
      counterparts (end line first), then the in-line neighbours. */
  function NearPairs(g: Graph, lineList: seq<LineId>, cross: map<string, seq<string>>, endLine: LineId,
                     ignore: seq<StationId>, st: StationId, checked: set<StationId>): seq<(StationId, StationId)>
    requires g.Valid() && LineListOk(g, lineList) && st < |g.stations|
  {
    var crossPart :=
      if g.stations[st].name in cross
      then FilterPairs(CrossList(g, lineList, g.stations[st].lineList, g.stations[st].name, endLine), st, checked, ignore)
      else [];
    crossPart + InLinePairs(g, st, checked, ignore)
  }

  /** Every pair is `(neighbour, st)` with a neighbour that is neither
      recorded nor ignored and lies on the map. */
  lemma NearPairsSound(g: Graph, lineList: seq<LineId>, cross: map<string, seq<string>>, endLine: LineId,
                       ignore: seq<StationId>, st: StationId, checked: set<StationId>)
    requires g.Valid() && LineListOk(g, lineList) && LinesOwnStations(g, lineList) && OnMap(g, lineList, st)
    ensures forall p :: p in NearPairs(g, lineList, cross, endLine, ignore, st, checked) ==>
              p.1 == st && !Excluded(p.0, checked, ignore) && OnMap(g, lineList, p.0)
  {
    var l := g.stations[st].line;
    CrossListOnMap(g, lineList, g.stations[st].lineList, g.stations[st].name, endLine);
    forall x | x in g.lines[l].stations ensures OnMap(g, lineList, x) {
      FoundOnMap(g, lineList, l, x);
    }
  }

  // ---- path selection ----

  /** The start and end stations that `set_init_data` accepts lie on the map. */
  lemma SetInitDataOnMap(g: Graph, lineList: seq<LineId>, special: map<string, string>)
    requires g.Valid() && LineListOk(g, lineList) && LinesOwnStations(g, lineList)
    requires SetInitData(g, lineList, special).Success?
    ensures OnMap(g, lineList, SetInitData(g, lineList, special).value.start)
    ensures OnMap(g, lineList, SetInitData(g, lineList, special).value.end)
  {
    FindInLinesOnMap(g, lineList, ByText(special["START"]));
    FindInLinesOnMap(g, lineList, ByText(special["END"]));
  }

  /** A path's interior: every station but the first and the last. */
  function Interior(p: seq<StationId>): seq<StationId> {
    if |p| < 2 then [] else p[1..|p| - 1]
  }

  /** One step of the `min_path` selection: a candidate replaces the choice
      when there is none yet or when it is strictly shorter (an empty
      candidate is). */
  function SelectStep(minPath: seq<StationId>, candidate: seq<StationId>): seq<StationId> {
    if minPath == [] || |candidate| < |minPath| then candidate else minPath
  }

  /** The selection over a whole round of candidates. */
  function SelectAll(cands: seq<seq<StationId>>): (r: seq<StationId>)
    ensures r == [] || r in cands
  {
    if cands == [] then [] else SelectStep(SelectAll(cands[..|cands| - 1]), cands[|cands| - 1])
  }

  /** With no empty candidate, the selection is the first candidate of
      minimum length. */
  lemma {:induction false} SelectAllFirstMin(cands: seq<seq<StationId>>) returns (k: nat)
    requires cands != []
    requires forall i :: 0 <= i < |cands| ==> cands[i] != []
    ensures k < |cands| && SelectAll(cands) == cands[k]
    ensures forall j :: 0 <= j < |cands| ==> |cands[k]| <= |cands[j]|
    ensures forall j :: 0 <= j < k ==> |cands[j]| > |cands[k]|
  {
    var init := cands[..|cands| - 1];
    if init == [] {
      k := 0;
    } else {
      var m := SelectAllFirstMin(init);
      assert forall j :: 0 <= j < |init| ==> init[j] == cands[j];
      if |cands[|cands| - 1]| < |init[m]| {
        k := |cands| - 1;
      } else {
        k := m;
      }
    }
  }

  /** An unreachable (empty) last candidate clears the choice made so far. */
  lemma EmptyCandidateClears(cands: seq<seq<StationId>>)
    requires cands != [] && cands[|cands| - 1] == []
    ensures SelectAll(cands) == []
  {
  }

  /** `list.reverse()`. */
  function Reverse<T>(s: seq<T>): (r: seq<T>)
    ensures |r| == |s| && forall i :: 0 <= i < |s| ==> r[i] == s[|s| - 1 - i]
  {
    if s == [] then [] else Reverse(s[1..]) + [s[0]]
  }

  // ---- freezing stations (`ignore_middle_stations`, `ignore_cross`) ----

  /** `ignore_cross` over the line names `names`: the station called `name`
      on each named line joins the ignore list unless already there. */
  function IgnoreCross(g: Graph, lineList: seq<LineId>, ignore: seq<StationId>, names: seq<string>, name: string): (r: seq<StationId>)
    requires g.Valid() && LineListOk(g, lineList)
    ensures ignore <= r
  {
    if names == [] then ignore
    else
      var acc := IgnoreCross(g, lineList, ignore, names[..|names| - 1], name);
      match Counterpart(g, lineList, names[|names| - 1], name)
      case None => acc
      case Some(x) => if x in acc then acc else acc + [x]
  }

  /** `ignore_cross` over one more line name. */
  lemma IgnoreCrossSnoc(g: Graph, lineList: seq<LineId>, ignore: seq<StationId>, names: seq<string>, name: string, i: nat)
    requires g.Valid() && LineListOk(g, lineList) && i < |names|
    ensures var acc := IgnoreCross(g, lineList, ignore, names[..i], name);
            var found := Counterpart(g, lineList, names[i], name);
            IgnoreCross(g, lineList, ignore, names[..i + 1], name)
              == if found.Some? && found.value !in acc then acc + [found.value] else acc
  {
    assert names[..i + 1][..i] == names[..i];
  }

  /** `get_line(lineName).find_station(name)`: the station called `name` on
      the map's line `lineName`. */
  function Counterpart(g: Graph, lineList: seq<LineId>, lineName: string, name: string): (r: Option<StationId>)
    requires g.Valid() && LineListOk(g, lineList)
    ensures r.Some? ==> r.value < |g.stations| && g.Matches(r.value, ByText(name))
    ensures r.Some? ==> exists lid :: GetLine(g, lineList, lineName) == Some(lid) && r.value in g.lines[lid].stations
  {
    match GetLine(g, lineList, lineName)
    case None => None
    case Some(lid) => g.FindStation(lid, ByText(name))
  }

  /** `ignore_middle_stations` over `middle`: each station not yet ignored
      joins the list, followed by its counterparts unless it is the start or
      the end station. */
  function IgnoreMiddle(g: Graph, lineList: seq<LineId>, start: StationId, end: StationId,
                        ignore: seq<StationId>, middle: seq<StationId>): (r: seq<StationId>)
    requires g.Valid() && LineListOk(g, lineList) && g.IdsIn(middle)
    ensures ignore <= r
    ensures forall x :: x in middle ==> x in r
  {
    if middle == [] then ignore
    else
      var init := middle[..|middle| - 1];
      var acc := IgnoreMiddle(g, lineList, start, end, ignore, init);
      var x := middle[|middle| - 1];
      assert forall y :: y in middle ==> y in init || y == x;
      if x in acc then acc
      else if x == start || x == end then acc + [x]
      else
        var r := IgnoreCross(g, lineList, acc + [x], g.stations[x].lineList, g.stations[x].name);
        assert forall y :: y in acc + [x] ==> y in r by {
          forall y | y in acc + [x] ensures y in r { PrefixIn(acc + [x], r, y); }
        }
        r
  }

  lemma PrefixIn<T>(a: seq<T>, b: seq<T>, x: T)
    requires a <= b && x in a
    ensures x in b
  {
    var i :| 0 <= i < |a| && a[i] == x;
    assert b[i] == x;
  }

  // ---- paths with disjoint interiors ----

  /** A path found by a search round, before its interior is frozen: from
      `start` to `end`, no repeated station, interior on the map and not
      ignored. */
  predicate FreshPath(g: Graph, lineList: seq<LineId>, start: StationId, end: StationId, ignore: seq<StationId>, p: seq<StationId>)
    requires g.Valid()
  {
    && |p| >= 3 && p[0] == start && p[|p| - 1] == end && NoDuplicates(p)
    && forall k :: 0 < k < |p| - 1 ==> p[k] !in ignore && OnMap(g, lineList, p[k])
  }

  /** A committed path: the same shape, with its interior frozen. */
  predicate CommittedPath(g: Graph, lineList: seq<LineId>, start: StationId, end: StationId, ignore: seq<StationId>, p: seq<StationId>)
    requires g.Valid()
  {
    && |p| >= 3 && p[0] == start && p[|p| - 1] == end && NoDuplicates(p)
    && forall k :: 0 < k < |p| - 1 ==> p[k] in ignore && OnMap(g, lineList, p[k])
  }

  /** The paths found so far: each is the direct path or a committed one,
      none repeats, and no two share an interior station. */
  predicate PathsOk(g: Graph, lineList: seq<LineId>, start: StationId, end: StationId, ignore: seq<StationId>, paths: seq<seq<StationId>>)
    requires g.Valid()
  {
    && (forall i :: 0 <= i < |paths| ==> paths[i] == [start, end] || CommittedPath(g, lineList, start, end, ignore, paths[i]))
    && NoDuplicates(paths)
    && forall i, j, x :: 0 <= i < j < |paths| && x in Interior(paths[i]) ==> x !in Interior(paths[j])
  }

  /** Stations below `n` that are not ignored. */
  ghost function Unignored(n: nat, ignore: seq<StationId>): set<StationId> {
    set x | 0 <= x < n && x !in ignore
  }

  /** Committing a fresh path after freezing its interior keeps the paths
      disjoint and repeat-free, and freezes its second station, which was not
      frozen before. */
  lemma CommitKeepsPathsOk(g: Graph, lineList: seq<LineId>, start: StationId, end: StationId,
                           ignore: seq<StationId>, ignore': seq<StationId>, paths: seq<seq<StationId>>, p: seq<StationId>)
    requires g.Valid() && start != end
    requires PathsOk(g, lineList, start, end, ignore, paths) && FreshPath(g, lineList, start, end, ignore, p)
    requires ignore <= ignore' && forall x :: x in Interior(p) ==> x in ignore'
    ensures PathsOk(g, lineList, start, end, ignore', paths + [p])
    ensures Unignored(|g.stations|, ignore') < Unignored(|g.stations|, ignore)
  {
    forall x | x in ignore ensures x in ignore' { PrefixIn(ignore, ignore', x); }
    CommitShapes(g, lineList, start, end, ignore, ignore', paths, p);
    CommitDistinct(g, lineList, start, end, ignore, paths, p);
    CommitDisjoint(g, lineList, start, end, ignore, paths, p);
    assert p[1] in Interior(p);
    assert p[1] in Unignored(|g.stations|, ignore) && p[1] !in Unignored(|g.stations|, ignore');
  }

  lemma CommitShapes(g: Graph, lineList: seq<LineId>, start: StationId, end: StationId,
                     ignore: seq<StationId>, ignore': seq<StationId>, paths: seq<seq<StationId>>, p: seq<StationId>)
    requires g.Valid()
    requires PathsOk(g, lineList, start, end, ignore, paths) && FreshPath(g, lineList, start, end, ignore, p)
    requires (forall x :: x in ignore ==> x in ignore') && forall x :: x in Interior(p) ==> x in ignore'
    ensures forall i :: 0 <= i < |paths + [p]| ==>
              (paths + [p])[i] == [start, end] || CommittedPath(g, lineList, start, end, ignore', (paths + [p])[i])
  {
    var q := paths + [p];
    forall i | 0 <= i < |q| ensures q[i] == [start, end] || CommittedPath(g, lineList, start, end, ignore', q[i]) {
      if i == |paths| {
        forall k | 0 < k < |p| - 1 ensures p[k] in ignore' { assert p[k] in Interior(p); }
      } else {
        assert q[i] == paths[i];
      }
    }
  }

  lemma CommitDistinct(g: Graph, lineList: seq<LineId>, start: StationId, end: StationId,
                       ignore: seq<StationId>, paths: seq<seq<StationId>>, p: seq<StationId>)
    requires g.Valid()
    requires PathsOk(g, lineList, start, end, ignore, paths) && FreshPath(g, lineList, start, end, ignore, p)
    ensures NoDuplicates(paths + [p])
  {
    var q := paths + [p];
    forall i, j | 0 <= i < j < |q| ensures q[i] != q[j] {
      if j == |paths| && q[i] != [start, end] {
        assert q[i] == paths[i] && q[i][1] in ignore;
      }
    }
  }

  lemma CommitDisjoint(g: Graph, lineList: seq<LineId>, start: StationId, end: StationId,
                       ignore: seq<StationId>, paths: seq<seq<StationId>>, p: seq<StationId>)
    requires g.Valid()
    requires PathsOk(g, lineList, start, end, ignore, paths) && FreshPath(g, lineList, start, end, ignore, p)
    ensures forall i, j, x :: 0 <= i < j < |paths + [p]| && x in Interior((paths + [p])[i]) ==> x !in Interior((paths + [p])[j])
  {
    var q := paths + [p];
    forall i, j, x | 0 <= i < j < |q| && x in Interior(q[i]) ensures x !in Interior(q[j]) {
      if j == |paths| {
        assert q[i] == paths[i];
        if q[i] != [start, end] {
          var k :| 0 <= k < |Interior(q[i])| && Interior(q[i])[k] == x;
          assert x == q[i][k + 1] && x in ignore;
        }
      } else {
        assert q[i] == paths[i] && q[j] == paths[j];
      }
    }
  }

  /** Adding the direct path when it is missing keeps the paths valid. */
  lemma AddDirectKeepsPathsOk(g: Graph, lineList: seq<LineId>, start: StationId, end: StationId,
                              ignore: seq<StationId>, paths: seq<seq<StationId>>)
    requires g.Valid() && PathsOk(g, lineList, start, end, ignore, paths) && [start, end] !in paths
    ensures PathsOk(g, lineList, start, end, ignore, paths + [[start, end]])
  {
    var q := paths + [[start, end]];
    assert Interior([start, end]) == [];
    forall i, j | 0 <= i < j < |q| ensures q[i] != q[j] {
      if j == |paths| { assert q[i] in paths; }
    }
  }

  // ---- bookkeeping for the search ----

  /** Stations below `n` that the search has not recorded. */
  ghost function Unrecorded(n: nat, keys: set<StationId>): set<StationId> {
    set x | 0 <= x < n && x !in keys
  }

  /** Queue entries whose station the search has already recorded. */
  ghost function Stale(queue: seq<(StationId, StationId)>, keys: set<StationId>): nat {
    if queue == [] then 0 else (if queue[0].0 in keys then 1 else 0) + Stale(queue[1..], keys)
  }

  lemma {:induction false} StaleAppend(a: seq<(StationId, StationId)>, b: seq<(StationId, StationId)>, keys: set<StationId>)
    ensures Stale(a + b, keys) == Stale(a, keys) + Stale(b, keys)
  {
    if a == [] {
      assert a + b == b;
    } else {
      assert (a + b)[1..] == a[1..] + b;
      StaleAppend(a[1..], b, keys);
    }
  }

  lemma {:induction false} StaleNone(q: seq<(StationId, StationId)>, keys: set<StationId>)
    requires forall p :: p in q ==> p.0 !in keys
    ensures Stale(q, keys) == 0
  {
    if q != [] {
      assert forall p :: p in q[1..] ==> p in q;
      StaleNone(q[1..], keys);
    }
  }

  /** What the search has recorded: `checked` maps each dequeued station to
      its predecessor, `first` to the turn it was first dequeued. Every
      recorded station but the seed has a predecessor recorded earlier. */
  ghost predicate Ordered(s: StationId, n: nat, checked: map<StationId, StationId>, first: map<StationId, nat>, time: nat) {
    && checked.Keys == first.Keys
    && (forall k :: k in first ==> first[k] < time)
    && (forall k :: k in checked ==> k < n)
    && (forall k :: k in checked && k != s ==> checked[k] in checked && first[checked[k]] < first[k])
  }

  /** The search's loop invariant: what it recorded, drawn from `good`, and
      a queue whose entries name a recorded predecessor (after the seed) that
      was first recorded before any recorded station the entry names. */
  ghost predicate QueueInv(s: StationId, e: StationId, n: nat, good: set<StationId>, checked: map<StationId, StationId>,
                           first: map<StationId, nat>, time: nat, queue: seq<(StationId, StationId)>) {
    && (forall x :: x in good ==> x < n)
    && Ordered(s, n, checked, first, time)
    && (forall k :: k in checked ==> k in good)
    && (checked == map[] ==> queue == [(s, e)] && s in good)
    && (checked != map[] ==> s in checked)
    && (forall q :: q in queue ==> q.0 in good)
    && (checked != map[] ==> forall q :: q in queue ==> q.1 in checked && q.0 != s)
    && (forall q :: q in queue && q.0 in checked ==> first[q.1] < first[q.0])
  }

  /** Dequeuing the head and recording it keeps the invariant for the rest
      of the queue and lowers the termination measure. */
  lemma DequeueStep(s: StationId, e: StationId, n: nat, good: set<StationId>, checked: map<StationId, StationId>,
                    first: map<StationId, nat>, time: nat, queue: seq<(StationId, StationId)>)
    requires QueueInv(s, e, n, good, checked, first, time, queue) && queue != []
    ensures var st := queue[0].0;
            var checked' := checked[st := queue[0].1];
            var first' := if st in first then first else first[st := time];
            var time' := if st in first then time else time + 1;
            && QueueInv(s, e, n, good, checked', first', time', queue[1..])
            && (Unrecorded(n, checked'.Keys) < Unrecorded(n, checked.Keys)
                || (checked'.Keys == checked.Keys && Stale(queue[1..], checked'.Keys) < Stale(queue, checked.Keys)))
  {
    var st := queue[0].0;
    var checked' := checked[st := queue[0].1];
    assert forall q :: q in queue[1..] ==> q in queue;
    if st in first {
      assert checked'.Keys == checked.Keys;
    } else {
      assert st in Unrecorded(n, checked.Keys);
    }
  }

  /** Appending the neighbour pairs of a recorded station keeps the
      invariant and adds nothing stale. */
  lemma ExtendStep(s: StationId, e: StationId, n: nat, good: set<StationId>, checked: map<StationId, StationId>,
                   first: map<StationId, nat>, time: nat, queue: seq<(StationId, StationId)>, near: seq<(StationId, StationId)>)
    requires QueueInv(s, e, n, good, checked, first, time, queue) && checked != map[]
    requires forall p :: p in near ==> p.1 in checked && p.0 !in checked && p.0 in good
    ensures QueueInv(s, e, n, good, checked, first, time, queue + near)
    ensures Stale(queue + near, checked.Keys) == Stale(queue, checked.Keys)
  {
    StaleNone(near, checked.Keys);
    StaleAppend(queue, near, checked.Keys);
  }

  /** The walk back from `e`, followed by `s` and reversed, runs from `s` to
      `e` without repeats; its stations before `e` are `s` and the recorded
      ones. */
  lemma ReversedWalk(walk: seq<StationId>, s: StationId, e: StationId)
    requires s !in walk && NoDuplicates(walk) && (walk != [] ==> walk[0] == e)
    ensures var p := Reverse(walk + [s]);
            && |p| == |walk| + 1 && p[0] == s && NoDuplicates(p)
            && (walk != [] ==> p[|p| - 1] == e)
            && forall k :: 0 < k < |p| - 1 ==> p[k] == walk[|walk| - k]
  {
    var w := walk + [s];
    var p := Reverse(w);
    forall i, j | 0 <= i < j < |p| ensures p[i] != p[j] {
      assert p[i] == w[|w| - 1 - i] && p[j] == w[|w| - 1 - j];
    }
  }

  // ---- the path a search yields ----

  /** The predecessor `get_path_from_dict` reads for `x`: `checked[x]`, or,
      after the `KeyError`, `checked[x.alter_station]`; None when neither
      was recorded. */
  function Pred(g: Graph, checked: map<StationId, StationId>, x: StationId): Option<StationId>
    requires g.Valid() && x < |g.stations|
  {
    if x in checked then Some(checked[x])
    else match g.stations[x].alter
      case Some(a) => if a in checked then Some(checked[a]) else None
      case None => None
  }

  /** The loop test of `get_path_from_dict`: the walk stops at `s` or at a
      station whose alias is `s`. */
  predicate AtStart(g: Graph, s: StationId, x: StationId)
    requires g.Valid() && x < |g.stations|
  {
    x == s || g.stations[x].alter == Some(s)
  }

  /**
   * `get_path_from_dict` as a function: the stations met walking
   * predecessors back from `x` until one is `AtStart`; `seen` holds the
   * stations already walked. A walk that would meet an unrecorded station,
   * leave the arena or come back to a station of `seen` ends there; the
   * walk over what a search recorded never does (`GetPathFromDict`).
   */
  function WalkBack(g: Graph, s: StationId, checked: map<StationId, StationId>, x: StationId, seen: set<StationId>): (r: seq<StationId>)
    requires g.Valid() && x < |g.stations| && x !in seen
    ensures r == [] <==> AtStart(g, s, x)
    decreases Unrecorded(|g.stations|, seen)
  {
    if AtStart(g, s, x) then []
    else match Pred(g, checked, x)
      case Some(y) =>
        if y < |g.stations| && y !in seen && y != x then
          assert x in Unrecorded(|g.stations|, seen) && x !in Unrecorded(|g.stations|, seen + {x});
          [x] + WalkBack(g, s, checked, y, seen + {x})
        else [x]
      case None => [x]
  }

  /** The walk back from `x` starts at `x`, never repeats a station or
      passes one of `seen`, stops at no station before its end, and each of
      its stations is the recorded predecessor of the one before. */
  lemma {:induction false} WalkBackShape(g: Graph, s: StationId, checked: map<StationId, StationId>, x: StationId, seen: set<StationId>)
    requires g.Valid() && x < |g.stations| && x !in seen
    ensures var r := WalkBack(g, s, checked, x, seen);
            && (r != [] ==> r[0] == x)
            && (forall k :: 0 <= k < |r| ==> r[k] < |g.stations| && !AtStart(g, s, r[k]) && r[k] !in seen)
            && (forall k :: 0 <= k < |r| - 1 ==> Pred(g, checked, r[k]) == Some(r[k + 1]))
            && NoDuplicates(r)
    decreases Unrecorded(|g.stations|, seen)
  {
    if !AtStart(g, s, x) && Pred(g, checked, x).Some? {
      var y := Pred(g, checked, x).value;
      if y < |g.stations| && y !in seen && y != x {
        assert x in Unrecorded(|g.stations|, seen) && x !in Unrecorded(|g.stations|, seen + {x});
        WalkBackShape(g, s, checked, y, seen + {x});
        var rest := WalkBack(g, s, checked, y, seen + {x});
        assert WalkBack(g, s, checked, x, seen) == [x] + rest;
        assert forall k :: 0 < k < |rest| + 1 ==> ([x] + rest)[k] == rest[k - 1];
      }
    }
  }

  /** `get_path_from_dict`: walks predecessors back from `e` (through `e`'s
      alias when `e` itself was not recorded) until it reaches `s` or a
      station whose alias is `s`; the walk is listed from `e` backwards. */
  method GetPathFromDict(g: Graph, s: StationId, e: StationId, checked: map<StationId, StationId>,
                         ghost first: map<StationId, nat>, ghost time: nat)
    returns (path: seq<StationId>)
    requires g.Valid() && e < |g.stations| && Ordered(s, |g.stations|, checked, first, time)
    requires e in checked || (g.stations[e].alter.Some? && g.stations[e].alter.value in checked)
    ensures path == WalkBack(g, s, checked, e, {})
    ensures g.IdsIn(path)
    ensures path != [] ==> exists y :: Pred(g, checked, path[|path| - 1]) == Some(y) && y < |g.stations| && AtStart(g, s, y)
    ensures forall k :: 0 < k < |path| ==> path[k] in checked
  {
    path := [];
    var cur := e;
    ghost var seen: set<StationId> := {};
    ghost var total := WalkBack(g, s, checked, e, {});
    while cur != s && g.stations[cur].alter != Some(s)
      invariant WalkState(g, s, e, checked, first, time, total, path, cur, seen)
      decreases Rank(first, time, cur)
    {
      // `checked[end]`, or `checked[end.alter_station]` after the `KeyError`
      var next := if cur in checked then checked[cur] else checked[g.stations[cur].alter.value];
      WalkStep(g, s, e, checked, first, time, total, path, cur, seen, next);
      path := path + [cur];
      seen := seen + {cur};
      cur := next;
    }
    WalkDone(g, s, e, checked, first, time, total, path, cur, seen);
  }

  /** A walk back that reached `s` or a station whose alias is `s` is the
      whole walk, whose last predecessor is that station. */
  lemma WalkDone(g: Graph, s: StationId, e: StationId, checked: map<StationId, StationId>,
                 first: map<StationId, nat>, time: nat, total: seq<StationId>,
                 path: seq<StationId>, cur: StationId, seen: set<StationId>)
    requires g.Valid() && Ordered(s, |g.stations|, checked, first, time)
    requires e < |g.stations| && total == WalkBack(g, s, checked, e, {})
    requires WalkState(g, s, e, checked, first, time, total, path, cur, seen) && AtStart(g, s, cur)
    ensures path == total
    ensures g.IdsIn(path)
    ensures path != [] ==> exists y :: Pred(g, checked, path[|path| - 1]) == Some(y) && y < |g.stations| && AtStart(g, s, y)
    ensures forall k :: 0 < k < |path| ==> path[k] in checked
  {
    WalkBackShape(g, s, checked, e, {});
    assert path != [] ==> Pred(g, checked, path[|path| - 1]) == Some(cur);
    WalkRecorded(g, s, checked, first, time, path);
  }

  /** `get_bfs_path`: empty when neither `e` nor its alias was recorded;
      otherwise the walk back from `e`, followed by `s`, reversed. */
  method GetBfsPath(g: Graph, s: StationId, e: StationId, checked: map<StationId, StationId>,
                    ghost first: map<StationId, nat>, ghost time: nat)
    returns (path: seq<StationId>)
    requires g.Valid() && s < |g.stations| && e < |g.stations|
    requires Ordered(s, |g.stations|, checked, first, time)
    ensures path == BfsPath(g, s, e, checked)
  {
    path := [];
    if e in checked || (g.stations[e].alter.Some? && g.stations[e].alter.value in checked) {
      var walk := GetPathFromDict(g, s, e, checked, first, time);
      path := Reverse(walk + [s]);
    }
  }

  /** The path `get_bfs_path` builds from what a search recorded: `[s]`
      when `s` is the end or its alias; otherwise, if not empty, a path
      from `s` to `e` without repeats whose stations before `e` were all
      recorded. */
  lemma BfsPathShape(g: Graph, lineList: seq<LineId>, ignore: seq<StationId>, s: StationId, e: StationId,
                     checked: map<StationId, StationId>, first: map<StationId, nat>, time: nat)
    requires g.Valid() && s < |g.stations| && e < |g.stations|
    requires s in checked && Ordered(s, |g.stations|, checked, first, time)
    requires forall k :: k in checked ==> OnMap(g, lineList, k) && k !in ignore
    ensures var p := BfsPath(g, s, e, checked);
            && ((s == e || g.stations[e].alter == Some(s)) ==> p == [s])
            && (p != [] && s != e && g.stations[e].alter != Some(s) ==>
                  |p| >= 2 && p[|p| - 1] == e && NoDuplicates(p)
                  && forall k :: 0 <= k < |p| - 1 ==> p[k] !in ignore && OnMap(g, lineList, p[k]))
  {
    if Reached(g, e, checked) {
      var walk := WalkBack(g, s, checked, e, {});
      WalkBackShape(g, s, checked, e, {});
      WalkRecorded(g, s, checked, first, time, walk);
      ReversedWalk(walk, s, e);
      var p := Reverse(walk + [s]);
      assert (s == e || g.stations[e].alter == Some(s)) ==> walk == [];
      forall k | 0 < k < |p| - 1 ensures p[k] in checked {
        assert p[k] == walk[|walk| - k];
      }
    }
  }

  /** The state of the walk back: `path` is the start of the whole walk
      `total`, `cur` the station reached, `seen` the stations passed, all
      ranked above `cur`. */
  ghost predicate WalkState(g: Graph, s: StationId, e: StationId, checked: map<StationId, StationId>,
                            first: map<StationId, nat>, time: nat, total: seq<StationId>,
                            path: seq<StationId>, cur: StationId, seen: set<StationId>)
    requires g.Valid()
  {
    && cur < |g.stations| && cur !in seen
    && (cur in checked || (cur == e && path == []))
    && (forall x :: x in seen ==> Rank(first, time, x) > Rank(first, time, cur))
    && |path| <= |total| && path == total[..|path|]
    && WalkBack(g, s, checked, cur, seen) == total[|path|..]
    && (path != [] ==> path[|path| - 1] < |g.stations| && Pred(g, checked, path[|path| - 1]) == Some(cur))
  }

  /** After its first station, a walk back names only recorded stations. */
  lemma WalkRecorded(g: Graph, s: StationId, checked: map<StationId, StationId>, first: map<StationId, nat>, time: nat,
                     w: seq<StationId>)
    requires g.Valid() && Ordered(s, |g.stations|, checked, first, time)
    requires forall k :: 0 <= k < |w| ==> w[k] < |g.stations| && !AtStart(g, s, w[k])
    requires forall k :: 0 <= k < |w| - 1 ==> Pred(g, checked, w[k]) == Some(w[k + 1])
    ensures forall k :: 0 < k < |w| ==> w[k] in checked
  {
    forall k | 0 < k < |w| ensures w[k] in checked {
      var x := w[k - 1];
      assert Pred(g, checked, x) == Some(w[k]);
      var key := if x in checked then x else g.stations[x].alter.value;
      assert key in checked && key != s && checked[key] == w[k];
    }
  }

  /** One step of the walk back: `cur` is not at the start, so its
      predecessor was recorded, ranks below `cur` and below every station
      walked so far, and extends the walk. */
  lemma WalkStep(g: Graph, s: StationId, e: StationId, checked: map<StationId, StationId>,
                 first: map<StationId, nat>, time: nat, total: seq<StationId>,
                 path: seq<StationId>, cur: StationId, seen: set<StationId>, next: StationId)
    requires g.Valid() && Ordered(s, |g.stations|, checked, first, time)
    requires WalkState(g, s, e, checked, first, time, total, path, cur, seen)
    requires !AtStart(g, s, cur) && Pred(g, checked, cur) == Some(next)
    ensures next < |g.stations| && Rank(first, time, next) < Rank(first, time, cur)
    ensures WalkState(g, s, e, checked, first, time, total, path + [cur], next, seen + {cur})
  {
    var i := |path|;
    var k := if cur in checked then cur else g.stations[cur].alter.value;
    assert k in checked && k != s && checked[k] == next;
    assert first[next] < first[k];
    var rest := WalkBack(g, s, checked, next, seen + {cur});
    assert WalkBack(g, s, checked, cur, seen) == [cur] + rest;
    assert total[i + 1..] == total[i..][1..];
    assert total[..i + 1] == path + [cur];
  }

  /** `get_bfs_path` as a function of what the search recorded: the walk
      back from `e`, then `s`, reversed; empty when neither `e` nor its
      alias was recorded. */
  function BfsPath(g: Graph, s: StationId, e: StationId, checked: map<StationId, StationId>): (r: seq<StationId>)
    requires g.Valid() && s < |g.stations| && e < |g.stations|
    ensures r != [] <==> Reached(g, e, checked)
    ensures r != [] ==> r[0] == s && |r| == |WalkBack(g, s, checked, e, {})| + 1
  {
    if Reached(g, e, checked) then Reverse(WalkBack(g, s, checked, e, {}) + [s]) else []
  }

  /** Ranks strictly fall along `path`. */
  ghost predicate RankDecreasing(first: map<StationId, nat>, time: nat, path: seq<StationId>) {
    forall i, j :: 0 <= i < j < |path| ==> Rank(first, time, path[i]) > Rank(first, time, path[j])
  }

  lemma RankDecreasingDistinct(first: map<StationId, nat>, time: nat, path: seq<StationId>)
    requires RankDecreasing(first, time, path)
    ensures NoDuplicates(path)
  {
    forall i, j | 0 <= i < j < |path| ensures path[i] != path[j] {
      assert Rank(first, time, path[i]) > Rank(first, time, path[j]);
    }
  }

  /** The order in which the search first recorded a station; stations it
      never recorded rank after all of them. */
  ghost function Rank(first: map<StationId, nat>, time: nat, x: StationId): nat {
    if x in first then first[x] else time
  }

  // ---- the search as a function of its state ----

  /** The neighbour pairs name stations of the arena that were not yet
      recorded. */
  lemma NearPairsFresh(g: Graph, lineList: seq<LineId>, cross: map<string, seq<string>>, endLine: LineId,
                       ignore: seq<StationId>, st: StationId, checked: set<StationId>)
    requires g.Valid() && LineListOk(g, lineList) && st < |g.stations|
    ensures forall p :: p in NearPairs(g, lineList, cross, endLine, ignore, st, checked) ==>
              p.0 < |g.stations| && p.0 !in checked
  {
    match InLineStation(g, st)
    case None =>
    case Some(ils) =>
      NextPairsFresh(g, g.stations[ils].index, st, checked, ignore);
      match g.stations[ils].alter
      case None =>
      case Some(a) => NextPairsFresh(g, g.stations[a].index, st, checked, ignore);
  }

  lemma NextPairsFresh(g: Graph, index: int, st: StationId, checked: set<StationId>, ignore: seq<StationId>)
    requires g.Valid() && st < |g.stations|
    ensures forall p :: p in NextPairs(g, index, st, checked, ignore) ==> p.0 < |g.stations| && p.0 !in checked
  {
    var xs := IndexNeighbours(g, g.stations[st].line, [index + 1, index - 1]);
    assert forall x :: x in xs ==> x < |g.stations|;
  }

  /** The stop test of `create_queue_stations_dict`: `e` or `e`'s alias. */
  predicate IsEnd(g: Graph, e: StationId, x: StationId)
    requires g.Valid() && e < |g.stations|
  {
    x == e || g.stations[e].alter == Some(x)
  }

  /** The test of `get_bfs_path`: `e` or `e`'s alias was recorded. */
  predicate Reached(g: Graph, e: StationId, checked: map<StationId, StationId>)
    requires g.Valid() && e < |g.stations|
  {
    e in checked || (g.stations[e].alter.Some? && g.stations[e].alter.value in checked)
  }

  /**
   * The `while queue` loop of `create_queue_stations_dict` run to its end
   * from `queue` and `checked`: the recorded stations once the queue is
   * empty or a turn stops.
   */
  ghost function Search(g: Graph, lineList: seq<LineId>, cross: map<string, seq<string>>, endLine: LineId,
                        ignore: seq<StationId>, e: StationId,
                        queue: seq<(StationId, StationId)>, checked: map<StationId, StationId>): map<StationId, StationId>
    requires g.Valid() && LineListOk(g, lineList) && e < |g.stations|
    requires forall q :: q in queue ==> q.0 < |g.stations|
    decreases Unrecorded(|g.stations|, checked.Keys), Stale(queue, checked.Keys), 1
  {
    if queue == [] then checked else SearchTurn(g, lineList, cross, endLine, ignore, e, queue, checked)
  }

  /** One turn and the rest of the search: pop the head, record its
      predecessor (overwriting), stop if it is `e` or `e`'s alias, otherwise
      append its neighbour pairs and go on. */
  ghost function SearchTurn(g: Graph, lineList: seq<LineId>, cross: map<string, seq<string>>, endLine: LineId,
                            ignore: seq<StationId>, e: StationId,
                            queue: seq<(StationId, StationId)>, checked: map<StationId, StationId>): map<StationId, StationId>
    requires g.Valid() && LineListOk(g, lineList) && e < |g.stations|
    requires queue != [] && forall q :: q in queue ==> q.0 < |g.stations|
    decreases Unrecorded(|g.stations|, checked.Keys), Stale(queue, checked.Keys), 0
  {
    var st := queue[0].0;
    var checked' := checked[st := queue[0].1];
    if IsEnd(g, e, st) then checked'
    else
      var near := NearPairs(g, lineList, cross, endLine, ignore, st, checked'.Keys);
      NearPairsFresh(g, lineList, cross, endLine, ignore, st, checked'.Keys);
      SearchMeasure(g.stations, queue, checked, near);
      Search(g, lineList, cross, endLine, ignore, e, queue[1..] + near, checked')
  }

  /** One turn of the search: the head is recorded, then either the search
      stops or it continues with the head's neighbour pairs appended. */
  lemma SearchUnfold(g: Graph, lineList: seq<LineId>, cross: map<string, seq<string>>, endLine: LineId,
                     ignore: seq<StationId>, e: StationId, queue: seq<(StationId, StationId)>, checked: map<StationId, StationId>)
    requires g.Valid() && LineListOk(g, lineList) && e < |g.stations|
    requires queue != [] && forall q :: q in queue ==> q.0 < |g.stations|
    ensures var checked' := checked[queue[0].0 := queue[0].1];
            var queue' := queue[1..] + NearPairs(g, lineList, cross, endLine, ignore, queue[0].0, checked'.Keys);
            && (forall q :: q in queue' ==> q.0 < |g.stations|)
            && Search(g, lineList, cross, endLine, ignore, e, queue, checked)
               == if IsEnd(g, e, queue[0].0) then checked' else Search(g, lineList, cross, endLine, ignore, e, queue', checked')
  {
    var checked' := checked[queue[0].0 := queue[0].1];
    NearPairsFresh(g, lineList, cross, endLine, ignore, queue[0].0, checked'.Keys);
    assert forall q :: q in queue[1..] ==> q in queue;
    assert Search(g, lineList, cross, endLine, ignore, e, queue, checked)
        == SearchTurn(g, lineList, cross, endLine, ignore, e, queue, checked);
  }

  /** Recording the head and appending unrecorded pairs lowers the
      termination measure of the search. */
  lemma SearchMeasure(stations: seq<Station>, queue: seq<(StationId, StationId)>, checked: map<StationId, StationId>,
                      near: seq<(StationId, StationId)>)
    requires queue != [] && queue[0].0 < |stations|
    requires forall p :: p in near ==> p.0 !in checked[queue[0].0 := queue[0].1].Keys
    ensures var checked' := checked[queue[0].0 := queue[0].1];
            Unrecorded(|stations|, checked'.Keys) < Unrecorded(|stations|, checked.Keys)
            || (checked'.Keys == checked.Keys && Stale(queue[1..] + near, checked'.Keys) < Stale(queue, checked.Keys))
  {
    var checked' := checked[queue[0].0 := queue[0].1];
    StaleNone(near, checked'.Keys);
    StaleAppend(queue[1..], near, checked'.Keys);
    if queue[0].0 in checked {
      assert checked'.Keys == checked.Keys;
    } else {
      assert queue[0].0 in Unrecorded(|stations|, checked.Keys);
    }
  }

  /** Whether the search from `x` towards `e` records `e` or its alias. */
  ghost predicate Reaches(g: Graph, lineList: seq<LineId>, cross: map<string, seq<string>>, endLine: LineId,
                          ignore: seq<StationId>, e: StationId, x: StationId)
    requires g.Valid() && LineListOk(g, lineList) && e < |g.stations|
  {
    x < |g.stations| && Reached(g, e, Search(g, lineList, cross, endLine, ignore, e, [(x, e)], map[]))
  }

  /** `self.end_station in station_pair or self.end_station.alter_station in
      station_pair`: a pair that touches the end or its alias. */
  predicate Direct(g: Graph, end: StationId, pair: (StationId, StationId))
    requires g.Valid() && end < |g.stations|
  {
    IsEnd(g, end, pair.0) || IsEnd(g, end, pair.1)
  }

  /** The pairs of a round that are searched from, in order. */
  function Searched(g: Graph, end: StationId, near: seq<(StationId, StationId)>): (r: seq<(StationId, StationId)>)
    requires g.Valid() && end < |g.stations|
    ensures forall p :: p in r ==> p in near && !Direct(g, end, p)
    ensures |r| <= |near|
  {
    if near == [] then []
    else
      var init := Searched(g, end, near[..|near| - 1]);
      assert forall p :: p in near[..|near| - 1] ==> p in near;
      if Direct(g, end, near[|near| - 1]) then init else init + [near[|near| - 1]]
  }

  /** Some pair of the round touches the end or its alias. */
  function HasDirect(g: Graph, end: StationId, near: seq<(StationId, StationId)>): (r: bool)
    requires g.Valid() && end < |g.stations|
    ensures r <==> exists k :: 0 <= k < |near| && Direct(g, end, near[k])
  {
    if near == [] then false
    else
      var init := near[..|near| - 1];
      assert forall k :: 0 <= k < |init| ==> init[k] == near[k];
      HasDirect(g, end, init) || Direct(g, end, near[|near| - 1])
  }

  /** What `nearby_bfs` returns for the neighbour `x`: the path of the
      search from `x`, with the start in front; empty exactly when that
      search misses the end, otherwise a fresh path through `x`. */
  ghost predicate Candidate(g: Graph, lineList: seq<LineId>, cross: map<string, seq<string>>, ignore: seq<StationId>,
                            start: StationId, end: StationId, x: StationId, c: seq<StationId>)
    requires g.Valid() && LineListOk(g, lineList) && end < |g.stations|
  {
    && x < |g.stations| && c == NearbyPath(g, lineList, cross, ignore, start, end, x)
    && (c != [] <==> Reaches(g, lineList, cross, g.stations[end].line, ignore, end, x))
    && (c != [] ==> FreshPath(g, lineList, start, end, ignore, c) && c[1] == x)
  }

  /** A round selects nothing when no pair is searched from or when the
      search from its last searched pair misses the end. */
  ghost predicate SelectsNothing(g: Graph, lineList: seq<LineId>, cross: map<string, seq<string>>, ignore: seq<StationId>,
                                 end: StationId, near: seq<(StationId, StationId)>)
    requires g.Valid() && LineListOk(g, lineList) && end < |g.stations|
  {
    var searched := Searched(g, end, near);
    searched == [] || !Reaches(g, lineList, cross, g.stations[end].line, ignore, end, searched[|searched| - 1].0)
  }

  /** The candidates of a round: one per searched pair, in order, each what
      `nearby_bfs` returns for that pair's station. */
  ghost predicate CandidatesOf(g: Graph, lineList: seq<LineId>, cross: map<string, seq<string>>, ignore: seq<StationId>,
                               start: StationId, end: StationId, searched: seq<(StationId, StationId)>, cands: seq<seq<StationId>>)
    requires g.Valid() && LineListOk(g, lineList) && end < |g.stations|
  {
    && |cands| == |searched|
    && forall k :: 0 <= k < |cands| ==> Candidate(g, lineList, cross, ignore, start, end, searched[k].0, cands[k])
  }

  /** One more searched pair adds its own candidate. */
  lemma CandidatesStep(g: Graph, lineList: seq<LineId>, cross: map<string, seq<string>>, ignore: seq<StationId>,
                       start: StationId, end: StationId, searched: seq<(StationId, StationId)>, cands: seq<seq<StationId>>,
                       pair: (StationId, StationId), path: seq<StationId>)
    requires g.Valid() && LineListOk(g, lineList) && end < |g.stations|
    requires CandidatesOf(g, lineList, cross, ignore, start, end, searched, cands)
    requires Candidate(g, lineList, cross, ignore, start, end, pair.0, path)
    ensures CandidatesOf(g, lineList, cross, ignore, start, end, searched + [pair], cands + [path])
  {
    var s', c' := searched + [pair], cands + [path];
    forall k | 0 <= k < |c'| ensures Candidate(g, lineList, cross, ignore, start, end, s'[k].0, c'[k]) {
      if k < |cands| { assert c'[k] == cands[k] && s'[k] == searched[k]; }
    }
  }

  /** The pairs searched up to index `i` inclusive: those before, then the
      pair at `i` unless it is direct; likewise for `HasDirect`. */
  lemma SearchedStep(g: Graph, end: StationId, near: seq<(StationId, StationId)>, i: nat)
    requires g.Valid() && end < |g.stations| && i < |near|
    ensures Searched(g, end, near[..i + 1])
         == Searched(g, end, near[..i]) + if Direct(g, end, near[i]) then [] else [near[i]]
    ensures HasDirect(g, end, near[..i + 1]) == (HasDirect(g, end, near[..i]) || Direct(g, end, near[i]))
  {
    assert near[..i + 1][..i] == near[..i];
    assert Searched(g, end, near[..i]) + [] == Searched(g, end, near[..i]);
  }

  /** The state of a round after its first `i` pairs: the direct path added
      once if one of them was direct, the selection over the candidates, and
      one candidate per searched pair. */
  ghost predicate RoundInv(g: Graph, lineList: seq<LineId>, cross: map<string, seq<string>>, ignore: seq<StationId>,
                           start: StationId, end: StationId, near: seq<(StationId, StationId)>, i: nat,
                           paths0: seq<seq<StationId>>, paths: seq<seq<StationId>>, minPath: seq<StationId>,
                           cands: seq<seq<StationId>>, searched: seq<(StationId, StationId)>)
    requires g.Valid() && LineListOk(g, lineList) && end < |g.stations|
  {
    && i <= |near|
    && paths == (if HasDirect(g, end, near[..i]) && [start, end] !in paths0 then paths0 + [[start, end]] else paths0)
    && minPath == SelectAll(cands)
    && searched == Searched(g, end, near[..i])
    && CandidatesOf(g, lineList, cross, ignore, start, end, searched, cands)
  }

  /** A direct pair adds the direct path unless it is already there. */
  lemma RoundDirect(g: Graph, lineList: seq<LineId>, cross: map<string, seq<string>>, ignore: seq<StationId>,
                    start: StationId, end: StationId, near: seq<(StationId, StationId)>, i: nat,
                    paths0: seq<seq<StationId>>, paths: seq<seq<StationId>>, paths': seq<seq<StationId>>,
                    minPath: seq<StationId>, cands: seq<seq<StationId>>, searched: seq<(StationId, StationId)>)
    requires g.Valid() && LineListOk(g, lineList) && end < |g.stations| && i < |near| && Direct(g, end, near[i])
    requires RoundInv(g, lineList, cross, ignore, start, end, near, i, paths0, paths, minPath, cands, searched)
    requires paths' == if [start, end] in paths then paths else paths + [[start, end]]
    ensures RoundInv(g, lineList, cross, ignore, start, end, near, i + 1, paths0, paths', minPath, cands, searched)
  {
    SearchedStep(g, end, near, i);
    assert searched + [] == searched;
  }

  /** Any other pair adds its candidate and offers it to the selection. */
  lemma RoundSearched(g: Graph, lineList: seq<LineId>, cross: map<string, seq<string>>, ignore: seq<StationId>,
                      start: StationId, end: StationId, near: seq<(StationId, StationId)>, i: nat,
                      paths0: seq<seq<StationId>>, paths: seq<seq<StationId>>,
                      minPath: seq<StationId>, cands: seq<seq<StationId>>, searched: seq<(StationId, StationId)>, path: seq<StationId>)
    requires g.Valid() && LineListOk(g, lineList) && end < |g.stations| && i < |near| && !Direct(g, end, near[i])
    requires RoundInv(g, lineList, cross, ignore, start, end, near, i, paths0, paths, minPath, cands, searched)
    requires Candidate(g, lineList, cross, ignore, start, end, near[i].0, path)
    ensures RoundInv(g, lineList, cross, ignore, start, end, near, i + 1, paths0, paths,
                     SelectStep(minPath, path), cands + [path], searched + [near[i]])
  {
    SearchedStep(g, end, near, i);
    CandidatesStep(g, lineList, cross, ignore, start, end, searched, cands, near[i], path);
    assert (cands + [path])[..|cands|] == cands;
  }

  /** At the end of a round, the selection is empty exactly when the round
      selects nothing. */
  lemma RoundEnd(g: Graph, lineList: seq<LineId>, cross: map<string, seq<string>>, ignore: seq<StationId>,
                 start: StationId, end: StationId, near: seq<(StationId, StationId)>, cands: seq<seq<StationId>>)
    requires g.Valid() && LineListOk(g, lineList) && end < |g.stations|
    requires CandidatesOf(g, lineList, cross, ignore, start, end, Searched(g, end, near), cands)
    ensures SelectAll(cands) == [] <==> SelectsNothing(g, lineList, cross, ignore, end, near)
  {
    SelectAllEmpty(cands);
  }

  /** What a whole round leaves: the direct path added once if some pair was
      direct, the candidates `nearby_bfs` returns for the searched pairs,
      each empty or fresh, and their selection. */
  lemma RoundDone(g: Graph, lineList: seq<LineId>, cross: map<string, seq<string>>, ignore: seq<StationId>,
                  start: StationId, end: StationId, near: seq<(StationId, StationId)>,
                  paths0: seq<seq<StationId>>, paths: seq<seq<StationId>>, minPath: seq<StationId>,
                  cands: seq<seq<StationId>>, searched: seq<(StationId, StationId)>)
    requires g.Valid() && LineListOk(g, lineList) && end < |g.stations|
    requires forall p :: p in near ==> p.0 < |g.stations|
    requires RoundInv(g, lineList, cross, ignore, start, end, near, |near|, paths0, paths, minPath, cands, searched)
    ensures paths == DirectAdd(g, start, end, paths0, near)
    ensures minPath == SelectAll(cands) == Selection(g, lineList, cross, ignore, start, end, near)
    ensures CandidatesOf(g, lineList, cross, ignore, start, end, Searched(g, end, near), cands)
    ensures cands == CandidatesFor(g, lineList, cross, ignore, start, end, Searched(g, end, near))
    ensures forall c :: c in cands ==> c == [] || FreshPath(g, lineList, start, end, ignore, c)
    ensures minPath == [] <==> SelectsNothing(g, lineList, cross, ignore, end, near)
  {
    assert near[..|near|] == near;
    RoundEnd(g, lineList, cross, ignore, start, end, near, cands);
    CandidatesOfIs(g, lineList, cross, ignore, start, end, searched, cands);
    CandidatesFresh(g, lineList, cross, ignore, start, end, searched, cands);
  }

  /** The selection is empty exactly when there are no candidates or the last
      one is empty: an unreachable last neighbour clears any earlier choice. */
  lemma SelectAllEmpty(cands: seq<seq<StationId>>)
    ensures SelectAll(cands) == [] <==> cands == [] || cands[|cands| - 1] == []
  {
    if cands != [] {
      var m := SelectAll(cands[..|cands| - 1]);
      assert SelectAll(cands) == SelectStep(m, cands[|cands| - 1]);
    }
  }

  /** `nearby_bfs` for the neighbour `x`: `breadth_first_search(x, end)`,
      which walks back through what the search from `x` recorded, with the
      start put in front when it is not empty. */
  ghost function NearbyPath(g: Graph, lineList: seq<LineId>, cross: map<string, seq<string>>, ignore: seq<StationId>,
                            start: StationId, end: StationId, x: StationId): seq<StationId>
    requires g.Valid() && LineListOk(g, lineList) && x < |g.stations| && end < |g.stations|
  {
    var p := BfsPath(g, x, end, Search(g, lineList, cross, g.stations[end].line, ignore, end, [(x, end)], map[]));
    if p == [] then [] else [start] + p
  }

  /** Given what `breadth_first_search(x, end)` is proved to return, the
      search from a neighbour `x` that is not the end yields a candidate:
      empty exactly when the end is out of reach, otherwise a fresh path. */
  lemma NearbyCandidate(g: Graph, lineList: seq<LineId>, cross: map<string, seq<string>>, ignore: seq<StationId>,
                        start: StationId, end: StationId, x: StationId, p: seq<StationId>)
    requires g.Valid() && LineListOk(g, lineList) && x < |g.stations| && end < |g.stations|
    requires start in ignore && start != end && x != end && g.stations[end].alter != Some(x)
    requires p == BfsPath(g, x, end, Search(g, lineList, cross, g.stations[end].line, ignore, end, [(x, end)], map[]))
    requires p != [] <==> Reaches(g, lineList, cross, g.stations[end].line, ignore, end, x)
    requires p == [] || p[0] == x
    requires p != [] ==> |p| >= 2 && p[|p| - 1] == end && NoDuplicates(p)
                         && forall k :: 0 <= k < |p| - 1 ==> p[k] !in ignore && OnMap(g, lineList, p[k])
    ensures Candidate(g, lineList, cross, ignore, start, end, x, NearbyPath(g, lineList, cross, ignore, start, end, x))
  {
    if p != [] {
      assert start !in p[..|p| - 1];
      assert start !in p;
    }
  }

  /** The candidates of a round over the searched pairs `searched`: what
      `nearby_bfs` returns for each, in order. */
  ghost function CandidatesFor(g: Graph, lineList: seq<LineId>, cross: map<string, seq<string>>, ignore: seq<StationId>,
                               start: StationId, end: StationId, searched: seq<(StationId, StationId)>): (r: seq<seq<StationId>>)
    requires g.Valid() && LineListOk(g, lineList) && end < |g.stations|
    requires forall k :: 0 <= k < |searched| ==> searched[k].0 < |g.stations|
    ensures |r| == |searched|
    ensures forall k :: 0 <= k < |r| ==> r[k] == NearbyPath(g, lineList, cross, ignore, start, end, searched[k].0)
  {
    seq(|searched|, k requires 0 <= k < |searched| => NearbyPath(g, lineList, cross, ignore, start, end, searched[k].0))
  }

  /** Every candidate of a round is empty or a fresh path. */
  lemma CandidatesFresh(g: Graph, lineList: seq<LineId>, cross: map<string, seq<string>>, ignore: seq<StationId>,
                        start: StationId, end: StationId, searched: seq<(StationId, StationId)>, cands: seq<seq<StationId>>)
    requires g.Valid() && LineListOk(g, lineList) && end < |g.stations|
    requires CandidatesOf(g, lineList, cross, ignore, start, end, searched, cands)
    ensures forall c :: c in cands ==> c == [] || FreshPath(g, lineList, start, end, ignore, c)
  {
    forall c | c in cands ensures c == [] || FreshPath(g, lineList, start, end, ignore, c) {
      var k :| 0 <= k < |cands| && cands[k] == c;
      assert Candidate(g, lineList, cross, ignore, start, end, searched[k].0, cands[k]);
    }
  }

  /** The candidates a round gathers are exactly `CandidatesFor` its
      searched pairs. */
  lemma CandidatesOfIs(g: Graph, lineList: seq<LineId>, cross: map<string, seq<string>>, ignore: seq<StationId>,
                       start: StationId, end: StationId, searched: seq<(StationId, StationId)>, cands: seq<seq<StationId>>)
    requires g.Valid() && LineListOk(g, lineList) && end < |g.stations|
    requires CandidatesOf(g, lineList, cross, ignore, start, end, searched, cands)
    ensures forall k :: 0 <= k < |searched| ==> searched[k].0 < |g.stations|
    ensures cands == CandidatesFor(g, lineList, cross, ignore, start, end, searched)
  {
    forall k | 0 <= k < |searched| ensures searched[k].0 < |g.stations| {
      assert Candidate(g, lineList, cross, ignore, start, end, searched[k].0, cands[k]);
    }
  }

  /** The `min_path` a round over `near` ends with: the selection over the
      candidates of its searched pairs. */
  ghost function Selection(g: Graph, lineList: seq<LineId>, cross: map<string, seq<string>>, ignore: seq<StationId>,
                           start: StationId, end: StationId, near: seq<(StationId, StationId)>): (r: seq<StationId>)
    requires g.Valid() && LineListOk(g, lineList) && end < |g.stations|
    requires forall p :: p in near ==> p.0 < |g.stations|
    ensures r != [] ==> |near| > 0
  {
    var searched := Searched(g, end, near);
    assert forall k :: 0 <= k < |searched| ==> searched[k] in near;
    SelectAllEmpty(CandidatesFor(g, lineList, cross, ignore, start, end, searched));
    SelectAll(CandidatesFor(g, lineList, cross, ignore, start, end, searched))
  }

  /** `self.possible_paths` after the direct pairs of a round: the direct
      path added once when some pair touches the end or its alias. */
  function DirectAdd(g: Graph, start: StationId, end: StationId, paths: seq<seq<StationId>>,
                     near: seq<(StationId, StationId)>): (r: seq<seq<StationId>>)
    requires g.Valid() && end < |g.stations|
    ensures paths <= r && |r| <= |paths| + 1
    ensures r != paths <==> (exists k :: 0 <= k < |near| && Direct(g, end, near[k])) && [start, end] !in paths
    ensures r != paths ==> r[|paths|] == [start, end]
  {
    if HasDirect(g, end, near) && [start, end] !in paths then paths + [[start, end]] else paths
  }

  /** The interior of a fresh path names stations of the network. */
  lemma InteriorIds(g: Graph, lineList: seq<LineId>, start: StationId, end: StationId, ignore: seq<StationId>, p: seq<StationId>)
    requires g.Valid() && FreshPath(g, lineList, start, end, ignore, p)
    ensures g.IdsIn(Interior(p))
  {
    assert forall k :: 0 <= k < |Interior(p)| ==> Interior(p)[k] == p[k + 1];
  }

  /** `ignore_middle_stations()` for the selected path `p`: its interior and
      their counterparts frozen. */
  function Freeze(g: Graph, lineList: seq<LineId>, start: StationId, end: StationId, ignore: seq<StationId>, p: seq<StationId>): (r: seq<StationId>)
    requires g.Valid() && LineListOk(g, lineList) && FreshPath(g, lineList, start, end, ignore, p)
    ensures ignore <= r && forall k :: 0 < k < |p| - 1 ==> p[k] in r
  {
    InteriorIds(g, lineList, start, end, ignore, p);
    assert forall k :: 0 < k < |p| - 1 ==> p[k] == Interior(p)[k - 1];
    IgnoreMiddle(g, lineList, start, end, ignore, Interior(p))
  }

  /** The lists after one pass of the `while near_stations` loop body from
      `ignore` and `paths`: the direct path added once if a pair of the
      start touches the end, then the round's selection, if any, frozen and
      appended. (A selection is always a fresh path, as `RoundAndCommit`
      proves; the test only keeps `Freeze` defined.) */
  ghost function NextRound(g: Graph, lineList: seq<LineId>, cross: map<string, seq<string>>, start: StationId, end: StationId,
                           ignore: seq<StationId>, paths: seq<seq<StationId>>): (seq<StationId>, seq<seq<StationId>>)
    requires g.Valid() && LineListOk(g, lineList) && start < |g.stations| && end < |g.stations|
  {
    var near := NearPairs(g, lineList, cross, g.stations[end].line, ignore, start, {});
    NearPairsFresh(g, lineList, cross, g.stations[end].line, ignore, start, {});
    var sel := Selection(g, lineList, cross, ignore, start, end, near);
    var paths' := DirectAdd(g, start, end, paths, near);
    if sel != [] && FreshPath(g, lineList, start, end, ignore, sel)
    then (Freeze(g, lineList, start, end, ignore, sel), paths' + [sel])
    else (ignore, paths')
  }

  /** The lists after `rounds` passes of the loop body. */
  ghost function Replay(g: Graph, lineList: seq<LineId>, cross: map<string, seq<string>>, start: StationId, end: StationId,
                        ignore: seq<StationId>, paths: seq<seq<StationId>>, rounds: nat): (seq<StationId>, seq<seq<StationId>>)
    requires g.Valid() && LineListOk(g, lineList) && start < |g.stations| && end < |g.stations|
  {
    if rounds == 0 then (ignore, paths)
    else
      var prev := Replay(g, lineList, cross, start, end, ignore, paths, rounds - 1);
      NextRound(g, lineList, cross, start, end, prev.0, prev.1)
  }

  /** What `find_possible_paths` leaves behind: the lists after `rounds`
      passes, each only lengthened, at least one pass unless the start had
      no pair to begin with, and the stop condition of the loop on the final
      lists. */
  ghost predicate Explored(g: Graph, lineList: seq<LineId>, cross: map<string, seq<string>>, start: StationId, end: StationId,
                           ignore0: seq<StationId>, paths0: seq<seq<StationId>>,
                           ignore: seq<StationId>, paths: seq<seq<StationId>>, rounds: nat)
    requires g.Valid() && LineListOk(g, lineList) && start < |g.stations| && end < |g.stations|
  {
    && (ignore, paths) == Replay(g, lineList, cross, start, end, ignore0, paths0, rounds)
    && ignore0 <= ignore && paths0 <= paths
    && (rounds == 0 <==> NearPairs(g, lineList, cross, g.stations[end].line, ignore0, start, {}) == [])
    && var near := NearPairs(g, lineList, cross, g.stations[end].line, ignore, start, {});
       near == [] || SelectsNothing(g, lineList, cross, ignore, end, near)
  }

  /** With no pair of the start left, a pass changes nothing. */
  lemma NoPairsIdle(g: Graph, lineList: seq<LineId>, cross: map<string, seq<string>>, start: StationId, end: StationId,
                    ignore: seq<StationId>, paths: seq<seq<StationId>>)
    requires g.Valid() && LineListOk(g, lineList) && start < |g.stations| && end < |g.stations|
    requires NearPairs(g, lineList, cross, g.stations[end].line, ignore, start, {}) == []
    ensures NextRound(g, lineList, cross, start, end, ignore, paths) == (ignore, paths)
  {
    assert Searched(g, end, []) == [];
  }

  /** A pass after one that selected nothing changes nothing:
      `find_possible_paths` stops at a fixpoint of `NextRound`. */
  lemma IdleRound(g: Graph, lineList: seq<LineId>, cross: map<string, seq<string>>, start: StationId, end: StationId,
                  ignore: seq<StationId>, paths: seq<seq<StationId>>, paths': seq<seq<StationId>>)
    requires g.Valid() && LineListOk(g, lineList) && start < |g.stations| && end < |g.stations|
    requires forall p :: p in NearPairs(g, lineList, cross, g.stations[end].line, ignore, start, {}) ==> p.0 < |g.stations|
    requires Selection(g, lineList, cross, ignore, start, end, NearPairs(g, lineList, cross, g.stations[end].line, ignore, start, {})) == []
    requires (ignore, paths') == NextRound(g, lineList, cross, start, end, ignore, paths)
    ensures NextRound(g, lineList, cross, start, end, ignore, paths') == (ignore, paths')
  {
    var near := NearPairs(g, lineList, cross, g.stations[end].line, ignore, start, {});
    DirectAddTwice(g, start, end, paths, near);
  }

  /** Adding the direct path a second time for the same pairs changes
      nothing. */
  lemma DirectAddTwice(g: Graph, start: StationId, end: StationId, paths: seq<seq<StationId>>, near: seq<(StationId, StationId)>)
    requires g.Valid() && end < |g.stations|
    ensures DirectAdd(g, start, end, DirectAdd(g, start, end, paths, near), near) == DirectAdd(g, start, end, paths, near)
  {
    var once := DirectAdd(g, start, end, paths, near);
    if once != paths {
      assert once[|paths|] == [start, end] && [start, end] in once;
    }
  }

  /** Ignoring more stations only removes pairs. */
  lemma FilterPairsMono(xs: seq<StationId>, st: StationId, checked: set<StationId>, ignore: seq<StationId>, ignore': seq<StationId>)
    requires forall x :: x in ignore ==> x in ignore'
    ensures forall p :: p in FilterPairs(xs, st, checked, ignore') ==> p in FilterPairs(xs, st, checked, ignore)
  {
    var r' := FilterPairs(xs, st, checked, ignore');
    forall p | p in r' ensures p in FilterPairs(xs, st, checked, ignore) {
      var k :| 0 <= k < |r'| && r'[k] == p;
    }
  }

  /** Likewise for the neighbours by one index. */
  lemma NextPairsMono(g: Graph, index: int, st: StationId, checked: set<StationId>, ignore: seq<StationId>, ignore': seq<StationId>)
    requires g.Valid() && st < |g.stations|
    requires forall x :: x in ignore ==> x in ignore'
    ensures forall p :: p in NextPairs(g, index, st, checked, ignore') ==> p in NextPairs(g, index, st, checked, ignore)
  {
    FilterPairsMono(IndexNeighbours(g, g.stations[st].line, [index + 1, index - 1]), st, checked, ignore, ignore');
  }

  /** Likewise for the in-line neighbours. */
  lemma InLinePairsMono(g: Graph, st: StationId, checked: set<StationId>, ignore: seq<StationId>, ignore': seq<StationId>)
    requires g.Valid() && st < |g.stations|
    requires forall x :: x in ignore ==> x in ignore'
    ensures forall p :: p in InLinePairs(g, st, checked, ignore') ==> p in InLinePairs(g, st, checked, ignore)
  {
    match InLineStation(g, st)
    case None =>
    case Some(ils) =>
      NextPairsMono(g, g.stations[ils].index, st, checked, ignore, ignore');
      if g.stations[ils].alter.Some? {
        NextPairsMono(g, g.stations[g.stations[ils].alter.value].index, st, checked, ignore, ignore');
      }
  }

  /** A station has no neighbour pair under a longer ignore list that it
      lacks under a shorter one. */
  lemma NearPairsMono(g: Graph, lineList: seq<LineId>, cross: map<string, seq<string>>, endLine: LineId,
                      ignore: seq<StationId>, ignore': seq<StationId>, st: StationId, checked: set<StationId>)
    requires g.Valid() && LineListOk(g, lineList) && st < |g.stations|
    requires forall x :: x in ignore ==> x in ignore'
    ensures forall p :: p in NearPairs(g, lineList, cross, endLine, ignore', st, checked) ==>
              p in NearPairs(g, lineList, cross, endLine, ignore, st, checked)
  {
    var xs := CrossList(g, lineList, g.stations[st].lineList, g.stations[st].name, endLine);
    FilterPairsMono(xs, st, checked, ignore, ignore');
    InLinePairsMono(g, st, checked, ignore, ignore');
  }

  /** A round selects no path exactly when it selects nothing. */
  lemma SelectionEmpty(g: Graph, lineList: seq<LineId>, cross: map<string, seq<string>>, ignore: seq<StationId>,
                       start: StationId, end: StationId, near: seq<(StationId, StationId)>)
    requires g.Valid() && LineListOk(g, lineList) && end < |g.stations|
    requires forall p :: p in near ==> p.0 < |g.stations|
    ensures Selection(g, lineList, cross, ignore, start, end, near) == [] <==> SelectsNothing(g, lineList, cross, ignore, end, near)
  {
    var searched := Searched(g, end, near);
    assert forall k :: 0 <= k < |searched| ==> searched[k] in near;
    var cands := CandidatesFor(g, lineList, cross, ignore, start, end, searched);
    assert Selection(g, lineList, cross, ignore, start, end, near) == SelectAll(cands);
    SelectAllEmpty(cands);
    if searched != [] {
      var x := searched[|searched| - 1].0;
      var recorded := Search(g, lineList, cross, g.stations[end].line, ignore, end, [(x, end)], map[]);
      assert cands[|cands| - 1] == NearbyPath(g, lineList, cross, ignore, start, end, x);
      assert NearbyPath(g, lineList, cross, ignore, start, end, x) == [] <==> !Reached(g, end, recorded);
    }
  }

  /** A pass keeps the paths it had, with the direct path added for the
      pairs it finds. */
  lemma NextRoundPaths(g: Graph, lineList: seq<LineId>, cross: map<string, seq<string>>, start: StationId, end: StationId,
                       ignore: seq<StationId>, paths: seq<seq<StationId>>)
    requires g.Valid() && LineListOk(g, lineList) && start < |g.stations| && end < |g.stations|
    ensures DirectAdd(g, start, end, paths, NearPairs(g, lineList, cross, g.stations[end].line, ignore, start, {}))
            <= NextRound(g, lineList, cross, start, end, ignore, paths).1
  {
    var near := NearPairs(g, lineList, cross, g.stations[end].line, ignore, start, {});
    NearPairsFresh(g, lineList, cross, g.stations[end].line, ignore, start, {});
    var sel := Selection(g, lineList, cross, ignore, start, end, near);
    var paths' := DirectAdd(g, start, end, paths, near);
    assert paths' <= paths' + [sel];
  }

  /** When a pair of the start touches the end in the first pass, the direct
      path is among the paths after every later pass. */
  lemma {:induction false} ReplayKeepsDirect(g: Graph, lineList: seq<LineId>, cross: map<string, seq<string>>, start: StationId, end: StationId,
                                             ignore0: seq<StationId>, paths0: seq<seq<StationId>>, rounds: nat)
    requires g.Valid() && LineListOk(g, lineList) && start < |g.stations| && end < |g.stations|
    requires rounds > 0 && HasDirect(g, end, NearPairs(g, lineList, cross, g.stations[end].line, ignore0, start, {}))
    ensures [start, end] in Replay(g, lineList, cross, start, end, ignore0, paths0, rounds).1
  {
    var prev := Replay(g, lineList, cross, start, end, ignore0, paths0, rounds - 1);
    var near := NearPairs(g, lineList, cross, g.stations[end].line, prev.0, start, {});
    var paths' := DirectAdd(g, start, end, prev.1, near);
    var k: nat;
    if rounds > 1 {
      ReplayKeepsDirect(g, lineList, cross, start, end, ignore0, paths0, rounds - 1);
      k :| k < |prev.1| && prev.1[k] == [start, end];
    } else {
      assert prev == (ignore0, paths0);
      if [start, end] in prev.1 {
        k :| k < |prev.1| && prev.1[k] == [start, end];
      } else {
        assert HasDirect(g, end, near);
        k := |prev.1|;
      }
    }
    assert k < |paths'| && paths'[k] == [start, end];
    NextRoundPaths(g, lineList, cross, start, end, prev.0, prev.1);
    var next := NextRound(g, lineList, cross, start, end, prev.0, prev.1);
    assert next.1[k] == [start, end];
    assert Replay(g, lineList, cross, start, end, ignore0, paths0, rounds) == next;
  }

  /** When a pair of the start still touches the end after the search, the
      direct path is among the paths found. */
  lemma ExploredDirect(g: Graph, lineList: seq<LineId>, cross: map<string, seq<string>>, start: StationId, end: StationId,
                       ignore0: seq<StationId>, paths0: seq<seq<StationId>>,
                       ignore: seq<StationId>, paths: seq<seq<StationId>>, rounds: nat)
    requires g.Valid() && LineListOk(g, lineList) && start < |g.stations| && end < |g.stations|
    requires Explored(g, lineList, cross, start, end, ignore0, paths0, ignore, paths, rounds)
    requires HasDirect(g, end, NearPairs(g, lineList, cross, g.stations[end].line, ignore, start, {}))
    ensures [start, end] in paths
  {
    var endLine := g.stations[end].line;
    var near := NearPairs(g, lineList, cross, endLine, ignore, start, {});
    var near0 := NearPairs(g, lineList, cross, endLine, ignore0, start, {});
    assert forall x :: x in ignore0 ==> x in ignore;
    NearPairsMono(g, lineList, cross, endLine, ignore0, ignore, start, {});
    var k :| 0 <= k < |near| && Direct(g, end, near[k]);
    assert near[k] in near;
    var k0 :| 0 <= k0 < |near0| && near0[k0] == near[k];
    assert HasDirect(g, end, near0);
    ReplayKeepsDirect(g, lineList, cross, start, end, ignore0, paths0, rounds);
  }

  /** The lists `find_possible_paths` leaves are a fixpoint of the loop body:
      one more pass would change neither. */
  lemma ExploredSettled(g: Graph, lineList: seq<LineId>, cross: map<string, seq<string>>, start: StationId, end: StationId,
                        ignore0: seq<StationId>, paths0: seq<seq<StationId>>,
                        ignore: seq<StationId>, paths: seq<seq<StationId>>, rounds: nat)
    requires g.Valid() && LineListOk(g, lineList) && start < |g.stations| && end < |g.stations|
    requires Explored(g, lineList, cross, start, end, ignore0, paths0, ignore, paths, rounds)
    ensures NextRound(g, lineList, cross, start, end, ignore, paths) == (ignore, paths)
  {
    var endLine := g.stations[end].line;
    var near := NearPairs(g, lineList, cross, endLine, ignore, start, {});
    if near == [] {
      NoPairsIdle(g, lineList, cross, start, end, ignore, paths);
    } else {
      NearPairsFresh(g, lineList, cross, endLine, ignore, start, {});
      SelectionEmpty(g, lineList, cross, ignore, start, end, near);
      if HasDirect(g, end, near) {
        ExploredDirect(g, lineList, cross, start, end, ignore0, paths0, ignore, paths, rounds);
      }
      assert DirectAdd(g, start, end, paths, near) == paths;
    }
  }

  /**
   * The map: the network it was built from, the start and end stations, the
   * train count, the stations that searches must avoid and the paths found
   * so far.
   */
  class Map {
    const graph: Graph
    const lineList: seq<LineId>
    const cross: map<string, seq<string>>
    const start: StationId
    const end: StationId
    const trainNumber: int
    var ignore: seq<StationId>
    var possiblePaths: seq<seq<StationId>>

    /** What construction establishes about the fixed part of the map. */
    predicate Structure() {
      && Wellformed(graph, lineList, cross)
      && OnMap(graph, lineList, start) && OnMap(graph, lineList, end)
      && start != end && graph.stations[end].alter != Some(start)
      && trainNumber >= 1
    }

    predicate OnMapStation(s: StationId)
      requires graph.Valid()
    {
      OnMap(graph, lineList, s)
    }

    predicate Valid()
      reads this
    {
      && Structure()
      && start in ignore
      && PathsOk(graph, lineList, start, end, ignore, possiblePaths)
    }

    /** `Map.__init__`: validated construction; the ignore list holds the start
        station and, if it has one, the start's alias. */
    constructor (g: Graph, lines: seq<LineId>, crossing: map<string, seq<string>>, special: map<string, string>)
      requires Wellformed(g, lines, crossing) && SetInitData(g, lines, special).Success?
      ensures Valid()
      ensures graph == g && lineList == lines && cross == crossing
      ensures SetInitData(g, lines, special) == Success(Config(trainNumber, start, end))
      ensures ignore == [start] + (match g.stations[start].alter case Some(a) => [a] case None => [])
      ensures possiblePaths == []
    {
      var cfg := SetInitData(g, lines, special).value;
      SetInitDataOnMap(g, lines, special);
      graph, lineList, cross := g, lines, crossing;
      start, end, trainNumber := cfg.start, cfg.end, cfg.trainNumber;
      new;
      ignore := [start];
      match g.stations[cfg.start].alter {
        case Some(a) => ignore := ignore + [a];
        case None =>
      }
      possiblePaths := [];
    }

    // ---- the neighbour rule ----

    /** `get_near_station_pairs(st, checked)`. */
    method GetNearStationPairs(st: StationId, checked: set<StationId>) returns (near: seq<(StationId, StationId)>)
      requires Structure() && st < |graph.stations|
      ensures near == NearPairs(graph, lineList, cross, graph.stations[end].line, ignore, st, checked)
    {
      near := [];
      if graph.stations[st].name in cross {
        var nextStations := FindCrossStations(st);
        if nextStations != [] {
          near := AddCrossPairs(nextStations, st, checked);
        }
      }
      near := FindInLineStations(near, st, checked);
    }

    /** `find_cross_stations`. */
    method FindCrossStations(st: StationId) returns (nextStations: seq<StationId>)
      requires graph.Valid() && LineListOk(graph, lineList) && st < |graph.stations| && end < |graph.stations|
      ensures nextStations == CrossList(graph, lineList, graph.stations[st].lineList, graph.stations[st].name, graph.stations[end].line)
    {
      var names := graph.stations[st].lineList;
      var name := graph.stations[st].name;
      var endLine := graph.stations[end].line;
      nextStations := [];
      var i := 0;
      while i < |names|
        invariant 0 <= i <= |names|
        invariant nextStations == CrossList(graph, lineList, names[..i], name, endLine)
      {
        assert names[..i + 1][..i] == names[..i];
        nextStations := CrossStep(graph, lineList, nextStations, names[i], name, endLine);
        i := i + 1;
      }
      assert names[..|names|] == names;
    }

    /** `add_cross_pairs`. */
    method AddCrossPairs(nextStations: seq<StationId>, st: StationId, checked: set<StationId>)
      returns (near: seq<(StationId, StationId)>)
      ensures near == FilterPairs(nextStations, st, checked, ignore)
    {
      near := [];
      var j := 0;
      while j < |nextStations|
        invariant 0 <= j <= |nextStations|
        invariant near == FilterPairs(nextStations[..j], st, checked, ignore)
      {
        assert nextStations[..j + 1][..j] == nextStations[..j];
        if !(nextStations[j] in checked || nextStations[j] in ignore) {
          near := near + [(nextStations[j], st)];
        }
        j := j + 1;
      }
      assert nextStations[..|nextStations|] == nextStations;
    }

    /** `find_in_line_stations`. */
    method FindInLineStations(near: seq<(StationId, StationId)>, st: StationId, checked: set<StationId>)
      returns (r: seq<(StationId, StationId)>)
      requires graph.Valid() && st < |graph.stations|
      ensures r == near + InLinePairs(graph, st, checked, ignore)
    {
      var found := InLineStation(graph, st);
      if found.Some? {
        r := PairsAround(near, found.value, st, checked);
      } else {
        r := near;
        assert r == near + [];
      }
    }

    /** The two `get_next_station_pair` calls of `find_in_line_stations`. */
    method PairsAround(near: seq<(StationId, StationId)>, ils: StationId, st: StationId, checked: set<StationId>)
      returns (r: seq<(StationId, StationId)>)
      requires graph.Valid() && st < |graph.stations| && ils < |graph.stations|
      ensures r == near + InLineFrom(graph, ils, st, checked, ignore)
    {
      r := GetNextStationPair(near, graph.stations[ils].index, st, checked);
      if graph.stations[ils].alter.Some? {
        var a := graph.stations[ils].alter.value;
        ghost var mid := r;
        r := GetNextStationPair(r, graph.stations[a].index, st, checked);
        InLineFromAlias(graph, ils, st, checked, ignore, near, mid, r);
      } else {
        InLineFromAlone(graph, ils, st, checked, ignore, near, r);
      }
    }

    /** `get_next_station_pair`: appends the pairs for index+1 then index-1. */
    method GetNextStationPair(near: seq<(StationId, StationId)>, index: int, st: StationId, checked: set<StationId>)
      returns (r: seq<(StationId, StationId)>)
      requires graph.Valid() && st < |graph.stations|
      ensures r == near + NextPairs(graph, index, st, checked, ignore)
    {
      r := near;
      var l := graph.stations[st].line;
      var idxs := [index + 1, index - 1];
      var i := 0;
      while i < 2
        invariant 0 <= i <= 2
        invariant r == near + FilterPairs(IndexNeighbours(graph, l, idxs[..i]), st, checked, ignore)
      {
        NeighbourStep(graph, l, idxs[..i + 1], st, checked, ignore);
        assert idxs[..i + 1][..i] == idxs[..i];
        ghost var before := FilterPairs(IndexNeighbours(graph, l, idxs[..i]), st, checked, ignore);
        ghost var one := OneNeighbour(graph, l, idxs[i], st, checked, ignore);
        var found := graph.FindStation(l, ByIndex(idxs[i]));
        if found.Some? && !(found.value in checked || found.value in ignore) {
          r := r + [(found.value, st)];
        } else {
          assert r == r + one;
        }
        AppendAssoc(near, before, one);
        i := i + 1;
      }
      assert idxs[..2] == idxs;
    }

    // ---- breadth-first search ----

    /** Every recorded station lies on the map and is not ignored. */
    predicate Admissible(checked: map<StationId, StationId>)
      reads this
      requires Structure()
    {
      forall k :: k in checked ==> OnMapStation(k) && k !in ignore
    }

    /** The stations a search may record: on the map and not ignored. */
    ghost function Admitted(): set<StationId>
      reads this
      requires Structure()
    {
      set x | 0 <= x < |graph.stations| && OnMapStation(x) && x !in ignore
    }

    /** `create_queue_stations_dict`: the FIFO search seeded with
        `(s, e)`; every dequeue overwrites the station's predecessor and the
        search stops right after dequeuing `e` or `e`'s alias. */
    method CreateQueueStationsDict(s: StationId, e: StationId)
      returns (checked: map<StationId, StationId>, ghost first: map<StationId, nat>, ghost time: nat)
      requires Structure() && OnMapStation(s) && s !in ignore && e < |graph.stations|
      ensures checked == Search(graph, lineList, cross, graph.stations[end].line, ignore, e, [(s, e)], map[])
      ensures s in checked && Ordered(s, |graph.stations|, checked, first, time) && Admissible(checked)
      ensures (s == e || graph.stations[e].alter == Some(s)) ==> checked == map[s := e]
    {
      ghost var good := Admitted();
      SearchUnfold(graph, lineList, cross, graph.stations[end].line, ignore, e, [(s, e)], map[]);
      checked, first, time := RunQueue(s, e, good);
      AdmittedAdmissible(good, checked);
    }

    /** The `while queue` loop, from the queue `[(s, e)]` and nothing recorded. */
    method RunQueue(s: StationId, e: StationId, ghost good: set<StationId>)
      returns (checked: map<StationId, StationId>, ghost first: map<StationId, nat>, ghost time: nat)
      requires Structure() && good == Admitted() && s in good && e < |graph.stations|
      ensures checked == Search(graph, lineList, cross, graph.stations[end].line, ignore, e, [(s, e)], map[])
      ensures s in checked && Ordered(s, |graph.stations|, checked, first, time)
      ensures forall k :: k in checked ==> k in good
    {
      ghost var endLine := graph.stations[end].line;
      ghost var total := Search(graph, lineList, cross, endLine, ignore, e, [(s, e)], map[]);
      checked, first, time := map[], map[], 0;
      var queue := [(s, e)];
      while queue != []
        invariant QueueInv(s, e, |graph.stations|, good, checked, first, time, queue)
        invariant forall q :: q in queue ==> q.0 < |graph.stations|
        invariant Search(graph, lineList, cross, endLine, ignore, e, queue, checked) == total
        decreases Unrecorded(|graph.stations|, checked.Keys), Stale(queue, checked.Keys)
      {
        var stop;
        stop, queue, checked, first, time := SearchStep(queue, s, e, checked, good, first, time);
        if stop {
          break;
        }
      }
    }

    lemma AdmittedAdmissible(good: set<StationId>, checked: map<StationId, StationId>)
      requires Structure() && good == Admitted() && forall k :: k in checked ==> k in good
      ensures Admissible(checked)
    {
    }

    /** One turn of the `while queue` loop: dequeue and record a station, stop
        if it is `e` or `e`'s alias, otherwise enqueue its neighbour pairs. */
    method SearchStep(queue: seq<(StationId, StationId)>, ghost s: StationId, e: StationId,
                      checked: map<StationId, StationId>, ghost good: set<StationId>, ghost first: map<StationId, nat>, ghost time: nat)
      returns (stop: bool, queue': seq<(StationId, StationId)>, checked': map<StationId, StationId>,
               ghost first': map<StationId, nat>, ghost time': nat)
      requires Structure() && good == Admitted() && e < |graph.stations|
      requires QueueInv(s, e, |graph.stations|, good, checked, first, time, queue) && queue != []
      ensures checked' == checked[queue[0].0 := queue[0].1]
      ensures stop <==> (queue[0].0 == e || graph.stations[e].alter == Some(queue[0].0))
      ensures !stop ==> queue' == queue[1..] + NearPairs(graph, lineList, cross, graph.stations[end].line, ignore, queue[0].0, checked'.Keys)
      ensures QueueInv(s, e, |graph.stations|, good, checked', first', time', queue')
      ensures forall q :: q in queue' ==> q.0 < |graph.stations|
      ensures Search(graph, lineList, cross, graph.stations[end].line, ignore, e, queue, checked)
           == if stop then checked' else Search(graph, lineList, cross, graph.stations[end].line, ignore, e, queue', checked')
      ensures checked == map[] ==> queue[0].0 == s && queue[0].1 == e
      ensures Unrecorded(|graph.stations|, checked'.Keys) < Unrecorded(|graph.stations|, checked.Keys)
              || (checked'.Keys == checked.Keys && Stale(queue', checked'.Keys) < Stale(queue, checked.Keys))
    {
      var station;
      SearchUnfold(graph, lineList, cross, graph.stations[end].line, ignore, e, queue, checked);
      station, queue', checked', first', time' := Dequeue(queue, s, e, checked, good, first, time);
      stop := station == e || graph.stations[e].alter == Some(station);
      if !stop {
        queue' := Enqueue(queue', station, s, e, checked', good, first', time');
      }
    }

    /** `station, pre_station = queue.pop(0)` and `checked_stations[station] = pre_station`. */
    method Dequeue(queue: seq<(StationId, StationId)>, ghost s: StationId, ghost e: StationId,
                   checked: map<StationId, StationId>, ghost good: set<StationId>, ghost first: map<StationId, nat>, ghost time: nat)
      returns (station: StationId, queue': seq<(StationId, StationId)>, checked': map<StationId, StationId>,
               ghost first': map<StationId, nat>, ghost time': nat)
      requires QueueInv(s, e, |graph.stations|, good, checked, first, time, queue) && queue != []
      ensures station == queue[0].0 && queue' == queue[1..] && checked' == checked[station := queue[0].1]
      ensures QueueInv(s, e, |graph.stations|, good, checked', first', time', queue') && station in checked'
      ensures checked == map[] ==> station == s && queue[0].1 == e
      ensures Unrecorded(|graph.stations|, checked'.Keys) < Unrecorded(|graph.stations|, checked.Keys)
              || (checked'.Keys == checked.Keys && Stale(queue', checked'.Keys) < Stale(queue, checked.Keys))
    {
      station := queue[0].0;
      queue' := queue[1..];
      checked' := checked[station := queue[0].1];
      if station in first {
        first', time' := first, time;
      } else {
        first', time' := first[station := time], time + 1;
      }
      DequeueStep(s, e, |graph.stations|, good, checked, first, time, queue);
    }

    /** `queue += self.get_near_station_pairs(station, checked_stations)`. */
    method Enqueue(queue: seq<(StationId, StationId)>, station: StationId, ghost s: StationId, ghost e: StationId,
                   checked: map<StationId, StationId>, ghost good: set<StationId>, ghost first: map<StationId, nat>, ghost time: nat)
      returns (queue': seq<(StationId, StationId)>)
      requires Structure() && good == Admitted() && station in checked
      requires QueueInv(s, e, |graph.stations|, good, checked, first, time, queue)
      ensures queue' == queue + NearPairs(graph, lineList, cross, graph.stations[end].line, ignore, station, checked.Keys)
      ensures QueueInv(s, e, |graph.stations|, good, checked, first, time, queue')
      ensures Stale(queue', checked.Keys) == Stale(queue, checked.Keys)
    {
      assert OnMapStation(station);
      var near := GetNearStationPairs(station, checked.Keys);
      NearPairsSound(graph, lineList, cross, graph.stations[end].line, ignore, station, checked.Keys);
      ExtendStep(s, e, |graph.stations|, good, checked, first, time, queue, near);
      queue' := queue + near;
    }

    /** `breadth_first_search(s, e)`: empty when neither `e` nor its alias
        was reached; otherwise a walk from `s` to `e` without repeats whose
        stations before `e` were all recorded by the search. */
    method BreadthFirstSearch(s: StationId, e: StationId) returns (path: seq<StationId>)
      requires Structure() && OnMapStation(s) && s !in ignore && e < |graph.stations|
      ensures path == BfsPath(graph, s, e, Search(graph, lineList, cross, graph.stations[end].line, ignore, e, [(s, e)], map[]))
      ensures path != [] <==> Reaches(graph, lineList, cross, graph.stations[end].line, ignore, e, s)
      ensures path == [] || path[0] == s
      ensures (s == e || graph.stations[e].alter == Some(s)) ==> path == [s]
      ensures path != [] && s != e && graph.stations[e].alter != Some(s) ==>
                |path| >= 2 && path[|path| - 1] == e && NoDuplicates(path)
                && forall k :: 0 <= k < |path| - 1 ==> path[k] !in ignore && OnMap(graph, lineList, path[k])
    {
      var checked;
      ghost var first, time;
      checked, first, time := CreateQueueStationsDict(s, e);
      path := GetBfsPath(graph, s, e, checked, first, time);
      BfsPathShape(graph, lineList, ignore, s, e, checked, first, time);
    }

    // ---- the greedy construction (`find_possible_paths`) ----

    /** `add_next_to_path`: the direct path joins the list once. */
    method AddNextToPath()
      requires Valid()
      modifies this
      ensures Valid() && ignore == old(ignore)
      ensures possiblePaths == if [start, end] in old(possiblePaths) then old(possiblePaths)
                               else old(possiblePaths) + [[start, end]]
    {
      var path := [start, end];
      if path !in possiblePaths {
        AddDirectKeepsPathsOk(graph, lineList, start, end, ignore, possiblePaths);
        possiblePaths := possiblePaths + [path];
      }
    }

    /** `nearby_bfs`: the search from a neighbour `s` of the start, with the
        start put in front; empty when the end is out of reach. */
    method NearbyBfs(s: StationId) returns (path: seq<StationId>)
      requires Valid() && OnMapStation(s) && s !in ignore
      requires s != end && graph.stations[end].alter != Some(s)
      ensures Candidate(graph, lineList, cross, ignore, start, end, s, path)
    {
      path := BreadthFirstSearch(s, end);
      NearbyCandidate(graph, lineList, cross, ignore, start, end, s, path);
      if path != [] {
        path := [start] + path;
      }
    }

    /** `ignore_cross(station)`. */
    method IgnoreCrossStation(station: StationId)
      requires graph.Valid() && LineListOk(graph, lineList) && station < |graph.stations|
      modifies this
      ensures possiblePaths == old(possiblePaths)
      ensures ignore == if station == end || station == start then old(ignore)
                        else IgnoreCross(graph, lineList, old(ignore), graph.stations[station].lineList, graph.stations[station].name)
    {
      if station == end || station == start {
        return;
      }
      var names := graph.stations[station].lineList;
      var name := graph.stations[station].name;
      var ignored := ignore;
      var i := 0;
      while i < |names|
        invariant 0 <= i <= |names|
        invariant ignored == IgnoreCross(graph, lineList, ignore, names[..i], name)
        modifies {}
      {
        var found := Counterpart(graph, lineList, names[i], name);
        IgnoreCrossSnoc(graph, lineList, ignore, names, name, i);
        if found.Some? && found.value !in ignored {
          ignored := ignored + [found.value];
        }
        i := i + 1;
      }
      assert names[..|names|] == names;
      ignore := ignored;
    }

    /** `ignore_middle_stations`: freezes the interior of `minPath`. */
    method IgnoreMiddleStations(minPath: seq<StationId>)
      requires graph.Valid() && LineListOk(graph, lineList) && graph.IdsIn(Interior(minPath))
      modifies this
      ensures possiblePaths == old(possiblePaths)
      ensures ignore == IgnoreMiddle(graph, lineList, start, end, old(ignore), Interior(minPath))
    {
      var middle := Interior(minPath);
      var i := 0;
      while i < |middle|
        invariant 0 <= i <= |middle|
        invariant possiblePaths == old(possiblePaths)
        invariant ignore == IgnoreMiddle(graph, lineList, start, end, old(ignore), middle[..i])
      {
        assert middle[..i + 1][..i] == middle[..i];
        var station := middle[i];
        if station !in ignore {
          ignore := ignore + [station];
          IgnoreCrossStation(station);
        }
        i := i + 1;
      }
      assert middle[..|middle|] == middle;
    }

    /** One round of `find_possible_paths`: a direct neighbour of the end
        adds the direct path, every other neighbour is searched from, and the
        selection keeps the first strictly shorter result, an empty one
        clearing it. */
    method SearchRound(near: seq<(StationId, StationId)>) returns (minPath: seq<StationId>, ghost cands: seq<seq<StationId>>)
      requires Valid()
      requires forall p :: p in near ==> p.1 == start && p.0 !in ignore && p.0 < |graph.stations| && OnMapStation(p.0)
      modifies this
      ensures Valid() && ignore == old(ignore)
      ensures possiblePaths == DirectAdd(graph, start, end, old(possiblePaths), near)
      ensures minPath == SelectAll(cands) == Selection(graph, lineList, cross, ignore, start, end, near)
      ensures CandidatesOf(graph, lineList, cross, ignore, start, end, Searched(graph, end, near), cands)
      ensures cands == CandidatesFor(graph, lineList, cross, ignore, start, end, Searched(graph, end, near))
      ensures forall c :: c in cands ==> c == [] || FreshPath(graph, lineList, start, end, ignore, c)
      ensures minPath == [] <==> SelectsNothing(graph, lineList, cross, ignore, end, near)
    {
      minPath, cands := [], [];
      ghost var searched := [];
      var i := 0;
      while i < |near|
        invariant Valid() && ignore == old(ignore)
        invariant RoundInv(graph, lineList, cross, ignore, start, end, near, i, old(possiblePaths), possiblePaths, minPath, cands, searched)
      {
        minPath, cands, searched := ConsiderPair(near, i, minPath, cands, searched, old(possiblePaths));
        i := i + 1;
      }
      RoundDone(graph, lineList, cross, ignore, start, end, near, old(possiblePaths), possiblePaths, minPath, cands, searched);
    }

    /** One pair of a round: a direct pair adds the direct path, any other
        is searched from and its result offered to the selection. */
    method ConsiderPair(near: seq<(StationId, StationId)>, i: nat, minPath: seq<StationId>, ghost cands: seq<seq<StationId>>,
                        ghost searched: seq<(StationId, StationId)>, ghost paths0: seq<seq<StationId>>)
      returns (minPath': seq<StationId>, ghost cands': seq<seq<StationId>>, ghost searched': seq<(StationId, StationId)>)
      requires Valid() && i < |near|
      requires near[i].1 == start && near[i].0 !in ignore && OnMapStation(near[i].0)
      requires RoundInv(graph, lineList, cross, ignore, start, end, near, i, paths0, possiblePaths, minPath, cands, searched)
      modifies this
      ensures Valid() && ignore == old(ignore)
      ensures RoundInv(graph, lineList, cross, ignore, start, end, near, i + 1, paths0, possiblePaths, minPath', cands', searched')
    {
      var pair := near[i];
      minPath', cands', searched' := minPath, cands, searched;
      if Direct(graph, end, pair) {
        ghost var paths := possiblePaths;
        AddNextToPath();
        RoundDirect(graph, lineList, cross, ignore, start, end, near, i, paths0, paths, possiblePaths, minPath, cands, searched);
      } else {
        var path := NearbyBfs(pair.0);
        RoundSearched(graph, lineList, cross, ignore, start, end, near, i, paths0, possiblePaths, minPath, cands, searched, path);
        cands', searched' := cands + [path], searched + [pair];
        if minPath == [] || |path| < |minPath| {
          minPath' := path;
        }
      }
    }

    /** `find_possible_paths`: repeats search rounds from the start's
        neighbours, committing each round's selection and freezing its
        interior, until a round selects nothing or the start has no
        neighbour left. At least one round runs unless the start has no
        neighbour pair at all. */
    method FindPossiblePaths() returns (paths: seq<seq<StationId>>, ghost rounds: nat)
      requires Valid()
      modifies this
      ensures Valid() && paths == possiblePaths
      ensures old(ignore) <= ignore && old(possiblePaths) <= possiblePaths
      ensures Explored(graph, lineList, cross, start, end, old(ignore), old(possiblePaths), ignore, possiblePaths, rounds)
    {
      var near := GetNearStationPairs(start, {});
      if near == [] {
        rounds := 0;
      } else {
        rounds := RunRounds(near);
      }
      paths := possiblePaths;
    }

    /** The `while near_stations` loop, entered with the start's first
        neighbour pairs. */
    method RunRounds(near: seq<(StationId, StationId)>) returns (ghost rounds: nat)
      requires Valid() && near != []
      requires near == NearPairs(graph, lineList, cross, graph.stations[end].line, ignore, start, {})
      modifies this
      ensures Valid()
      ensures rounds > 0
      ensures old(ignore) <= ignore && old(possiblePaths) <= possiblePaths
      ensures (ignore, possiblePaths) == Replay(graph, lineList, cross, start, end, old(ignore), old(possiblePaths), rounds)
      ensures var near := NearPairs(graph, lineList, cross, graph.stations[end].line, ignore, start, {});
              near == [] || SelectsNothing(graph, lineList, cross, ignore, end, near)
    {
      var near := near;
      rounds := 0;
      while near != []
        invariant Valid() && old(ignore) <= ignore && old(possiblePaths) <= possiblePaths
        invariant near == NearPairs(graph, lineList, cross, graph.stations[end].line, ignore, start, {})
        invariant (ignore, possiblePaths) == Replay(graph, lineList, cross, start, end, old(ignore), old(possiblePaths), rounds)
        invariant near == [] ==> rounds > 0
        decreases Unignored(|graph.stations|, ignore)
      {
        NearPairsFresh(graph, lineList, cross, graph.stations[end].line, ignore, start, {});
        var found := RoundAndCommit(near);
        rounds := rounds + 1;
        if !found {
          break;
        }
        near := GetNearStationPairs(start, {});
      }
    }

    /** The body of the `while near_stations` loop: a search round, then the
        commit of its selection when there is one. */
    method RoundAndCommit(near: seq<(StationId, StationId)>) returns (found: bool)
      requires Valid() && near == NearPairs(graph, lineList, cross, graph.stations[end].line, ignore, start, {})
      requires forall p :: p in near ==> p.0 < |graph.stations|
      modifies this
      ensures Valid() && old(ignore) <= ignore && old(possiblePaths) <= possiblePaths
      ensures found <==> Selection(graph, lineList, cross, old(ignore), start, end, near) != []
      ensures !found <==> SelectsNothing(graph, lineList, cross, old(ignore), end, near)
      ensures found ==> FreshPath(graph, lineList, start, end, old(ignore), Selection(graph, lineList, cross, old(ignore), start, end, near))
      ensures (ignore, possiblePaths) == NextRound(graph, lineList, cross, start, end, old(ignore), old(possiblePaths))
      ensures found ==> Unignored(|graph.stations|, ignore) < Unignored(|graph.stations|, old(ignore))
    {
      NearPairsSound(graph, lineList, cross, graph.stations[end].line, ignore, start, {});
      var minPath;
      ghost var cands;
      minPath, cands := SearchRound(near);
      found := minPath != [];
      if found {
        CommitPath(minPath);
      }
    }

    /** The commit of a round: `ignore_middle_stations()` then
        `self.possible_paths.append(min_path)`. */
    method CommitPath(minPath: seq<StationId>)
      requires Valid() && FreshPath(graph, lineList, start, end, ignore, minPath)
      modifies this
      ensures Valid() && possiblePaths == old(possiblePaths) + [minPath]
      ensures ignore == IgnoreMiddle(graph, lineList, start, end, old(ignore), Interior(minPath))
      ensures Unignored(|graph.stations|, ignore) < Unignored(|graph.stations|, old(ignore))
    {
      assert forall k :: 0 <= k < |Interior(minPath)| ==> Interior(minPath)[k] == minPath[k + 1];
      IgnoreMiddleStations(minPath);
      CommitKeepsPathsOk(graph, lineList, start, end, old(ignore), ignore, possiblePaths, minPath);
      PrefixIn(old(ignore), ignore, start);
      possiblePaths := possiblePaths + [minPath];
    }

    /** `get_shortest_path`: a one-element list holding the first path of
        minimum length, or the empty path when none was found. */
    method GetShortestPath() returns (r: seq<seq<StationId>>, ghost rounds: nat)
      requires Valid()
      modifies this
      ensures Valid() && |r| == 1
      ensures Explored(graph, lineList, cross, start, end, old(ignore), old(possiblePaths), ignore, possiblePaths, rounds)
      ensures possiblePaths == [] ==> r[0] == []
      ensures possiblePaths != [] ==>
                exists k :: 0 <= k < |possiblePaths| && r[0] == possiblePaths[k]
                  && (forall j :: 0 <= j < |possiblePaths| ==> |r[0]| <= |possiblePaths[j]|)
                  && (forall j :: 0 <= j < k ==> |possiblePaths[j]| > |r[0]|)
    {
      var paths;
      paths, rounds := FindPossiblePaths();
      var minPath := SelectShortest(paths);
      FirstShortest(graph, lineList, start, end, ignore, paths);
      r := [minPath];
    }
  }

  /** The selection loop of `get_shortest_path`. */
  method SelectShortest(paths: seq<seq<StationId>>) returns (minPath: seq<StationId>)
    ensures minPath == SelectAll(paths)
  {
    minPath := [];
    var i := 0;
    while i < |paths|
      invariant 0 <= i <= |paths|
      invariant minPath == SelectAll(paths[..i])
    {
      assert paths[..i + 1][..i] == paths[..i];
      if minPath == [] || |paths[i]| < |minPath| {
        minPath := paths[i];
      }
      i := i + 1;
    }
    assert paths[..|paths|] == paths;
  }

  /** The selection over the paths found is empty when there are none and
      otherwise the first of minimum length. */
  lemma FirstShortest(g: Graph, lineList: seq<LineId>, start: StationId, end: StationId,
                      ignore: seq<StationId>, paths: seq<seq<StationId>>)
    requires g.Valid() && PathsOk(g, lineList, start, end, ignore, paths)
    ensures paths == [] ==> SelectAll(paths) == []
    ensures paths != [] ==>
              exists k :: 0 <= k < |paths| && SelectAll(paths) == paths[k]
                && (forall j :: 0 <= j < |paths| ==> |paths[k]| <= |paths[j]|)
                && (forall j :: 0 <= j < k ==> |paths[j]| > |paths[k]|)
  {
    if paths != [] {
      PathsNonEmpty(g, lineList, start, end, ignore, paths);
      var k := SelectAllFirstMin(paths);
    }
  }

  /** No path found is empty. */
  lemma PathsNonEmpty(g: Graph, lineList: seq<LineId>, start: StationId, end: StationId,
                      ignore: seq<StationId>, paths: seq<seq<StationId>>)
    requires g.Valid() && PathsOk(g, lineList, start, end, ignore, paths)
    ensures forall i :: 0 <= i < |paths| ==> paths[i] != []
  {
  }
}

=== FILE: read_input.dfy ===
/**
 * The reader of the network description (read_input.py): it classifies each
 * text line and builds the line objects, the crossing dictionary and the
 * special data (train count, start, end).
 */
module ReadInput {
  import opened Wrappers
  import opened Text
  import opened BaseMetro

  /** Why a run stops early: `print_error_and_exit('data')`,
      `print_error_and_exit('end')`, or an exception escaping to the
      driver's catch-all handler. */
  datatype ExitError = InvalidFile | ReachedEnd | Crash

  /** The kind of an input line; the tests are made in this order. */
  datatype Kind = Header | Special | Connection | Plain

  function KindOf(s: string): (k: Kind)
    ensures k == Header <==> StartsWith(s, "#")
    ensures k == Special <==> !StartsWith(s, "#") && '=' in s
    ensures k == Connection <==> !StartsWith(s, "#") && '=' !in s && Contains(s, ":Conn:")
  {
    if StartsWith(s, "#") then Header
    else if '=' in s then Special
    else if Contains(s, ":Conn:") then Connection
    else Plain
  }

  /**
   * What the reader holds between two input lines: the arenas, the
   * crossing dictionary, the special data, the station list being filled,
   * the finalised lines, the current line, and whether the station list is
   * the very list object of the current line (true after the first `=`
   * line finalised it, so that later appends reach that line too).
   */
  datatype Parse = Parse(g: Graph, cross: map<string, seq<string>>, special: map<string, string>,
                         stationList: seq<StationId>, lineList: seq<LineId>, current: LineId, shared: bool)

  predicate ParseOk(p: Parse) {
    && p.g.Valid() && p.g.IdsIn(p.stationList) && p.current < |p.g.lines|
    && (forall i :: 0 <= i < |p.lineList| ==> p.lineList[i] < |p.g.lines|)
    && (p.shared ==> p.g.lines[p.current].stations == p.stationList)
  }

  /** Before the first line: only the unnamed placeholder line exists. */
  function Initial(): (p: Parse)
    ensures ParseOk(p)
  {
    Parse(Graph([], [Line(None, [])]), map[], map[], [], [], 0, false)
  }

  /** `add_alter` on the arena: each of the two stations names the other. */
  function Alias(stations: seq<Station>, a: StationId, b: StationId): (r: seq<Station>)
    requires a < |stations| && b < |stations|
    ensures |r| == |stations|
    ensures r[a].alter == Some(b) && r[b].alter == Some(a)
    ensures forall k :: 0 <= k < |r| && k != a && k != b ==> r[k] == stations[k]
    ensures forall k :: 0 <= k < |r| ==> r[k].(alter := None) == stations[k].(alter := None)
  {
    stations[a := stations[a].(alter := Some(b))][b := stations[b].(alter := Some(a))]
  }

  /** `update_line`: the current line takes the station list and joins the
      finalised lines; when its first and last stations share a name (a
      circular line) they become each other's alias. */
  function Finalise(p: Parse): (r: Parse)
    requires ParseOk(p) && p.stationList != []
    ensures ParseOk(r)
  {
    var first, last := p.stationList[0], p.stationList[|p.stationList| - 1];
    var lines := p.g.lines[p.current := p.g.lines[p.current].(stations := p.stationList)];
    var stations := if p.g.stations[first].name == p.g.stations[last].name
                    then Alias(p.g.stations, first, last) else p.g.stations;
    SetStationsValid(p.g, p.current, p.stationList);
    if p.g.stations[first].name == p.g.stations[last].name then
      AliasValid(Graph(p.g.stations, lines), first, last);
      p.(g := Graph(stations, lines), lineList := p.lineList + [p.current])
    else
      p.(g := Graph(stations, lines), lineList := p.lineList + [p.current])
  }

  /** Giving a line a list of existing stations keeps the graph valid. */
  lemma SetStationsValid(g: Graph, l: LineId, ids: seq<StationId>)
    requires g.Valid() && l < |g.lines| && g.IdsIn(ids)
    ensures Graph(g.stations, g.lines[l := g.lines[l].(stations := ids)]).Valid()
  {
  }

  /** Making two stations each other's alias keeps the graph valid. */
  lemma AliasValid(g: Graph, a: StationId, b: StationId)
    requires g.Valid() && a < |g.stations| && b < |g.stations|
    ensures Graph(Alias(g.stations, a, b), g.lines).Valid()
  {
    var r := Alias(g.stations, a, b);
    forall k | 0 <= k < |r| ensures r[k].line == g.stations[k].line {
      assert r[k].(alter := None) == g.stations[k].(alter := None);
    }
  }

  /** `Finalise` piece by piece. */
  lemma FinaliseParts(p: Parse)
    requires ParseOk(p) && p.stationList != []
    ensures var first, last := p.stationList[0], p.stationList[|p.stationList| - 1];
            Finalise(p) == p.(g := Graph(if p.g.stations[first].name == p.g.stations[last].name
                                         then p.g.stations[first := p.g.stations[first].(alter := Some(last))][last := p.g.stations[last].(alter := Some(first))]
                                         else p.g.stations,
                                         p.g.lines[p.current := p.g.lines[p.current].(stations := p.stationList)]),
                              lineList := p.lineList + [p.current])
  {
  }

  /** A `#` line: finalise the current line if it has stations, then open a
      new line named by the rest of the text with an empty station list. */
  function HeaderStep(p: Parse, s: string): (r: Parse)
    requires ParseOk(p) && StartsWith(s, "#")
    ensures ParseOk(r)
  {
    var q := if p.stationList != [] then Finalise(p) else p;
    q.(g := q.g.(lines := q.g.lines + [Line(Some(s[1..]), [])]),
       current := |q.g.lines|, stationList := [], shared := false)
  }

  /** An `=` line: the first one finalises the current line (and the station
      list stays that line's list); each one records `key=value`. */
  function SpecialStep(p: Parse, s: string): (r: Result<Parse, ExitError>)
    requires ParseOk(p)
    ensures r.Success? ==> ParseOk(r.value)
  {
    if p.special == map[] && p.stationList == [] then Failure(Crash)
    else
      var q := if p.special == map[] then Finalise(p).(shared := true) else p;
      match SplitTwo(s, "=")
      case None => Failure(Crash)
      case Some(kv) => Success(q.(special := q.special[kv.0 := kv.1]))
  }

  /** `create_station`: `index:name` on the current line; a text without
      exactly one colon, an index that is not an integer, or the unnamed
      placeholder line raise. */
  function CreatedStation(p: Parse, s: string): (r: Result<(Graph, StationId), ExitError>)
    requires ParseOk(p)
    ensures r.Success? ==> r.value.0.Valid() && r.value.1 == |p.g.stations|
    ensures r.Success? ==> r.value.0.lines == p.g.lines && |r.value.0.stations| == |p.g.stations| + 1
    ensures r.Success? ==> r.value.0.stations[..|p.g.stations|] == p.g.stations
    ensures r.Success? ==> forall l :: 0 <= l < |p.g.lines| ==> |p.g.stations| !in p.g.lines[l].stations
    ensures r.Success? ==> SplitTwo(s, ":").Some? && r.value.0.stations[|p.g.stations|].name == SplitTwo(s, ":").value.1
  {
    match SplitTwo(s, ":")
    case None => Failure(Crash)
    case Some(parts) =>
      match ParseInt(parts.0)
      case None => Failure(Crash)
      case Some(index) =>
        match p.g.lines[p.current].name
        case None => Failure(Crash)
        case Some(lineName) =>
          assert forall l :: 0 <= l < |p.g.lines| ==> |p.g.stations| !in p.g.lines[l].stations by {
            forall l | 0 <= l < |p.g.lines| ensures |p.g.stations| !in p.g.lines[l].stations {
              assert p.g.IdsIn(p.g.lines[l].stations);
            }
          }
          Success((p.g.(stations := p.g.stations + [Station(index, parts.1, p.current, [lineName], None)]),
                   |p.g.stations|))
  }

  /** Appends a station to the station list (and to the current line's list
      when the two are the same object). */
  function Append(p: Parse, g: Graph, n: StationId): (r: Parse)
    requires ParseOk(p) && g.Valid() && n < |g.stations| && |p.g.stations| <= |g.stations| && g.lines == p.g.lines
    ensures ParseOk(r)
    ensures r.g.stations == g.stations && r.stationList == p.stationList + [n]
    ensures r.cross == p.cross && r.special == p.special && r.lineList == p.lineList
  {
    var list := p.stationList + [n];
    var lines := if p.shared then g.lines[p.current := g.lines[p.current].(stations := list)] else g.lines;
    p.(g := g.(lines := lines), stationList := list)
  }

  /** A plain `index:name` line. */
  function PlainStep(p: Parse, s: string): (r: Result<Parse, ExitError>)
    requires ParseOk(p)
    ensures r.Success? ==> ParseOk(r.value)
  {
    match CreatedStation(p, s)
    case Failure(e) => Failure(e)
    case Success(created) => Success(Append(p, created.0, created.1))
  }

  /** Adds every name of `old` in turn with `add_line`. */
  function AddAll(list: seq<string>, names: seq<string>): (r: seq<string>)
    ensures list <= r
    ensures forall x :: x in r <==> x in list || x in names
    ensures NoDuplicates(list) ==> NoDuplicates(r)
    decreases |names|
  {
    if names == [] then list else AddAll(WithLine(list, names[0]), names[1..])
  }

  /** One station takes another line list; nothing else changes. */
  function WithLineList(g: Graph, x: StationId, list: seq<string>): (r: Graph)
    requires g.Valid() && x < |g.stations|
    ensures r.Valid() && r.lines == g.lines && |r.stations| == |g.stations|
    ensures r.stations[x].lineList == list
    ensures forall k :: 0 <= k < |r.stations| ==> r.stations[k].(lineList := []) == g.stations[k].(lineList := [])
    ensures forall k :: 0 <= k < |r.stations| && k != x ==> r.stations[k] == g.stations[k]
  {
    g.(stations := g.stations[x := g.stations[x].(lineList := list)])
  }

  /** Setting a line list twice keeps the second. */
  lemma WithLineListTwice(g: Graph, x: StationId, a: seq<string>, b: seq<string>)
    requires g.Valid() && x < |g.stations|
    ensures WithLineList(WithLineList(g, x, a), x, b) == WithLineList(g, x, b)
  {
  }

  /** Every finalised line, in turn, looks up `name` with `find_station`
      and the station found takes `list` as its line list. */
  function Rebind(g: Graph, lineList: seq<LineId>, name: string, list: seq<string>): (r: Graph)
    requires g.Valid() && forall i :: 0 <= i < |lineList| ==> lineList[i] < |g.lines|
    ensures r.Valid() && r.lines == g.lines && |r.stations| == |g.stations|
    ensures forall k :: 0 <= k < |r.stations| ==> r.stations[k].(lineList := []) == g.stations[k].(lineList := [])
    decreases |lineList|
  {
    if lineList == [] then g
    else
      var l := lineList[|lineList| - 1];
      var h := Rebind(g, lineList[..|lineList| - 1], name, list);
      match h.FindStation(l, ByText(name))
      case None => h
      case Some(x) => WithLineList(h, x, list)
  }

  /** The line list of a connection station: its own line and X, then every
      name the dictionary already holds for its name. */
  function ConnectionList(cross: map<string, seq<string>>, st: Station, x: string): (r: seq<string>)
    ensures forall y :: y in r <==> y in st.lineList || y == x || (st.name in cross && y in cross[st.name])
  {
    var own := WithLine(st.lineList, x);
    if st.name in cross then AddAll(own, cross[st.name]) else own
  }

  /** The new station `n` takes `list`; for a name already in the dictionary
      the finalised lines' stations of that name take it too. */
  function ConnectionGraph(g: Graph, lineList: seq<LineId>, rebind: bool, n: StationId, list: seq<string>): (r: Graph)
    requires g.Valid() && n < |g.stations| && forall i :: 0 <= i < |lineList| ==> lineList[i] < |g.lines|
    requires forall l :: 0 <= l < |g.lines| ==> n !in g.lines[l].stations
    ensures r.Valid() && r.lines == g.lines && |r.stations| == |g.stations|
    ensures r.stations[n] == g.stations[n].(lineList := list)
  {
    var g1 := WithLineList(g, n, list);
    if rebind then
      assert forall j :: 0 <= j < |lineList| ==> g1.FindStation(lineList[j], ByText(g.stations[n].name)) != Some(n);
      RebindMiss(g1, lineList, g.stations[n].name, list, n);
      Rebind(g1, lineList, g.stations[n].name, list)
    else g1
  }

  /** A `index:name:Conn: X` line: the station also belongs to line X; the
      crossing dictionary maps its name to every line name seen for it, and
      the same-named stations of the finalised lines share that list. */
  function ConnectionStep(p: Parse, s: string): (r: Result<Parse, ExitError>)
    requires ParseOk(p)
    ensures r.Success? ==> ParseOk(r.value)
  {
    match SplitTwo(s, ":Conn: ")
    case None => Failure(Crash)
    case Some(parts) =>
      match CreatedStation(p, parts.0)
      case Failure(e) => Failure(e)
      case Success(created) =>
        var g, n := created.0, created.1;
        var st := g.stations[n];
        var list := ConnectionList(p.cross, st, parts.1);
        var g2 := ConnectionGraph(g, p.lineList, st.name in p.cross, n, list);
        Success(Append(p.(cross := p.cross[st.name := list]), g2, n))
  }

  /** `analyze_single_line`. */
  function Step(p: Parse, s: string): (r: Result<Parse, ExitError>)
    requires ParseOk(p)
    ensures r.Success? ==> ParseOk(r.value)
  {
    match KindOf(s)
    case Header => Success(HeaderStep(p, s))
    case Special => SpecialStep(p, s)
    case Connection => ConnectionStep(p, s)
    case Plain => PlainStep(p, s)
  }

  // ---- what a line does ----

  /** A `#` line always succeeds: it opens a new, empty line named by the
      rest of the text, resets the station list, and finalises the previous
      line exactly when it had stations. */
  lemma HeaderOpensLine(p: Parse, s: string)
    requires ParseOk(p) && StartsWith(s, "#")
    ensures Step(p, s).Success?
    ensures var q := Step(p, s).value;
            && q.current == |p.g.lines| == |q.g.lines| - 1
            && q.g.lines[q.current] == Line(Some(s[1..]), [])
            && q.stationList == [] && !q.shared
            && q.cross == p.cross && q.special == p.special && |q.g.stations| == |p.g.stations|
            && q.lineList == (if p.stationList != [] then p.lineList + [p.current] else p.lineList)
            && (p.stationList != [] ==> q.g.lines[p.current].stations == p.stationList)
  {
  }

  /** An `=` line fails only when it is the first one and there is no station
      to finalise, or when it does not hold exactly one `=`; otherwise it
      records its key and value, and the first one finalises the current line. */
  lemma SpecialRecords(p: Parse, s: string)
    requires ParseOk(p) && KindOf(s) == Special
    ensures Step(p, s).Failure? <==> (p.special == map[] && p.stationList == []) || SplitTwo(s, "=").None?
    ensures Step(p, s).Failure? ==> Step(p, s).error == Crash
    ensures Step(p, s).Success? ==>
              var q, kv := Step(p, s).value, SplitTwo(s, "=").value;
              && kv.0 + "=" + kv.1 == s
              && q.special == p.special[kv.0 := kv.1] && q.cross == p.cross
              && q.stationList == p.stationList
              && (p.special == map[] ==> q.lineList == p.lineList + [p.current] && q.shared
                                         && q.g.lines[p.current].stations == p.stationList)
              && (p.special != map[] ==> q.lineList == p.lineList && q.g == p.g && q.shared == p.shared)
  {
  }

  /** Finalising a line aliases its first and last stations exactly when
      their names agree; no other station changes. */
  lemma CircularAlias(p: Parse)
    requires ParseOk(p) && p.stationList != []
    ensures var first, last := p.stationList[0], p.stationList[|p.stationList| - 1];
            var st := Finalise(p).g.stations;
            && |st| == |p.g.stations|
            && (p.g.stations[first].name == p.g.stations[last].name ==>
                  st[first].alter == Some(last) && st[last].alter == Some(first))
            && (p.g.stations[first].name != p.g.stations[last].name ==> st == p.g.stations)
            && (forall k :: 0 <= k < |st| && k != first && k != last ==> st[k] == p.g.stations[k])
  {
  }

  /** A plain line fails exactly when its text is not `index:name` with an
      integer index or the current line is the unnamed placeholder; a new
      station has its parsed index, its name, its own line's name as its only
      line and no alias, and joins the station list. */
  lemma PlainCreates(p: Parse, s: string)
    requires ParseOk(p) && KindOf(s) == Plain
    ensures Step(p, s).Success? <==>
              SplitTwo(s, ":").Some? && ParseInt(SplitTwo(s, ":").value.0).Some?
              && p.g.lines[p.current].name.Some?
    ensures Step(p, s).Failure? ==> Step(p, s).error == Crash
    ensures Step(p, s).Success? ==>
              var q, parts := Step(p, s).value, SplitTwo(s, ":").value;
              && parts.0 + ":" + parts.1 == s
              && q.g.stations == p.g.stations
                   + [Station(ParseInt(parts.0).value, parts.1, p.current, [p.g.lines[p.current].name.value], None)]
              && q.stationList == p.stationList + [|p.g.stations|]
              && q.cross == p.cross && q.special == p.special && q.lineList == p.lineList
  {
  }

  /** `find_station` looks only at names, indices and the owning line's
      name, so changing line lists does not change what it finds. */
  lemma {:induction false} FindInIgnoresLineList(g: Graph, h: Graph, ids: seq<StationId>, key: Key)
    requires g.Valid() && h.Valid() && h.lines == g.lines && |h.stations| >= |g.stations| && g.IdsIn(ids)
    requires forall k :: 0 <= k < |g.stations| ==> h.stations[k].(lineList := []) == g.stations[k].(lineList := [])
    ensures h.FindIn(ids, key) == g.FindIn(ids, key)
  {
    if ids != [] {
      var x := ids[0];
      assert h.stations[x].(lineList := []) == g.stations[x].(lineList := []);
      assert h.stations[x].name == g.stations[x].name && h.stations[x].index == g.stations[x].index;
      assert h.Matches(x, key) == g.Matches(x, key);
      FindInIgnoresLineList(g, h, ids[1..], key);
    }
  }

  /** The last line's lookup sees the same stations as the original graph. */
  lemma RebindLast(g: Graph, lineList: seq<LineId>, name: string, list: seq<string>)
    requires g.Valid() && (forall i :: 0 <= i < |lineList| ==> lineList[i] < |g.lines|) && lineList != []
    ensures var l := lineList[|lineList| - 1];
            var h := Rebind(g, lineList[..|lineList| - 1], name, list);
            h.FindStation(l, ByText(name)) == g.FindStation(l, ByText(name))
  {
    var l := lineList[|lineList| - 1];
    var h := Rebind(g, lineList[..|lineList| - 1], name, list);
    FindInIgnoresLineList(g, h, g.lines[l].stations, ByText(name));
  }

  /** A station that already holds `list` keeps it through one more line. */
  lemma RebindStepKeeps(g: Graph, lineList: seq<LineId>, name: string, list: seq<string>, k: StationId)
    requires g.Valid() && (forall j :: 0 <= j < |lineList| ==> lineList[j] < |g.lines|) && lineList != []
    requires k < |g.stations| && Rebind(g, lineList[..|lineList| - 1], name, list).stations[k].lineList == list
    ensures Rebind(g, lineList, name, list).stations[k].lineList == list
  {
  }

  /** The station the last line finds takes `list`. */
  lemma RebindStepHits(g: Graph, lineList: seq<LineId>, name: string, list: seq<string>, k: StationId)
    requires g.Valid() && (forall j :: 0 <= j < |lineList| ==> lineList[j] < |g.lines|) && lineList != []
    requires g.FindStation(lineList[|lineList| - 1], ByText(name)) == Some(k)
    ensures Rebind(g, lineList, name, list).stations[k].lineList == list
  {
    RebindLast(g, lineList, name, list);
  }

  /** After the rebinding, every station that some finalised line finds for
      `name` holds `list`. */
  lemma {:induction false} RebindHit(g: Graph, lineList: seq<LineId>, name: string, list: seq<string>, i: nat, k: StationId)
    requires g.Valid() && (forall j :: 0 <= j < |lineList| ==> lineList[j] < |g.lines|)
    requires i < |lineList| && g.FindStation(lineList[i], ByText(name)) == Some(k)
    ensures Rebind(g, lineList, name, list).stations[k].lineList == list
    decreases |lineList|
  {
    var init := lineList[..|lineList| - 1];
    if i < |init| {
      assert init[i] == lineList[i];
      RebindHit(g, init, name, list, i, k);
      RebindStepKeeps(g, lineList, name, list, k);
    } else {
      RebindStepHits(g, lineList, name, list, k);
    }
  }

  /** A station the last line does not find keeps what it had. */
  lemma RebindStepMisses(g: Graph, lineList: seq<LineId>, name: string, list: seq<string>, k: StationId)
    requires g.Valid() && (forall j :: 0 <= j < |lineList| ==> lineList[j] < |g.lines|) && lineList != [] && k < |g.stations|
    requires g.FindStation(lineList[|lineList| - 1], ByText(name)) != Some(k)
    ensures Rebind(g, lineList, name, list).stations[k] == Rebind(g, lineList[..|lineList| - 1], name, list).stations[k]
  {
    RebindLast(g, lineList, name, list);
  }

  /** A station that no finalised line finds for `name` is left as it was. */
  lemma {:induction false} RebindMiss(g: Graph, lineList: seq<LineId>, name: string, list: seq<string>, k: StationId)
    requires g.Valid() && (forall j :: 0 <= j < |lineList| ==> lineList[j] < |g.lines|) && k < |g.stations|
    requires forall j :: 0 <= j < |lineList| ==> g.FindStation(lineList[j], ByText(name)) != Some(k)
    ensures Rebind(g, lineList, name, list).stations[k] == g.stations[k]
    decreases |lineList|
  {
    if lineList != [] {
      var init := lineList[..|lineList| - 1];
      forall j | 0 <= j < |init| ensures g.FindStation(init[j], ByText(name)) != Some(k) {
        assert init[j] == lineList[j];
      }
      RebindMiss(g, init, name, list, k);
      RebindStepMisses(g, lineList, name, list, k);
    }
  }

  /**
   * A connection line `index:name:Conn: X` adds a station that belongs to
   * its own line and to X; the crossing dictionary maps its name to the
   * union of every line name seen for that name so far, which is also the
   * station's line list; no other key changes.
   */
  lemma ConnectionMerges(p: Parse, s: string)
    requires ParseOk(p) && KindOf(s) == Connection && Step(p, s).Success?
    ensures SplitTwo(s, ":Conn: ").Some? && p.g.lines[p.current].name.Some?
    ensures var q, parts := Step(p, s).value, SplitTwo(s, ":Conn: ").value;
            var n, own := |p.g.stations|, p.g.lines[p.current].name.value;
            && n < |q.g.stations| && q.stationList == p.stationList + [n]
            && q.special == p.special && q.lineList == p.lineList
            && own in q.g.stations[n].lineList && parts.1 in q.g.stations[n].lineList
            && q.g.stations[n].name in q.cross && q.cross[q.g.stations[n].name] == q.g.stations[n].lineList
            && (forall x :: x in q.g.stations[n].lineList <==>
                  x == own || x == parts.1 || (q.g.stations[n].name in p.cross && x in p.cross[q.g.stations[n].name]))
            && (forall key :: key != q.g.stations[n].name ==>
                  (key in q.cross <==> key in p.cross) && (key in p.cross ==> q.cross[key] == p.cross[key]))
  {
    assert Step(p, s) == ConnectionStep(p, s);
  }

  /** The station name of a connection line, when the line has that shape. */
  function ConnectionName(s: string): Option<string> {
    match SplitTwo(s, ":Conn: ")
    case None => None
    case Some(parts) =>
      match SplitTwo(parts.0, ":")
      case None => None
      case Some(station) => Some(station.1)
  }

  /** The rebinding reaches every station a finalised line finds for the
      new station's name. */
  lemma ConnectionGraphRebinds(g0: Graph, g: Graph, lineList: seq<LineId>, n: StationId, list: seq<string>, i: nat, k: StationId)
    requires g0.Valid() && g.Valid() && n < |g.stations| && g.lines == g0.lines && n == |g0.stations| == |g.stations| - 1
    requires g.stations[..n] == g0.stations
    requires forall j :: 0 <= j < |lineList| ==> lineList[j] < |g.lines|
    requires forall l :: 0 <= l < |g.lines| ==> n !in g.lines[l].stations
    requires i < |lineList| && g0.FindStation(lineList[i], ByText(g.stations[n].name)) == Some(k)
    ensures ConnectionGraph(g, lineList, true, n, list).stations[k].lineList == list
  {
    var g1 := WithLineList(g, n, list);
    forall x | 0 <= x < |g0.stations| ensures g1.stations[x].(lineList := []) == g0.stations[x].(lineList := []) {
      assert g.stations[x] == g.stations[..n][x];
    }
    FindInIgnoresLineList(g0, g1, g0.lines[lineList[i]].stations, ByText(g.stations[n].name));
    RebindHit(g1, lineList, g.stations[n].name, list, i, k);
  }

  /** A connection line for a name already in the dictionary gives the
      merged line list to every station that a finalised line finds for
      that name. */
  lemma ConnectionRebinds(p: Parse, s: string, name: string, i: nat, k: StationId)
    requires ParseOk(p) && KindOf(s) == Connection && Step(p, s).Success?
    requires ConnectionName(s) == Some(name) && name in p.cross
    requires i < |p.lineList| && p.g.FindStation(p.lineList[i], ByText(name)) == Some(k)
    ensures var q := Step(p, s).value;
            k < |q.g.stations| && name in q.cross && q.g.stations[k].lineList == q.cross[name]
  {
    assert Step(p, s) == ConnectionStep(p, s);
    ConnectionStepRebinds(p, s, name, i, k);
  }

  /** `ConnectionRebinds` for the connection step itself. */
  lemma ConnectionStepRebinds(p: Parse, s: string, name: string, i: nat, k: StationId)
    requires ParseOk(p) && ConnectionStep(p, s).Success?
    requires ConnectionName(s) == Some(name) && name in p.cross
    requires i < |p.lineList| && p.g.FindStation(p.lineList[i], ByText(name)) == Some(k)
    ensures var q := ConnectionStep(p, s).value;
            k < |q.g.stations| && name in q.cross && q.g.stations[k].lineList == q.cross[name]
  {
    var parts := SplitTwo(s, ":Conn: ").value;
    var created := CreatedStation(p, parts.0).value;
    var n := |p.g.stations|;
    var st := created.0.stations[n];
    var list := ConnectionList(p.cross, st, parts.1);
    ConnectionGraphRebinds(p.g, created.0, p.lineList, n, list, i, k);
  }

  // ---- the whole input ----

  /** `get_data`'s last step: the empty lines are dropped. */
  function NonEmptyLines(data: seq<string>): (r: seq<string>)
    ensures forall k :: 0 <= k < |r| ==> r[k] != "" && r[k] in data
    ensures forall x :: x in data && x != "" ==> x in r
  {
    if data == [] then []
    else if data[0] == "" then NonEmptyLines(data[1..])
    else [data[0]] + NonEmptyLines(data[1..])
  }

  /** Dropping the empty lines distributes over concatenation, takes `[""]`
      to `[]` and keeps a single non-empty line: it is a filter that keeps
      the order of what it keeps. */
  lemma {:induction false} NonEmptyLinesAppend(a: seq<string>, b: seq<string>)
    ensures NonEmptyLines(a + b) == NonEmptyLines(a) + NonEmptyLines(b)
    ensures NonEmptyLines([""]) == []
    ensures forall x :: x != "" ==> NonEmptyLines([x]) == [x]
  {
    assert [""][1..] == [];
    if a == [] {
      assert a + b == b;
    } else {
      assert (a + b)[1..] == a[1..] + b;
      NonEmptyLinesAppend(a[1..], b);
    }
  }

  /** `list.remove`: the list without the first occurrence of `x`. */
  function RemoveFirst(data: seq<string>, x: string): (r: seq<string>)
    requires x in data
    ensures |r| == |data| - 1
    ensures multiset(r) == multiset(data) - multiset{x}
  {
    assert data == [data[0]] + data[1..];
    if data[0] == x then data[1..]
    else
      [data[0]] + RemoveFirst(data[1..], x)
  }

  /** Each turn of `while '' in data: data.remove('')` leaves the non-empty
      lines as they were, and once no empty line is left the list is its own
      non-empty lines: the loop ends with `NonEmptyLines` of its input. */
  lemma {:induction false} RemoveEmptyKeeps(data: seq<string>)
    requires "" in data
    ensures NonEmptyLines(RemoveFirst(data, "")) == NonEmptyLines(data)
  {
    if data[0] != "" {
      assert "" in data[1..];
      RemoveEmptyKeeps(data[1..]);
    }
  }

  lemma {:induction false} NoEmptyFixed(data: seq<string>)
    requires "" !in data
    ensures NonEmptyLines(data) == data
  {
    if data != [] {
      assert "" !in data[1..];
      NoEmptyFixed(data[1..]);
    }
  }

  /** The reader's state after the given lines, or the first failure. */
  function Run(p: Parse, lines: seq<string>): (r: Result<Parse, ExitError>)
    requires ParseOk(p)
    ensures r.Success? ==> ParseOk(r.value)
    decreases |lines|
  {
    if lines == [] then Success(p)
    else
      var first := Step(p, lines[0]);
      if first.Failure? then first else Run(first.value, lines[1..])
  }

  /** A single line can only fail by raising: every failure of a line is a
      crash, never an invalid-file verdict. */
  lemma StepFailsByCrash(p: Parse, s: string)
    requires ParseOk(p) && Step(p, s).Failure?
    ensures Step(p, s).error == Crash
  {
    match KindOf(s)
    case Header =>
    case Special =>
    case Connection =>
    case Plain =>
  }

  lemma {:induction false} RunFailsByCrash(p: Parse, lines: seq<string>)
    requires ParseOk(p) && Run(p, lines).Failure?
    ensures Run(p, lines).error == Crash
    decreases |lines|
  {
    if lines != [] {
      if Step(p, lines[0]).Failure? {
        StepFailsByCrash(p, lines[0]);
      } else {
        RunFailsByCrash(Step(p, lines[0]).value, lines[1..]);
      }
    }
  }

  /** The reader's invariant survives any change of the graph that keeps
      the lines and the number of stations. */
  lemma ParseOkSameShape(p: Parse, g: Graph)
    requires ParseOk(p) && g.Valid() && g.lines == p.g.lines && |g.stations| >= |p.g.stations|
    ensures ParseOk(p.(g := g))
  {
  }

  /** What `analyze_all_data` hands to the map. */
  datatype ReadResult = ReadResult(g: Graph, lineList: seq<LineId>, cross: map<string, seq<string>>,
                                   special: map<string, string>)

  /**
   * The reader: the network arenas it builds, and the values
   * `analyze_all_data` threads through `analyze_single_line`.
   */
  class Reader {
    const net: Network
    var cross: map<string, seq<string>>
    var special: map<string, string>
    var stationList: seq<StationId>
    var lineList: seq<LineId>
    var current: LineId
    var shared: bool

    function State(): Parse
      reads this, net
    {
      Parse(net.AsGraph(), cross, special, stationList, lineList, current, shared)
    }

    predicate Valid()
      reads this, net
    {
      ParseOk(State())
    }

    /** The defaults of `analyze_all_data`: the placeholder `Line(None)` and
        empty containers. */
    constructor ()
      ensures Valid() && State() == Initial() && fresh(net)
    {
      net := new Network();
      cross := map[];
      special := map[];
      stationList := [];
      lineList := [];
      shared := false;
      current := 0;
      new;
      current := net.NewLine(None);
    }

    /** `update_line`. */
    method UpdateLine()
      requires Valid() && stationList != []
      modifies this, net
      ensures Valid() && State() == Finalise(old(State()))
    {
      ghost var p := State();
      net.SetStations(current, stationList);
      lineList := lineList + [current];
      var first, last := stationList[0], stationList[|stationList| - 1];
      if net.stations[first].name == net.stations[last].name {
        net.AddAlter(first, last);
      }
      FinaliseParts(p);
    }

    /** `create_station`: the new station, or the exception it raises. */
    method CreateStation(s: string) returns (r: Result<StationId, ExitError>)
      requires Valid()
      modifies net
      ensures r.Success? <==> CreatedStation(old(State()), s).Success?
      ensures r.Success? ==> net.AsGraph() == CreatedStation(old(State()), s).value.0
                             && r.value == CreatedStation(old(State()), s).value.1
      ensures r.Failure? ==> r.error == CreatedStation(old(State()), s).error && net.AsGraph() == old(net.AsGraph())
    {
      var parts := SplitTwo(s, ":");
      if parts.None? {
        return Failure(Crash);
      }
      var index := ParseInt(parts.value.0);
      if index.None? || net.lines[current].name.None? {
        return Failure(Crash);
      }
      var n := net.NewStation(index.value, parts.value.1, current);
      return Success(n);
    }

    /** Appends to the station list (and so to the current line's list when
        the two are one object). */
    method AppendStation(n: StationId)
      requires Valid() && n < |net.stations|
      modifies this, net
      ensures Valid() && State() == Append(old(State()), old(net.AsGraph()), n)
    {
      stationList := stationList + [n];
      if shared {
        net.SetStations(current, stationList);
      }
    }

    /** The merging loop: station `n` takes every name of `names` with `add_line`. */
    method AddLines(n: StationId, names: seq<string>)
      requires Valid() && n < |net.stations|
      modifies net
      ensures Valid() && net.lines == old(net.lines) && |net.stations| == |old(net.stations)|
      ensures net.stations == old(net.stations)[n := old(net.stations)[n].(lineList := AddAll(old(net.stations)[n].lineList, names))]
    {
      ghost var before := State();
      AddLinesTo(net, n, names);
      ParseOkSameShape(before, net.AsGraph());
    }

    /** The rebinding loop: each finalised line's station called `name`
        takes `list`. */
    method RebindLines(name: string, list: seq<string>)
      requires Valid()
      modifies net
      ensures Valid() && net.AsGraph() == Rebind(old(net.AsGraph()), lineList, name, list)
    {
      ghost var before := State();
      RebindNetwork(net, lineList, name, list);
      ParseOkSameShape(before, net.AsGraph());
    }

    /** `add_line(X)` on the new connection station `n`, then the crossing
        dictionary and the line lists. */
    method MergeCrossing(n: StationId, x: string)
      requires Valid() && n < |net.stations|
      requires forall l :: 0 <= l < |net.lines| ==> n !in net.lines[l].stations
      modifies this, net
      ensures Valid() && stationList == old(stationList) && lineList == old(lineList)
      ensures current == old(current) && shared == old(shared) && special == old(special)
      ensures var st := old(net.stations)[n];
              var list := ConnectionList(old(cross), st, x);
              && cross == old(cross)[st.name := list]
              && net.AsGraph() == ConnectionGraph(old(net.AsGraph()), lineList, st.name in old(cross), n, list)
    {
      ghost var g0 := net.AsGraph();
      net.AddLine(n, x);
      ParseOkSameShape(old(State()), net.AsGraph());
      ghost var g1 := net.AsGraph();
      assert g1 == WithLineList(g0, n, g1.stations[n].lineList);
      var name := net.stations[n].name;
      if name !in cross {
        cross := cross[name := net.stations[n].lineList];
        assert net.AsGraph() == WithLineList(g0, n, cross[name]);
      } else {
        MergeExisting(n);
        ghost var list := cross[name];
        WithLineListTwice(g0, n, g1.stations[n].lineList, list);
        assert net.AsGraph() == Rebind(WithLineList(g0, n, list), lineList, name, list);
      }
    }

    /** A name already in the dictionary: station `n` adds the dictionary's
        names, the dictionary and the finalised lines' stations of that name
        take its list. */
    method MergeExisting(n: StationId)
      requires Valid() && n < |net.stations| && net.stations[n].name in cross
      modifies this, net
      ensures Valid() && stationList == old(stationList) && lineList == old(lineList)
      ensures current == old(current) && shared == old(shared) && special == old(special)
      ensures var st := old(net.stations)[n];
              var list := AddAll(st.lineList, old(cross)[st.name]);
              && cross == old(cross)[st.name := list]
              && net.AsGraph() == Rebind(WithLineList(old(net.AsGraph()), n, list), lineList, st.name, list)
    {
      var name := net.stations[n].name;
      AddLines(n, cross[name]);
      var list := net.stations[n].lineList;
      cross := cross[name := list];
      assert net.AsGraph() == WithLineList(old(net.AsGraph()), n, list);
      RebindLines(name, list);
    }

    /** The `:Conn:` branch of `analyze_single_line`. */
    method ConnectionLine(s: string) returns (err: Option<ExitError>)
      requires Valid()
      modifies this, net
      ensures err.None? ==> Valid() && ConnectionStep(old(State()), s) == Success(State())
      ensures err.Some? ==> ConnectionStep(old(State()), s) == Failure(err.value)
    {
      var parts := SplitTwo(s, ":Conn: ");
      if parts.None? {
        return Some(Crash);
      }
      var created := CreateStation(parts.value.0);
      if created.Failure? {
        return Some(created.error);
      }
      var n := created.value;
      ParseOkSameShape(old(State()), net.AsGraph());
      MergeCrossing(n, parts.value.1);
      AppendStation(n);
      err := None;
    }

    /** The `#` branch of `analyze_single_line`. */
    method HeaderLine(s: string)
      requires Valid() && StartsWith(s, "#")
      modifies this, net
      ensures Valid() && State() == HeaderStep(old(State()), s)
    {
      if stationList != [] {
        UpdateLine();
      }
      current := net.NewLine(Some(s[1..]));
      stationList := [];
      shared := false;
    }

    /** The `=` branch of `analyze_single_line`. */
    method SpecialLine(s: string) returns (err: Option<ExitError>)
      requires Valid()
      modifies this, net
      ensures err.None? ==> Valid() && SpecialStep(old(State()), s) == Success(State())
      ensures err.Some? ==> SpecialStep(old(State()), s) == Failure(err.value)
    {
      if special == map[] {
        if stationList == [] {
          return Some(Crash);
        }
        UpdateLine();
        shared := true;
      }
      var kv := SplitTwo(s, "=");
      if kv.None? {
        return Some(Crash);
      }
      special := special[kv.value.0 := kv.value.1];
      err := None;
    }

    /** `analyze_single_line`: one input line, or the exception it raises. */
    method AnalyzeSingleLine(s: string) returns (err: Option<ExitError>)
      requires Valid()
      modifies this, net
      ensures err.None? ==> Valid() && Step(old(State()), s) == Success(State())
      ensures err.Some? ==> Step(old(State()), s) == Failure(err.value)
    {
      if StartsWith(s, "#") {
        HeaderLine(s);
        err := None;
      } else if '=' in s {
        err := SpecialLine(s);
      } else if Contains(s, ":Conn:") {
        err := ConnectionLine(s);
      } else {
        var created := CreateStation(s);
        if created.Failure? {
          return Some(created.error);
        }
        ParseOkSameShape(old(State()), net.AsGraph());
        AppendStation(created.value);
        err := None;
      }
    }
  }

  /** The loop of `add_line` calls on station `n` of the network. */
  method AddLinesTo(net: Network, n: StationId, names: seq<string>)
    requires net.Valid() && n < |net.stations|
    modifies net
    ensures net.Valid() && net.lines == old(net.lines) && |net.stations| == |old(net.stations)|
    ensures net.stations == old(net.stations)[n := old(net.stations)[n].(lineList := AddAll(old(net.stations)[n].lineList, names))]
  {
    for i := 0 to |names|
      invariant net.Valid() && net.lines == old(net.lines) && |net.stations| == |old(net.stations)|
      invariant AddAll(net.stations[n].lineList, names[i..]) == AddAll(old(net.stations)[n].lineList, names)
      invariant net.stations == old(net.stations)[n := old(net.stations)[n].(lineList := net.stations[n].lineList)]
    {
      assert names[i..][1..] == names[i + 1..];
      net.AddLine(n, names[i]);
    }
  }

  /** The loop over the finalised lines on the network: each line's station
      called `name` takes `list`. */
  method RebindNetwork(net: Network, lineList: seq<LineId>, name: string, list: seq<string>)
    requires net.Valid() && forall i :: 0 <= i < |lineList| ==> lineList[i] < |net.lines|
    modifies net
    ensures net.Valid() && net.AsGraph() == Rebind(old(net.AsGraph()), lineList, name, list)
  {
    for i := 0 to |lineList|
      invariant net.Valid() && net.lines == old(net.lines)
      invariant net.AsGraph() == Rebind(old(net.AsGraph()), lineList[..i], name, list)
    {
      assert lineList[..i + 1][..i] == lineList[..i];
      var found := net.AsGraph().FindStation(lineList[i], ByText(name));
      if found.Some? {
        net.SetLineList(found.value, list);
      }
    }
    assert lineList[..|lineList|] == lineList;
  }

  /** `get_data`'s loop that removes the empty lines. */
  method DropEmptyLines(data: seq<string>) returns (lines: seq<string>)
    ensures lines == NonEmptyLines(data)
  {
    lines := [];
    for k := 0 to |data|
      invariant lines + NonEmptyLines(data[k..]) == NonEmptyLines(data)
    {
      assert data[k..][1..] == data[k + 1..];
      if data[k] != "" {
        lines := lines + [data[k]];
      }
    }
    assert data[|data|..] == [];
  }

  /** The final check of `analyze_all_data`. */
  predicate Accepted(p: Parse) {
    p.stationList != [] && p.lineList != [] && |p.special| == 3
  }

  /**
   * `analyze_all_data` on the lines of the file: a line that raises stops
   * the run with that exception; otherwise the result is accepted exactly
   * when the last station list is not empty, some line was finalised and
   * there are exactly three special keys, and it is invalid data if not.
   */
  method AnalyzeAllData(data: seq<string>) returns (r: Result<ReadResult, ExitError>)
    ensures var run := Run(Initial(), NonEmptyLines(data));
            && (run.Failure? ==> r == Failure(run.error))
            && (run.Success? ==> (r.Success? <==> Accepted(run.value)))
            && (run.Success? && r.Failure? ==> r.error == InvalidFile)
            && (run.Success? && r.Success? ==>
                  r.value == ReadResult(run.value.g, run.value.lineList, run.value.cross, run.value.special))
  {
    var lines := DropEmptyLines(data);
    var reader := new Reader();
    for i := 0 to |lines|
      invariant reader.Valid() && fresh(reader.net)
      invariant Run(Initial(), lines) == Run(reader.State(), lines[i..])
    {
      assert lines[i..][1..] == lines[i + 1..];
      var err := reader.AnalyzeSingleLine(lines[i]);
      if err.Some? {
        return Failure(err.value);
      }
    }
    assert lines[|lines|..] == [];
    if reader.stationList != [] && reader.lineList != [] && |reader.special| == 3 {
      r := Success(ReadResult(reader.net.AsGraph(), reader.lineList, reader.cross, reader.special));
    } else {
      r := Failure(InvalidFile);
    }
  }
}

=== FILE: run_metro.dfy ===
/**
 * The allocator and the simulator (run_metro.py): how many trains each path
 * gets, how they are numbered, and how one turn moves them.
 */
module RunMetro {
  import opened Wrappers
  import opened BaseMetro

  // ---- allocation ----

  /** Some station of the path is a crossing (its name is a key of the
      crossing dictionary). */
  predicate HasCrossing(g: Graph, stationList: seq<StationId>, cross: map<string, seq<string>>)
    requires g.IdsIn(stationList)
  {
    exists k :: 0 <= k < |stationList| && g.stations[stationList[k]].name in cross
  }

  /** The per-train cost increment of a path: 2 with a crossing, 1 without. */
  function DeltaOf(g: Graph, stationList: seq<StationId>, cross: map<string, seq<string>>): int
    requires g.IdsIn(stationList)
  {
    if HasCrossing(g, stationList, cross) then 2 else 1
  }

  /** `find_delta`: scans the stations and answers 2 at the first crossing. */
  method FindDelta(g: Graph, stationList: seq<StationId>, cross: map<string, seq<string>>) returns (r: int)
    requires g.IdsIn(stationList)
    ensures r == 2 <==> HasCrossing(g, stationList, cross)
    ensures r == 1 <==> !HasCrossing(g, stationList, cross)
  {
    var k := 0;
    while k < |stationList|
      invariant 0 <= k <= |stationList|
      invariant forall j :: 0 <= j < k ==> g.stations[stationList[j]].name !in cross
    {
      if g.stations[stationList[k]].name in cross {
        return 2;
      }
      k := k + 1;
    }
    return 1;
  }

  /** Every station id of every path refers into the station arena. */
  predicate PathsIn(g: Graph, pathList: seq<seq<StationId>>) {
    forall i :: 0 <= i < |pathList| ==> g.IdsIn(pathList[i])
  }

  /** The path objects before any train is assigned: path i has index i,
      cost len - 1 and its delta. */
  function InitialPaths(g: Graph, pathList: seq<seq<StationId>>, cross: map<string, seq<string>>): (r: seq<Path>)
    requires PathsIn(g, pathList)
    ensures |r| == |pathList|
    ensures forall i :: 0 <= i < |r| ==> r[i] == NewPath(i, pathList[i], |pathList[i]| - 1, DeltaOf(g, pathList[i], cross))
  {
    seq(|pathList|, i requires 0 <= i < |pathList| => NewPath(i, pathList[i], |pathList[i]| - 1, DeltaOf(g, pathList[i], cross)))
  }

  /** Inserts `x` after every element whose cost is not greater. */
  function InsertByCost(x: Path, s: seq<Path>): seq<Path> {
    if s == [] || x.cost < s[0].cost then [x] + s else [s[0]] + InsertByCost(x, s[1..])
  }

  /** `list.sort(key=cost)`: a stable sort by cost (equal costs keep their
      order), written as insertion of each element in turn. */
  function SortByCost(l: seq<Path>): seq<Path> {
    if l == [] then [] else InsertByCost(l[|l| - 1], SortByCost(l[..|l| - 1]))
  }

  /** Sum of the train counts. */
  function Total(l: seq<Path>): nat {
    if l == [] then 0 else l[0].trainNumber + Total(l[1..])
  }

  /** The path indices, as a multiset. */
  function IndexBag(l: seq<Path>): multiset<nat> {
    if l == [] then multiset{} else multiset{l[0].index} + IndexBag(l[1..])
  }

  predicate SortedByCost(l: seq<Path>) {
    forall i, j :: 0 <= i < j < |l| ==> l[i].cost <= l[j].cost
  }

  lemma {:induction false} InsertByCostFacts(x: Path, s: seq<Path>)
    ensures |InsertByCost(x, s)| == |s| + 1
    ensures forall p :: p in InsertByCost(x, s) <==> p in s || p == x
    ensures Total(InsertByCost(x, s)) == Total(s) + x.trainNumber
    ensures IndexBag(InsertByCost(x, s)) == IndexBag(s) + multiset{x.index}
    ensures InsertByCost(x, s)[0] == if s == [] || x.cost < s[0].cost then x else s[0]
  {
    if s != [] && x.cost >= s[0].cost {
      InsertByCostFacts(x, s[1..]);
      var r := InsertByCost(x, s);
      assert r[1..] == InsertByCost(x, s[1..]);
      forall p ensures p in r <==> p in s || p == x {
        assert p in s <==> p == s[0] || p in s[1..];
      }
    } else {
      assert InsertByCost(x, s)[1..] == s;
    }
  }

  /** Insertion adds exactly one occurrence of `x`. */
  lemma {:induction false} InsertByCostMultiset(x: Path, s: seq<Path>)
    ensures multiset(InsertByCost(x, s)) == multiset(s) + multiset{x}
  {
    if s != [] && x.cost >= s[0].cost {
      InsertByCostMultiset(x, s[1..]);
      assert InsertByCost(x, s) == [s[0]] + InsertByCost(x, s[1..]);
      assert s == [s[0]] + s[1..];
    }
  }

  /** Sorting is a permutation. */
  lemma {:induction false} SortByCostMultiset(l: seq<Path>)
    ensures multiset(SortByCost(l)) == multiset(l)
  {
    if l != [] {
      var init, x := l[..|l| - 1], l[|l| - 1];
      SortByCostMultiset(init);
      InsertByCostMultiset(x, SortByCost(init));
      assert l == init + [x];
    }
  }

  /** The head of a sorted list costs no more than any of its elements. */
  lemma SortedHeadMin(s: seq<Path>)
    requires SortedByCost(s) && s != []
    ensures forall p :: p in s ==> s[0].cost <= p.cost
  {
    forall p | p in s ensures s[0].cost <= p.cost {
      var m :| 0 <= m < |s| && s[m] == p;
      if m > 0 { assert s[0].cost <= s[m].cost; }
    }
  }

  /** A path no dearer than every element of a sorted list may go in front. */
  lemma ConsSorted(h: Path, rest: seq<Path>)
    requires SortedByCost(rest) && forall p :: p in rest ==> h.cost <= p.cost
    ensures SortedByCost([h] + rest)
  {
    var r := [h] + rest;
    forall i, j | 0 <= i < j < |r| ensures r[i].cost <= r[j].cost {
      assert r[j] == rest[j - 1];
      if i > 0 { assert r[i] == rest[i - 1]; }
    }
  }

  lemma {:induction false} InsertByCostSorted(x: Path, s: seq<Path>)
    requires SortedByCost(s)
    ensures SortedByCost(InsertByCost(x, s))
  {
    if s != [] {
      SortedHeadMin(s);
      if x.cost >= s[0].cost {
        var rest := InsertByCost(x, s[1..]);
        assert SortedByCost(s[1..]) by {
          forall i, j | 0 <= i < j < |s[1..]| ensures s[1..][i].cost <= s[1..][j].cost {
            assert s[1..][i] == s[i + 1] && s[1..][j] == s[j + 1];
          }
        }
        InsertByCostSorted(x, s[1..]);
        InsertByCostFacts(x, s[1..]);
        forall p | p in rest ensures s[0].cost <= p.cost {
          assert p in s[1..] || p == x;
          if p in s[1..] { assert p in s; }
        }
        ConsSorted(s[0], rest);
      } else {
        ConsSorted(x, s);
      }
    }
  }

  lemma {:induction false} TotalAppend(l: seq<Path>, x: Path)
    ensures Total(l + [x]) == Total(l) + x.trainNumber
    ensures IndexBag(l + [x]) == IndexBag(l) + multiset{x.index}
  {
    if l != [] {
      assert (l + [x])[1..] == l[1..] + [x];
      TotalAppend(l[1..], x);
    } else {
      assert [x][1..] == [];
    }
  }

  /** Sorting keeps the length. */
  lemma {:induction false} SortByCostLength(l: seq<Path>)
    ensures |SortByCost(l)| == |l|
  {
    if l != [] {
      SortByCostLength(l[..|l| - 1]);
      InsertByCostLength(l[|l| - 1], SortByCost(l[..|l| - 1]));
    }
  }

  lemma {:induction false} InsertByCostLength(x: Path, s: seq<Path>)
    ensures |InsertByCost(x, s)| == |s| + 1
  {
    if s != [] && x.cost >= s[0].cost {
      InsertByCostLength(x, s[1..]);
    }
  }

  /** The stable sort keeps the elements, the train total and the indices,
      and orders by cost. */
  lemma SortByCostPermutes(l: seq<Path>)
    ensures |SortByCost(l)| == |l|
    ensures multiset(SortByCost(l)) == multiset(l)
    ensures forall p :: p in SortByCost(l) <==> p in l
    ensures Total(SortByCost(l)) == Total(l)
    ensures IndexBag(SortByCost(l)) == IndexBag(l)
    ensures SortedByCost(SortByCost(l))
  {
    SortByCostLength(l);
    SortByCostMultiset(l);
    SortByCostOrdered(l);
  }

  lemma {:induction false} SortByCostOrdered(l: seq<Path>)
    ensures forall p :: p in SortByCost(l) <==> p in l
    ensures Total(SortByCost(l)) == Total(l)
    ensures IndexBag(SortByCost(l)) == IndexBag(l)
    ensures SortedByCost(SortByCost(l))
  {
    if l != [] {
      var init, x := l[..|l| - 1], l[|l| - 1];
      SortByCostOrdered(init);
      InsertByCostFacts(x, SortByCost(init));
      InsertByCostSorted(x, SortByCost(init));
      assert l == init + [x];
      TotalAppend(init, x);
      forall p ensures p in l <==> p in init || p == x {
        assert p in l <==> p in init + [x];
      }
    }
  }

  /** The paths of cost `c`, in order. */
  function CostFilter(l: seq<Path>, c: int): (r: seq<Path>)
    ensures forall p :: p in r ==> p in l && p.cost == c
  {
    if l == [] then [] else (if l[0].cost == c then [l[0]] else []) + CostFilter(l[1..], c)
  }

  lemma {:induction false} CostFilterSnoc(l: seq<Path>, x: Path, c: int)
    ensures CostFilter(l + [x], c) == CostFilter(l, c) + if x.cost == c then [x] else []
  {
    if l == [] {
      assert [x][1..] == [];
    } else {
      assert (l + [x])[1..] == l[1..] + [x];
      CostFilterSnoc(l[1..], x, c);
    }
  }

  lemma {:induction false} CostFilterNone(l: seq<Path>, c: int)
    requires forall p :: p in l ==> p.cost != c
    ensures CostFilter(l, c) == []
  {
    if l != [] {
      assert forall p :: p in l[1..] ==> p in l;
      CostFilterNone(l[1..], c);
    }
  }

  /** Inserting into a sorted list puts `x` after every path of its cost. */
  lemma {:induction false} InsertByCostStable(x: Path, s: seq<Path>, c: int)
    requires SortedByCost(s)
    ensures CostFilter(InsertByCost(x, s), c) == CostFilter(s, c) + if x.cost == c then [x] else []
  {
    var tail: seq<Path> := if x.cost == c then [x] else [];
    if s == [] {
    } else if x.cost < s[0].cost {
      assert InsertByCost(x, s)[1..] == s;
      if x.cost == c {
        SortedHeadMin(s);
        CostFilterNone(s, c);
      } else {
        assert CostFilter(s, c) + [] == CostFilter(s, c);
      }
    } else {
      assert SortedByCost(s[1..]) by {
        forall i, j | 0 <= i < j < |s[1..]| ensures s[1..][i].cost <= s[1..][j].cost {
          assert s[1..][i] == s[i + 1] && s[1..][j] == s[j + 1];
        }
      }
      InsertByCostStable(x, s[1..], c);
      assert InsertByCost(x, s)[1..] == InsertByCost(x, s[1..]);
      var head: seq<Path> := if s[0].cost == c then [s[0]] else [];
      assert head + (CostFilter(s[1..], c) + tail) == (head + CostFilter(s[1..], c)) + tail;
    }
  }

  /** The sort is stable: the paths of any one cost come out in the order in
      which they went in, as `list.sort` guarantees. */
  lemma {:induction false} SortByCostStable(l: seq<Path>, c: int)
    ensures CostFilter(SortByCost(l), c) == CostFilter(l, c)
  {
    if l != [] {
      var init, x := l[..|l| - 1], l[|l| - 1];
      SortByCostStable(init, c);
      SortByCostOrdered(init);
      InsertByCostStable(x, SortByCost(init), c);
      assert l == init + [x];
      CostFilterSnoc(init, x, c);
    }
  }

  /** The head of the stable sort is the first element of minimum cost. */
  lemma {:induction false} SortByCostHead(l: seq<Path>) returns (k: nat)
    requires l != []
    ensures k < |l| && SortByCost(l)[0] == l[k]
    ensures forall j :: 0 <= j < |l| ==> l[k].cost <= l[j].cost
    ensures forall j :: 0 <= j < k ==> l[j].cost > l[k].cost
  {
    var init, x := l[..|l| - 1], l[|l| - 1];
    if init == [] {
      k := 0;
    } else {
      var m := SortByCostHead(init);
      var sorted := SortByCost(init);
      assert SortByCost(l) == InsertByCost(x, sorted);
      if x.cost < sorted[0].cost {
        k := |l| - 1;
        forall j | 0 <= j < |l| - 1 ensures l[j].cost > x.cost {
          assert l[j] == init[j];
        }
      } else {
        k := m;
        forall j | 0 <= j < |l| ensures l[m].cost <= l[j].cost && (j < m ==> l[j].cost > l[m].cost) {
          if j < |l| - 1 { assert l[j] == init[j]; }
        }
      }
    }
  }

  /** One iteration of `split_train`'s loop: sort, then the head path takes
      one more train and its cost grows by its delta. */
  function Assign(l: seq<Path>): seq<Path>
    requires l != []
  {
    var s := SortByCost(l);
    SortByCostLength(l);
    s[0 := s[0].(cost := s[0].cost + s[0].delta, trainNumber := s[0].trainNumber + 1)]
  }

  /** The loop run `n` times. */
  function AssignAll(l: seq<Path>, n: nat): (r: seq<Path>)
    requires l != []
    ensures |r| == |l|
  {
    if n == 0 then l
    else
      var prev := AssignAll(l, n - 1);
      SortByCostLength(prev);
      Assign(prev)
  }

  /** Each train goes to the first path of minimum current cost; the other
      paths keep their cost and count. */
  lemma AssignChoosesFirstMin(l: seq<Path>) returns (k: nat)
    requires l != []
    ensures k < |l| && (forall j :: 0 <= j < |l| ==> l[k].cost <= l[j].cost)
    ensures forall j :: 0 <= j < k ==> l[j].cost > l[k].cost
    ensures Assign(l)[0] == l[k].(cost := l[k].cost + l[k].delta, trainNumber := l[k].trainNumber + 1)
    ensures Assign(l)[1..] == SortByCost(l)[1..]
  {
    k := SortByCostHead(l);
  }

  /** What each path object says about itself: it belongs to `pathList` and
      its cost is its length minus one plus delta per train. */
  predicate PathObjectOk(g: Graph, pathList: seq<seq<StationId>>, cross: map<string, seq<string>>, p: Path)
    requires PathsIn(g, pathList)
  {
    && p.index < |pathList| && p.stations == pathList[p.index]
    && p.delta == DeltaOf(g, pathList[p.index], cross)
    && p.cost == |p.stations| - 1 + p.delta * p.trainNumber
    && p.trains.None?
  }

  lemma AssignKeeps(g: Graph, pathList: seq<seq<StationId>>, cross: map<string, seq<string>>, l: seq<Path>)
    requires PathsIn(g, pathList) && l != []
    requires forall p :: p in l ==> PathObjectOk(g, pathList, cross, p)
    ensures forall p :: p in Assign(l) ==> PathObjectOk(g, pathList, cross, p)
    ensures Total(Assign(l)) == Total(l) + 1
    ensures IndexBag(Assign(l)) == IndexBag(l)
  {
    var s := SortByCost(l);
    SortByCostPermutes(l);
    var r := Assign(l);
    assert s[0] in l;
    forall p | p in r ensures PathObjectOk(g, pathList, cross, p) {
      var i :| 0 <= i < |r| && r[i] == p;
      if i > 0 { assert r[i] == s[i] && s[i] in l; }
    }
    assert r[1..] == s[1..] && s == [s[0]] + s[1..];
  }

  /**
   * `split_train` as specified by `AssignAll`: the result is a permutation
   * of the input paths (each index once, with its own stations and delta),
   * the train counts sum to the number of trains, and each path's cost is
   * its length minus one plus delta per train.
   */
  lemma {:induction false} SplitTrainSpec(g: Graph, pathList: seq<seq<StationId>>, cross: map<string, seq<string>>, n: nat)
    requires PathsIn(g, pathList) && pathList != []
    ensures var r := AssignAll(InitialPaths(g, pathList, cross), n);
            && (forall p :: p in r ==> PathObjectOk(g, pathList, cross, p))
            && Total(r) == n
            && IndexBag(r) == IndexBag(InitialPaths(g, pathList, cross))
  {
    var l0 := InitialPaths(g, pathList, cross);
    if n == 0 {
      InitialPathsFacts(g, pathList, cross, |pathList|);
      assert l0[..|pathList|] == l0;
    } else {
      SplitTrainSpec(g, pathList, cross, n - 1);
      var prev := AssignAll(l0, n - 1);
      AssignKeeps(g, pathList, cross, prev);
    }
  }

  /** The first `m` initial paths carry no trains and are path objects of their own. */
  lemma {:induction false} InitialPathsFacts(g: Graph, pathList: seq<seq<StationId>>, cross: map<string, seq<string>>, m: nat)
    requires PathsIn(g, pathList) && m <= |pathList|
    ensures var l0 := InitialPaths(g, pathList, cross)[..m];
            && Total(l0) == 0 && forall p :: p in l0 ==> PathObjectOk(g, pathList, cross, p)
  {
    var l0 := InitialPaths(g, pathList, cross);
    if m > 0 {
      InitialPathsFacts(g, pathList, cross, m - 1);
      assert l0[..m] == l0[..m - 1] + [l0[m - 1]];
      TotalAppend(l0[..m - 1], l0[m - 1]);
    }
  }

  /** The first loop of `split_train`: one path object per path, carrying
      no train yet. */
  method MakePaths(g: Graph, pathList: seq<seq<StationId>>, cross: map<string, seq<string>>)
    returns (r: seq<Path>)
    requires PathsIn(g, pathList)
    ensures r == InitialPaths(g, pathList, cross)
  {
    r := [];
    var index := 0;
    while index < |pathList|
      invariant 0 <= index <= |pathList|
      invariant r == InitialPaths(g, pathList, cross)[..index]
    {
      var delta := FindDelta(g, pathList[index], cross);
      r := r + [NewPath(index, pathList[index], |pathList[index]| - 1, delta)];
      index := index + 1;
    }
  }

  /** `split_train`. */
  method SplitTrain(g: Graph, trainNumber: int, pathList: seq<seq<StationId>>, cross: map<string, seq<string>>)
    returns (r: seq<Path>)
    requires PathsIn(g, pathList) && pathList != []
    ensures r == AssignAll(InitialPaths(g, pathList, cross), if trainNumber < 0 then 0 else trainNumber)
  {
    r := MakePaths(g, pathList, cross);
    ghost var l0 := r;
    var i := 1;
    while i < trainNumber + 1
      invariant 1 <= i && (trainNumber >= 0 ==> i <= trainNumber + 1) && (trainNumber < 0 ==> i == 1)
      invariant r == AssignAll(l0, i - 1)
    {
      SortByCostLength(r);
      r := SortByCost(r);
      r := r[0 := r[0].(cost := r[0].cost + r[0].delta, trainNumber := r[0].trainNumber + 1)];
      i := i + 1;
    }
  }

  // ---- numbering ----

  /** `n` new trains at `start`, numbered from `order`. */
  function NewTrains(start: StationId, order: int, n: nat): (r: seq<Train>)
    ensures |r| == n
  {
    seq(n, i requires 0 <= i < n => NewTrain(start, order + i))
  }

  /** The numbering loop of `get_path_object_list`: each path in turn gets
      as many new trains as its count, the numbers running on. */
  function Numbered(paths: seq<Path>, start: StationId, order: int): (r: seq<Path>)
    ensures |r| == |paths|
  {
    if paths == [] then []
    else [paths[0].(trains := Some(NewTrains(start, order, paths[0].trainNumber)))]
         + Numbered(paths[1..], start, order + paths[0].trainNumber)
  }

  predicate HasTrains(paths: seq<Path>) {
    forall k :: 0 <= k < |paths| ==> paths[k].trains.Some?
  }

  /** `get_all_train`: the train lists of all paths, one after the other. */
  function AllTrains(paths: seq<Path>): seq<Train>
    requires HasTrains(paths)
  {
    if paths == [] then [] else paths[0].trains.value + AllTrains(paths[1..])
  }

  /** Path `k` of the numbered list keeps everything but its train list, which
      holds its count of trains at `start`, numbered on from the trains of the
      paths before it. */
  lemma {:induction false} NumberedAt(paths: seq<Path>, start: StationId, order: int, k: nat)
    requires k < |paths|
    ensures Numbered(paths, start, order)[k]
            == paths[k].(trains := Some(NewTrains(start, order + Total(paths[..k]), paths[k].trainNumber)))
  {
    if k > 0 {
      NumberedAt(paths[1..], start, order + paths[0].trainNumber, k - 1);
      assert paths[..k][1..] == paths[1..][..k - 1];
    }
  }

  /**
   * Over all paths, the trains are numbered `order`, `order + 1`, ... with
   * no gap and no repeat, as many as the paths' counts add up to, and every
   * one starts at `start` with no station scheduled.
   */
  lemma {:induction false} NumberedTrains(paths: seq<Path>, start: StationId, order: int)
    ensures HasTrains(Numbered(paths, start, order))
    ensures AllTrains(Numbered(paths, start, order)) == NewTrains(start, order, Total(paths))
  {
    if paths != [] {
      var n := paths[0].trainNumber;
      NumberedTrains(paths[1..], start, order + n);
      var r := Numbered(paths, start, order);
      assert r[1..] == Numbered(paths[1..], start, order + n);
      var all := AllTrains(r);
      assert all == NewTrains(start, order, n) + NewTrains(start, order + n, Total(paths[1..]));
      forall i | 0 <= i < |all| ensures all[i] == NewTrains(start, order, Total(paths))[i] {
        if i >= n {
          assert all[i] == NewTrains(start, order + n, Total(paths[1..]))[i - n];
        }
      }
    }
  }

  /** `get_all_train`. */
  method GetAllTrain(paths: seq<Path>) returns (r: seq<Train>)
    requires HasTrains(paths)
    ensures r == AllTrains(paths)
  {
    r := [];
    var k := 0;
    while k < |paths|
      invariant 0 <= k <= |paths|
      invariant r + AllTrains(paths[k..]) == AllTrains(paths)
    {
      assert paths[k..][1..] == paths[k + 1..];
      r := r + paths[k].trains.value;
      k := k + 1;
    }
  }

  /** One iteration of the outer loop of `get_path_object_list` keeps its invariant. */
  lemma NumberStep(split: seq<Path>, start: StationId, k: nat, r: seq<Path>, trains: seq<Train>)
    requires k < |r| == |split|
    requires forall j :: 0 <= j < k ==> r[j] == Numbered(split, start, 1)[j]
    requires r[k] == split[k]
    requires trains == NewTrains(start, 1 + Total(split[..k]), split[k].trainNumber)
    ensures 1 + Total(split[..k + 1]) == 1 + Total(split[..k]) + split[k].trainNumber
    ensures forall j :: 0 <= j < k + 1 ==> r[k := r[k].(trains := Some(trains))][j] == Numbered(split, start, 1)[j]
  {
    NumberedAt(split, start, 1, k);
    assert split[..k + 1] == split[..k] + [split[k]];
    TotalAppend(split[..k], split[k]);
  }

  /** The inner loop of `get_path_object_list`: one path's trains. */
  method TrainList(start: StationId, order: int, n: nat) returns (trains: seq<Train>)
    ensures trains == NewTrains(start, order, n)
  {
    trains := [];
    var i := 0;
    while i < n
      invariant 0 <= i <= n
      invariant trains == NewTrains(start, order, i)
    {
      trains := trains + [NewTrain(start, order + i)];
      i := i + 1;
    }
  }

  /** `get_path_object_list`: `split_train`, then the numbering from 1. */
  method GetPathObjectList(g: Graph, start: StationId, trainNumber: int, pathList: seq<seq<StationId>>,
                           cross: map<string, seq<string>>)
    returns (r: seq<Path>)
    requires PathsIn(g, pathList) && pathList != []
    ensures r == Numbered(AssignAll(InitialPaths(g, pathList, cross), if trainNumber < 0 then 0 else trainNumber), start, 1)
  {
    var split := SplitTrain(g, trainNumber, pathList, cross);
    r := split;
    var order := 1;
    var k := 0;
    while k < |r|
      invariant 0 <= k <= |r| == |split|
      invariant order == 1 + Total(split[..k])
      invariant forall j :: 0 <= j < k ==> r[j] == Numbered(split, start, 1)[j]
      invariant forall j :: k <= j < |r| ==> r[j] == split[j]
    {
      var trains := TrainList(start, order, r[k].trainNumber);
      order := order + r[k].trainNumber;
      NumberStep(split, start, k, r, trains);
      r := r[k := r[k].(trains := Some(trains))];
      k := k + 1;
    }
  }

  // ---- one turn ----

  /** `check_if_all_train_arrived_end`. */
  method CheckIfAllTrainArrivedEnd(trains: seq<Train>, end: StationId) returns (r: bool)
    ensures r <==> forall i :: 0 <= i < |trains| ==> trains[i].position == Some(end)
  {
    for i := 0 to |trains|
      invariant forall j :: 0 <= j < i ==> trains[j].position == Some(end)
    {
      if trains[i].position != Some(end) {
        return false;
      }
    }
    return true;
  }

  /** The stations scheduled by the trains of one path, in train order,
      except the end station (which holds any number of trains). A train
      with nothing scheduled contributes `None`. */
  function BusyOf(trains: seq<Train>, end: StationId): seq<Option<StationId>> {
    if trains == [] then []
    else
      var last := trains[|trains| - 1];
      BusyOf(trains[..|trains| - 1], end) + (if last.next != Some(end) then [last.next] else [])
  }

  /** A station is busy exactly when some train has it scheduled and it is
      not the end station. */
  lemma {:induction false} BusyOfMembers(trains: seq<Train>, end: StationId, x: Option<StationId>)
    ensures x in BusyOf(trains, end) <==> x != Some(end) && exists i :: 0 <= i < |trains| && trains[i].next == x
  {
    if trains != [] {
      var init := trains[..|trains| - 1];
      BusyOfMembers(init, end, x);
      if x != Some(end) && (exists i :: 0 <= i < |trains| && trains[i].next == x) {
        var i :| 0 <= i < |trains| && trains[i].next == x;
        if i < |init| {
          assert init[i] == trains[i];
        }
      }
      if exists i :: 0 <= i < |init| && init[i].next == x {
        var i :| 0 <= i < |init| && init[i].next == x;
        assert trains[i] == init[i];
      }
    }
  }

  /** `get_busy_station`. */
  method GetBusyStation(trains: seq<Train>, end: StationId) returns (r: seq<Option<StationId>>)
    ensures r == BusyOf(trains, end)
  {
    r := [];
    for i := 0 to |trains|
      invariant r == BusyOf(trains[..i], end)
    {
      assert trains[..i + 1][..i] == trains[..i];
      if trains[i].next != Some(end) {
        r := r + [trains[i].next];
      }
    }
    assert trains[..|trains|] == trains;
  }

  /** The first index at which the path holds `pos` and has a successor
      (an occurrence at the last index raises `IndexError`, which the
      search skips). */
  function ClaimIndex(path: seq<StationId>, pos: Option<StationId>): (r: Option<nat>)
    ensures r.Some? ==> r.value + 1 < |path| && Some(path[r.value]) == pos
    ensures r.Some? ==> forall j :: 0 <= j < r.value ==> Some(path[j]) != pos
    ensures r.None? ==> forall j :: 0 <= j < |path| - 1 ==> Some(path[j]) != pos
  {
    ClaimFrom(path, pos, 0)
  }

  function ClaimFrom(path: seq<StationId>, pos: Option<StationId>, i: nat): (r: Option<nat>)
    requires i <= |path|
    ensures r.Some? ==> i <= r.value && r.value + 1 < |path| && Some(path[r.value]) == pos
    ensures r.Some? ==> forall j :: i <= j < r.value ==> Some(path[j]) != pos
    ensures r.None? ==> forall j :: i <= j < |path| - 1 ==> Some(path[j]) != pos
    decreases |path| - i
  {
    if i + 1 >= |path| then None
    else if Some(path[i]) == pos then Some(i)
    else ClaimFrom(path, pos, i + 1)
  }

  /**
   * `get_next_step`: `None` when the train is nowhere on the path but the
   * last station (the caller then leaves it as it was); otherwise the train
   * schedules the following station if it is not busy, marking it busy,
   * and its own station if it is.
   */
  function NextStep(busy: seq<Option<StationId>>, t: Train, path: seq<StationId>)
    : Option<(Train, seq<Option<StationId>>)>
  {
    match ClaimIndex(path, t.position)
    case None => None
    case Some(i) =>
      if Some(path[i + 1]) !in busy then Some((t.(next := Some(path[i + 1])), busy + [Some(path[i + 1])]))
      else Some((t.(next := t.position), busy))
  }

  /** `get_next_step`, scanning the path with its index. */
  method GetNextStep(busy: seq<Option<StationId>>, t: Train, path: seq<StationId>)
    returns (r: Option<(Train, seq<Option<StationId>>)>)
    ensures r == NextStep(busy, t, path)
  {
    for index := 0 to |path|
      invariant forall j :: 0 <= j < index && j + 1 < |path| ==> Some(path[j]) != t.position
    {
      if Some(path[index]) == t.position && index + 1 < |path| {
        if Some(path[index + 1]) !in busy {
          return Some((t.(next := Some(path[index + 1])), busy + [Some(path[index + 1])]));
        } else {
          return Some((t.(next := t.position), busy));
        }
      }
    }
    return None;
  }

  /** `get_next_step_for_all_train`: the trains decide in list order, each
      seeing the stations the earlier ones marked busy. */
  function Decide(busy: seq<Option<StationId>>, trains: seq<Train>, path: seq<StationId>)
    : (r: (seq<Train>, seq<Option<StationId>>))
    ensures |r.0| == |trains|
  {
    if trains == [] then ([], busy)
    else
      var prev := Decide(busy, trains[..|trains| - 1], path);
      var t := trains[|trains| - 1];
      match NextStep(prev.1, t, path)
      case None => (prev.0 + [t], prev.1)
      case Some(step) => (prev.0 + [step.0], step.1)
  }

  /** `get_next_step_for_all_train`. */
  method GetNextStepForAllTrain(busy: seq<Option<StationId>>, trains: seq<Train>, path: seq<StationId>)
    returns (r: seq<Train>)
    ensures r == Decide(busy, trains, path).0
  {
    r := trains;
    var b := busy;
    for index := 0 to |trains|
      invariant |r| == |trains|
      invariant (r[..index], b) == Decide(busy, trains[..index], path)
      invariant r[index..] == trains[index..]
    {
      assert trains[..index + 1][..index] == trains[..index];
      var step := GetNextStep(b, r[index], path);
      if step.Some? {
        r := r[index := step.value.0];
        b := step.value.1;
      }
      assert r[..index + 1] == r[..index] + [r[index]];
    }
    assert r[..|trains|] == r && trains[..|trains|] == trains;
  }

  /** Every train moves to the station it scheduled. */
  function Commit(trains: seq<Train>): (r: seq<Train>)
    ensures |r| == |trains|
  {
    seq(|trains|, i requires 0 <= i < |trains| => trains[i].(position := trains[i].next))
  }

  /** `change_position`. */
  method ChangePosition(busy: seq<Option<StationId>>, trains: seq<Train>, path: seq<StationId>)
    returns (r: seq<Train>)
    ensures r == Commit(Decide(busy, trains, path).0)
  {
    r := GetNextStepForAllTrain(busy, trains, path);
    ghost var decided := r;
    for index := 0 to |r|
      invariant |r| == |decided|
      invariant forall j :: 0 <= j < index ==> r[j] == decided[j].(position := decided[j].next)
      invariant forall j :: index <= j < |r| ==> r[j] == decided[j]
    {
      r := r[index := r[index].(position := r[index].next)];
    }
  }

  /** One turn of the trains of one path. */
  function MoveOne(trains: seq<Train>, path: seq<StationId>, end: StationId): seq<Train> {
    Commit(Decide(BusyOf(trains, end), trains, path).0)
  }

  /** `move_the_train`: one turn on every path, each path on its own. */
  method MoveTheTrain(paths: seq<Path>, end: StationId) returns (r: seq<Path>)
    requires HasTrains(paths)
    ensures |r| == |paths| && HasTrains(r)
    ensures forall k :: 0 <= k < |r| ==>
              r[k] == paths[k].(trains := Some(MoveOne(paths[k].trains.value, paths[k].stations, end)))
  {
    r := paths;
    for index := 0 to |r|
      invariant |r| == |paths|
      invariant forall k :: 0 <= k < index ==>
                  r[k] == paths[k].(trains := Some(MoveOne(paths[k].trains.value, paths[k].stations, end)))
      invariant forall k :: index <= k < |r| ==> r[k] == paths[k]
    {
      var busy := GetBusyStation(r[index].trains.value, end);
      var moved := ChangePosition(busy, r[index].trains.value, r[index].stations);
      r := r[index := r[index].(trains := Some(moved))];
    }
  }

  // ---- what a turn guarantees ----

  /** The train scheduled the station after the first occurrence of its own. */
  predicate Advanced(path: seq<StationId>, before: Train, after: Train) {
    var c := ClaimIndex(path, before.position);
    c.Some? && after.next == Some(path[c.value + 1])
  }

  /** Some train before `k` advanced into `x`. */
  predicate ClaimedBefore(path: seq<StationId>, trains: seq<Train>, decided: seq<Train>, k: nat, x: Option<StationId>)
    requires k <= |trains| == |decided|
  {
    exists a :: 0 <= a < k && Advanced(path, trains[a], decided[a]) && decided[a].next == x
  }

  /**
   * A turn changes nothing but the schedules: each train keeps its station
   * and number, a train that is not on the path (or only at its last
   * station) keeps its schedule, and one that does not advance schedules
   * its own station.
   */
  lemma {:induction false} DecideKeeps(busy: seq<Option<StationId>>, trains: seq<Train>, path: seq<StationId>)
    ensures var ts := Decide(busy, trains, path).0;
            forall k :: 0 <= k < |ts| ==>
              && ts[k].position == trains[k].position && ts[k].order == trains[k].order
              && (ClaimIndex(path, trains[k].position).None? ==> ts[k].next == trains[k].next)
              && (ClaimIndex(path, trains[k].position).Some? && !Advanced(path, trains[k], ts[k])
                  ==> ts[k].next == trains[k].position)
  {
    if trains != [] {
      var init := trains[..|trains| - 1];
      DecideKeeps(busy, init, path);
      var ts := Decide(busy, trains, path).0;
      var ts0 := Decide(busy, init, path).0;
      assert forall k :: 0 <= k < |init| ==> ts[k] == ts0[k] && trains[k] == init[k];
    }
  }

  /** The last train of the list decides on the busy list the others left. */
  lemma DecideLast(busy: seq<Option<StationId>>, trains: seq<Train>, path: seq<StationId>)
    requires NoDuplicates(path) && trains != []
    ensures var n := |trains| - 1;
            var r, r0 := Decide(busy, trains, path), Decide(busy, trains[..n], path);
            && r0.0 == r.0[..n]
            && (Advanced(path, trains[n], r.0[n]) ==> r.1 == r0.1 + [r.0[n].next])
            && (!Advanced(path, trains[n], r.0[n]) ==> r.1 == r0.1)
            && (ClaimIndex(path, trains[n].position).Some? ==>
                 (Advanced(path, trains[n], r.0[n]) <==>
                  Some(path[ClaimIndex(path, trains[n].position).value + 1]) !in r0.1))
  {
    var n := |trains| - 1;
    var r, r0 := Decide(busy, trains, path), Decide(busy, trains[..n], path);
    assert r.0[..n] == r0.0;
    var c := ClaimIndex(path, trains[n].position);
    if c.Some? {
      assert trains[n].position != Some(path[c.value + 1]);
    }
  }

  /** Cutting both lists after `n` does not change who advanced before `k <= n`. */
  lemma ClaimedPrefix(path: seq<StationId>, trains: seq<Train>, decided: seq<Train>, n: nat, k: nat, x: Option<StationId>)
    requires k <= n <= |trains| == |decided|
    ensures ClaimedBefore(path, trains, decided, k, x) <==> ClaimedBefore(path, trains[..n], decided[..n], k, x)
  {
    if ClaimedBefore(path, trains[..n], decided[..n], k, x) {
      var a :| 0 <= a < k && Advanced(path, trains[..n][a], decided[..n][a]) && decided[..n][a].next == x;
      assert trains[a] == trains[..n][a];
    }
    if ClaimedBefore(path, trains, decided, k, x) {
      var a :| 0 <= a < k && Advanced(path, trains[a], decided[a]) && decided[a].next == x;
      assert trains[..n][a] == trains[a];
    }
  }

  /** The busy list grows by exactly the stations advanced into. */
  lemma {:induction false} DecideBusy(busy: seq<Option<StationId>>, trains: seq<Train>, path: seq<StationId>)
    requires NoDuplicates(path)
    ensures var r := Decide(busy, trains, path);
            forall x :: x in r.1 <==> x in busy || ClaimedBefore(path, trains, r.0, |trains|, x)
  {
    if trains != [] {
      var n := |trains| - 1;
      DecideBusy(busy, trains[..n], path);
      DecideLast(busy, trains, path);
      var r := Decide(busy, trains, path);
      forall x ensures x in r.1 <==> x in busy || ClaimedBefore(path, trains, r.0, |trains|, x) {
        ClaimedPrefix(path, trains, r.0, n, n, x);
        if ClaimedBefore(path, trains, r.0, |trains|, x) && !ClaimedBefore(path, trains, r.0, n, x) {
          var a :| 0 <= a < |trains| && Advanced(path, trains[a], r.0[a]) && r.0[a].next == x;
          assert a == n;
        }
      }
    }
  }

  /**
   * Which trains advance: a train on the path advances exactly when the
   * following station is not busy and no earlier train of the list advanced
   * into it.
   */
  lemma {:induction false} DecideClaims(busy: seq<Option<StationId>>, trains: seq<Train>, path: seq<StationId>)
    requires NoDuplicates(path)
    ensures var ts := Decide(busy, trains, path).0;
            forall k :: 0 <= k < |ts| && ClaimIndex(path, trains[k].position).Some? ==>
              var x := Some(path[ClaimIndex(path, trains[k].position).value + 1]);
              (Advanced(path, trains[k], ts[k]) <==> x !in busy && !ClaimedBefore(path, trains, ts, k, x))
  {
    if trains != [] {
      var n := |trains| - 1;
      DecideClaims(busy, trains[..n], path);
      DecideBusy(busy, trains[..n], path);
      DecideLast(busy, trains, path);
      var ts := Decide(busy, trains, path).0;
      forall k | 0 <= k < |ts| && ClaimIndex(path, trains[k].position).Some?
        ensures var x := Some(path[ClaimIndex(path, trains[k].position).value + 1]);
                (Advanced(path, trains[k], ts[k]) <==> x !in busy && !ClaimedBefore(path, trains, ts, k, x))
      {
        var x := Some(path[ClaimIndex(path, trains[k].position).value + 1]);
        ClaimedPrefix(path, trains, ts, n, k, x);
        if k < n {
          assert trains[..n][k] == trains[k] && ts[..n][k] == ts[k];
        }
      }
    }
  }

  /** A path the trains can run on: at least two stations, none twice. */
  predicate PathShape(path: seq<StationId>) {
    |path| >= 2 && NoDuplicates(path)
  }

  /** Between turns a train stands on the path and has its own station
      scheduled, or none at all while it is still at the start. */
  predicate TrainOk(path: seq<StationId>, t: Train)
    requires path != []
  {
    && t.position.Some? && t.position.value in path
    && (t.next.Some? ==> t.next == t.position)
    && (t.next.None? ==> t.position == Some(path[0]))
  }

  predicate AllOk(path: seq<StationId>, trains: seq<Train>)
    requires path != []
  {
    forall k :: 0 <= k < |trains| ==> TrainOk(path, trains[k])
  }

  /** No two trains share a station other than the start and the end. */
  predicate OnePerStation(path: seq<StationId>, trains: seq<Train>)
    requires path != []
  {
    forall a, b :: 0 <= a < b < |trains| && trains[a].position == trains[b].position ==>
      trains[a].position == Some(path[0]) || trains[a].position == Some(path[|path| - 1])
  }

  /** A train on the path that cannot claim a successor is at the end. */
  lemma AtEndWhenNoClaim(path: seq<StationId>, t: Train)
    requires PathShape(path) && TrainOk(path, t) && ClaimIndex(path, t.position).None?
    ensures t.position == Some(path[|path| - 1]) && t.next == t.position
  {
    var j :| 0 <= j < |path| && path[j] == t.position.value;
    assert j == |path| - 1;
  }

  /** What one turn does to train `k`: a train at the end stays there, any
      other either moves to the station after its own or stays. */
  lemma TurnOutcome(trains: seq<Train>, path: seq<StationId>, k: nat)
    requires PathShape(path) && AllOk(path, trains) && k < |trains|
    ensures var end := path[|path| - 1];
            var ts := Decide(BusyOf(trains, end), trains, path).0;
            var m := MoveOne(trains, path, end);
            var c := ClaimIndex(path, trains[k].position);
            && m[k].position == ts[k].next && m[k].next == ts[k].next && m[k].order == trains[k].order
            && (c.None? ==> trains[k].position == Some(end) && m[k].position == Some(end))
            && (c.Some? && Advanced(path, trains[k], ts[k]) ==> m[k].position == Some(path[c.value + 1]))
            && (c.Some? && !Advanced(path, trains[k], ts[k]) ==> m[k].position == trains[k].position)
  {
    var end := path[|path| - 1];
    DecideKeeps(BusyOf(trains, end), trains, path);
    if ClaimIndex(path, trains[k].position).None? {
      AtEndWhenNoClaim(path, trains[k]);
    }
  }

  /** A train that stands on a station other than the start and the end
      marks it busy. */
  lemma StandingIsBusy(trains: seq<Train>, path: seq<StationId>, a: nat)
    requires PathShape(path) && AllOk(path, trains) && a < |trains|
    requires trains[a].position != Some(path[0]) && trains[a].position != Some(path[|path| - 1])
    ensures trains[a].position in BusyOf(trains, path[|path| - 1])
  {
    BusyOfMembers(trains, path[|path| - 1], trains[a].position);
  }

  /** Two trains never end a turn on the same inner station. */
  lemma NoSharedStation(trains: seq<Train>, path: seq<StationId>, a: nat, b: nat)
    requires PathShape(path) && AllOk(path, trains) && OnePerStation(path, trains) && a < b < |trains|
    ensures var m := MoveOne(trains, path, path[|path| - 1]);
            m[a].position == m[b].position ==>
              m[a].position == Some(path[0]) || m[a].position == Some(path[|path| - 1])
  {
    var end := path[|path| - 1];
    var busy := BusyOf(trains, end);
    var ts := Decide(busy, trains, path).0;
    var m := MoveOne(trains, path, end);
    TurnOutcome(trains, path, a);
    TurnOutcome(trains, path, b);
    var x := m[a].position;
    if x == m[b].position && x != Some(path[0]) && x != Some(end) {
      DecideClaims(busy, trains, path);
      var ca, cb := ClaimIndex(path, trains[a].position), ClaimIndex(path, trains[b].position);
      var advA := ca.Some? && Advanced(path, trains[a], ts[a]);
      var advB := cb.Some? && Advanced(path, trains[b], ts[b]);
      if advA && advB {
        assert ClaimedBefore(path, trains, ts, b, x);
        assert false;
      } else if advA {
        StandingIsBusy(trains, path, b);
        assert false;
      } else if advB {
        StandingIsBusy(trains, path, a);
        assert false;
      } else {
        assert false;
      }
    }
  }

  /**
   * A turn keeps the trains of a path on it, one per inner station, moves
   * each at most one station forward and keeps the train numbers.
   */
  lemma MoveOneKeeps(trains: seq<Train>, path: seq<StationId>)
    requires PathShape(path) && AllOk(path, trains) && OnePerStation(path, trains)
    ensures var m := MoveOne(trains, path, path[|path| - 1]);
            && |m| == |trains| && AllOk(path, m) && OnePerStation(path, m)
            && (forall k :: 0 <= k < |m| ==> m[k].order == trains[k].order)
            && (forall k :: 0 <= k < |m| ==>
                  m[k].position == trains[k].position ||
                  exists i :: 0 <= i < |path| - 1 && trains[k].position == Some(path[i]) && m[k].position == Some(path[i + 1]))
  {
    var m := MoveOne(trains, path, path[|path| - 1]);
    forall k | 0 <= k < |m|
      ensures TrainOk(path, m[k]) && m[k].order == trains[k].order
      ensures m[k].position == trains[k].position ||
              exists i :: 0 <= i < |path| - 1 && trains[k].position == Some(path[i]) && m[k].position == Some(path[i + 1])
    {
      TurnOutcome(trains, path, k);
    }
    forall a, b | 0 <= a < b < |m| && m[a].position == m[b].position
      ensures m[a].position == Some(path[0]) || m[a].position == Some(path[|path| - 1])
    {
      NoSharedStation(trains, path, a, b);
    }
  }

  /** A train enters an inner station only if no train stood there when the
      turn began. */
  lemma NoBackToBack(trains: seq<Train>, path: seq<StationId>, k: nat, a: nat)
    requires PathShape(path) && AllOk(path, trains) && k < |trains| && a < |trains|
    ensures var m := MoveOne(trains, path, path[|path| - 1]);
            (m[k].position != trains[k].position && m[k].position != Some(path[|path| - 1]) ==>
             trains[a].position != m[k].position)
  {
    var end := path[|path| - 1];
    var busy := BusyOf(trains, end);
    var ts := Decide(busy, trains, path).0;
    var m := MoveOne(trains, path, end);
    TurnOutcome(trains, path, k);
    if m[k].position != trains[k].position && m[k].position != Some(end) && trains[a].position == m[k].position {
      DecideClaims(busy, trains, path);
      var c := ClaimIndex(path, trains[k].position).value;
      assert path[c + 1] != path[0];
      StandingIsBusy(trains, path, a);
      assert false;
    }
  }

  /** At most one train enters each station in a turn, and among the trains
      that could, the first in the list goes. */
  lemma OneEntryPerStation(trains: seq<Train>, path: seq<StationId>, a: nat, b: nat)
    requires PathShape(path) && AllOk(path, trains) && a < b < |trains|
    ensures var m := MoveOne(trains, path, path[|path| - 1]);
            (m[a].position != trains[a].position && m[b].position != trains[b].position &&
             m[b].position != Some(path[|path| - 1]) ==>
             m[a].position != m[b].position)
  {
    var end := path[|path| - 1];
    var busy := BusyOf(trains, end);
    var ts := Decide(busy, trains, path).0;
    var m := MoveOne(trains, path, end);
    TurnOutcome(trains, path, a);
    TurnOutcome(trains, path, b);
    if m[a].position != trains[a].position && m[b].position != trains[b].position
       && m[b].position != Some(end) && m[a].position == m[b].position {
      DecideClaims(busy, trains, path);
      assert ClaimedBefore(path, trains, ts, b, m[b].position);
      assert false;
    }
  }

  /** Once every train of a path is at the end, a turn changes nothing, so
      the arrival check keeps answering yes. */
  lemma ArrivedIsFixed(trains: seq<Train>, path: seq<StationId>)
    requires PathShape(path) && AllOk(path, trains)
    requires forall k :: 0 <= k < |trains| ==> trains[k].position == Some(path[|path| - 1])
    ensures MoveOne(trains, path, path[|path| - 1]) == trains
  {
    var m := MoveOne(trains, path, path[|path| - 1]);
    forall k | 0 <= k < |trains| ensures m[k] == trains[k] {
      TurnOutcome(trains, path, k);
      assert path[0] != path[|path| - 1];
    }
  }

  /** The trains a path starts with satisfy the invariant of a turn. */
  lemma NewTrainsOk(path: seq<StationId>, order: int, n: nat)
    requires path != []
    ensures AllOk(path, NewTrains(path[0], order, n)) && OnePerStation(path, NewTrains(path[0], order, n))
  {
    var ts := NewTrains(path[0], order, n);
    forall k | 0 <= k < n ensures ts[k].position == Some(path[0]) && ts[k].next.None? {
      assert ts[k] == NewTrain(path[0], order + k);
    }
  }
}

=== FILE: text.dfy ===
/**
 * The handful of Python string operations the network reader relies on:
 * `startswith`, the substring test `sep in s`, `a, b = s.split(sep)`
 * (which only succeeds when the split yields exactly two parts),
 * `str(n)` on integers and `int(s)` on decimal text.
 */
module Text {
  import opened Wrappers

  /** `s.startswith(p)` */
  predicate StartsWith(s: string, p: string) {
    |p| <= |s| && s[..|p|] == p
  }

  /** `sep` occurs in `s` starting at position `i`. */
  predicate OccursAt(s: string, sep: string, i: int) {
    0 <= i && i + |sep| <= |s| && s[i..i + |sep|] == sep
  }

  /** Position of the leftmost occurrence of `sep` in `s` (`s.find(sep)`). */
  function Find(s: string, sep: string): (r: Option<nat>)
    ensures r.Some? ==> OccursAt(s, sep, r.value)
    ensures r.Some? ==> forall j :: 0 <= j < r.value ==> !OccursAt(s, sep, j)
    ensures r.None? ==> forall j :: !OccursAt(s, sep, j)
    decreases |s|
  {
    if |s| < |sep| then None
    else if s[..|sep|] == sep then Some(0)
    else
      ShiftOccurs(s, sep);
      match Find(s[1..], sep)
      case None => None
      case Some(k) => Some(k + 1)
  }

  /** An occurrence past the first character is one in the tail. */
  lemma ShiftOccurs(s: string, sep: string)
    requires |s| > 0
    ensures forall j :: 0 < j ==> (OccursAt(s, sep, j) <==> OccursAt(s[1..], sep, j - 1))
  {
    forall j | 0 < j
      ensures OccursAt(s, sep, j) <==> OccursAt(s[1..], sep, j - 1)
    {
      if j + |sep| <= |s| {
        var tail := s[1..];
        var a, b := tail[j - 1..j - 1 + |sep|], s[j..j + |sep|];
        forall t | 0 <= t < |sep| ensures a[t] == b[t] {
          assert a[t] == tail[j - 1 + t] == s[j + t];
        }
        assert a == b;
      }
    }
  }

  /** Python's `sep in s`. */
  predicate Contains(s: string, sep: string) {
    Find(s, sep).Some?
  }

  /** Cutting around an occurrence gives back the text. */
  lemma CutAround(s: string, sep: string, i: nat)
    requires OccursAt(s, sep, i)
    ensures s[..i] + sep + s[i + |sep|..] == s
  {
    assert s == s[..i] + s[i..i + |sep|] + s[i + |sep|..];
  }

  /** Before the leftmost occurrence there is none. */
  lemma NoneBefore(s: string, sep: string, i: nat)
    requires |sep| > 0 && i <= |s| && forall j :: 0 <= j < i ==> !OccursAt(s, sep, j)
    ensures !Contains(s[..i], sep)
  {
    var head := s[..i];
    forall j | OccursAt(head, sep, j) ensures OccursAt(s, sep, j) && j < i {
      assert head[j..j + |sep|] == s[j..j + |sep|];
    }
  }

  /**
   * `a, b = s.split(sep)`: succeeds exactly when `sep` splits `s` into two
   * pieces, that is, when it occurs once and never again after that occurrence.
   */
  function SplitTwo(s: string, sep: string): (r: Option<(string, string)>)
    requires |sep| > 0
    ensures r.Some? ==> r.value.0 + sep + r.value.1 == s
    ensures r.Some? ==> !Contains(r.value.0, sep) && !Contains(r.value.1, sep)
    ensures r.None? ==> !Contains(s, sep) || Contains(s[Find(s, sep).value + |sep|..], sep)
  {
    match Find(s, sep)
    case None => None
    case Some(i) =>
      var rest := s[i + |sep|..];
      if Contains(rest, sep) then None
      else
        CutAround(s, sep, i);
        NoneBefore(s, sep, i);
        Some((s[..i], rest))
  }

  function DigitChar(d: nat): (c: char)
    requires d < 10
    ensures '0' <= c <= '9'
  {
    ['0', '1', '2', '3', '4', '5', '6', '7', '8', '9'][d]
  }

  predicate IsDigit(c: char) {
    '0' <= c <= '9'
  }

  function DigitValue(c: char): (d: nat)
    requires IsDigit(c)
    ensures d < 10 && DigitChar(d) == c
  {
    (c as int - '0' as int) as nat
  }

  /** `str(n)` for a natural number: decimal digits, no leading zero. */
  function NatToString(n: nat): (s: string)
    decreases n
  {
    if n < 10 then [DigitChar(n)] else NatToString(n / 10) + [DigitChar(n % 10)]
  }

  /** `str(i)` for any integer. */
  function IntToString(i: int): string {
    if i < 0 then "-" + NatToString(-i) else NatToString(i)
  }

  /** Value of a non-empty string of decimal digits, most significant first. */
  function DigitsValue(s: string): nat
    requires forall k :: 0 <= k < |s| ==> IsDigit(s[k])
  {
    if s == [] then 0 else DigitsValue(s[..|s| - 1]) * 10 + DigitValue(s[|s| - 1])
  }

  predicate AllDigits(s: string) {
    |s| > 0 && forall k :: 0 <= k < |s| ==> IsDigit(s[k])
  }

  /**
   * `int(s)` on an optionally signed run of ASCII digits; None where Python
   * raises ValueError.
   */
  function ParseInt(s: string): (r: Option<int>)
    ensures r.Some? <==> AllDigits(s) || (|s| > 0 && s[0] in "+-" && AllDigits(s[1..]))
  {
    if AllDigits(s) then Some(DigitsValue(s))
    else if |s| > 0 && s[0] == '-' && AllDigits(s[1..]) then Some(0 - DigitsValue(s[1..]) as int)
    else if |s| > 0 && s[0] == '+' && AllDigits(s[1..]) then Some(DigitsValue(s[1..]))
    else None
  }

  lemma {:induction false} NatToStringDigits(n: nat)
    ensures AllDigits(NatToString(n))
    ensures DigitsValue(NatToString(n)) == n
    decreases n
  {
    if n >= 10 {
      NatToStringDigits(n / 10);
      var s := NatToString(n);
      assert s[..|s| - 1] == NatToString(n / 10);
    }
  }

  /** `int(str(i)) == i`: the text `position()` writes is read back as the same index. */
  lemma IntRoundTrip(i: int)
    ensures ParseInt(IntToString(i)) == Some(i)
  {
    if i < 0 {
      NatToStringDigits(-i);
      assert IntToString(i)[1..] == NatToString(-i);
    } else {
      NatToStringDigits(i);
    }
  }
}

=== FILE: wrappers.dfy ===
/** Failure-carrying values used throughout the model. */
module Wrappers {

  datatype Option<+T> = None | Some(value: T)

  datatype Result<+R, +E> = Success(value: R) | Failure(error: E)
}
